=== FILE: README.md ===
# Storefront core, modelled in Dafny

This project models the rules under a Next.js shoe storefront that stores its data in a hosted Postgres database (Supabase). Page rendering and client plumbing are not modelled. Each database table is an immutable value: a sequence of rows, or a map keyed by its unique column. Each query or mutation is a pure transition over that value.

Every database call can fail. Its success or failure is an explicit boolean parameter (`queryOk`, `writeOk`, `clearOk`, ...). A transition returns `Step(state, reply)`, so a failed second call can still show that its first call was applied. Prices are integer cents. A rating average is an exact ratio. An ORDER BY is a stable insertion sort by the ordered column. Postgres leaves unspecified the order of rows that tie on that column, and the order of a query without ORDER BY; the model fixes table order for both. When the column is unique on the selected rows, every order the database may return is the model's (`Admin.OrderListingIsTheOrder`, `Products.ListingIsTheOrder`), and only then do separate page queries agree.

The modules follow the source files:

- `CartContext` (components/cart/cart-context.tsx): the client cart list.
- `CartTable` (lib/db/cart.ts): the owner-scoped `cart_items` table.
- `UsersDb` (lib/db/users.ts): users, notification preferences and the address book with its one-default-per-user rule.
- `AddressActions` (lib/actions/address-actions.ts): the authenticated address actions.
- `AddressForm` (components/account/address-form.tsx): the address dialog's schema, initial values and submit branch.
- `Admin` (lib/db/admin.ts): the one-primary-image rule, the order and user listings, the top-product join and the dashboard counts.
- `Reviews` (lib/db/reviews.ts): the rating summary, the review pages and review creation.
- `Products` (lib/db/products.ts): catalogue filters, sorts and pages, the fallback products and the product pages.
- `Categories` (lib/db/categories.ts): category filters and the built-in fallback categories.
- `Wishlist` (lib/db/wishlist.ts): the wishlist as a set of (user, product) pairs.
- `Newsletter` (lib/db/newsletter.ts): the per-email subscription state machine and the email-shape check.
- `UserActions` (lib/actions/user-actions.ts): the profile update and the preferences upsert.
- `AuthCallback` (app/auth/callback/route.ts): the sign-in callback.
- `TestimonialSlider` (components/testimonial-slider.tsx): the slider index.
- `ProductGrid` (components/products/product-grid.tsx): the grid's wishlist toggle.

`Common` (options, results, filtering, windows, sorting, sums), `Text` (ASCII case folding, substring search, split and join, code-point order) and `Catalog` (the shared row types) hold the definitions the other modules share.

Three behaviours of the code are reproduced as written, not as one might expect:

- The newsletter lookup uses `.single()`, which reports both "no row" and "several rows" with the same error code. The code treats that error as "no subscriber yet", so an email with two rows is inserted once more.
- The cart-context subtotal ignores the variant's price.
- The fallback product list ignores every filter except the limit.

## Model

| member | source | states |
|---|---|---|
| CartContext.AddItem | components/cart/cart-context.tsx:134-216 | An item matching the product and variant has only its quantity raised, every other item and field staying as it was. Otherwise a successful insert appends exactly one item carrying the given product, variant (or none), quantity and new id, and a user id when signed in or else a session id, never both; a failed insert changes nothing. The raised quantity stays even when the database call fails. |
| CartContext.UpdateItemQuantity | components/cart/cart-context.tsx:219-247 | A quantity below 1 behaves exactly as removing the item. Otherwise only the items with that id get the new quantity. A failed call leaves the list unchanged. |
| CartContext.RemoveItem | components/cart/cart-context.tsx:250-279 | Exactly the items with that id are dropped and the others keep their order. A failed call leaves the list unchanged. |
| CartContext.ClearCart | components/cart/cart-context.tsx:282-321 | With a user or a session the list becomes empty on success and stays unchanged on failure. With neither, nothing changes. |
| CartContext.ItemCount | components/cart/cart-context.tsx:49 | itemCount is 0 for an empty cart and never negative while every quantity is non-negative. Its growth under adding and removing is stated by AddItemCount and RemoveItemCount. |
| CartContext.UnitPrice | components/cart/cart-context.tsx:51 | `sale_price \|\| price`: a present non-zero sale price is the unit price, and a missing or zero one falls back to the list price. |
| CartContext.Subtotal | components/cart/cart-context.tsx:50-53 | The subtotal is 0 for an empty cart and never negative while every line total is non-negative. Its growth under adding is stated by AddItemSubtotal. |
| CartContext.Matches | components/cart/cart-context.tsx:145-147 | An item matches when it has the product and either the given variant's id, or no variant id when no variant is given. |
| CartContext.AddItemCount | components/cart/cart-context.tsx:49 | itemCount, the sum of the quantities, grows by exactly the added quantity whenever the new state shows the added item. |
| CartContext.AddItemSubtotal | components/cart/cart-context.tsx:50-53 | The subtotal grows by the added units times the product's sale price, or its list price when there is no sale price. |
| CartContext.RemoveItemCount | components/cart/cart-context.tsx:49 | After a removal, itemCount equals the old count minus the quantities of the removed items. |
| CartContext.AddItemKeepsKeysUnique | components/cart/cart-context.tsx:145-199 | Adding never creates a second item for the same (product, variant). |
| CartContext.UpdateKeepsKeysUnique | components/cart/cart-context.tsx:219-236 | Changing a quantity or removing never creates a duplicate (product, variant). |
| CartContext.RemoveKeepsKeysUnique | components/cart/cart-context.tsx:254-263 | Removing keeps at most one item per (product, variant). |
| CartContext.SubtotalIgnoresVariantPrice | components/cart/cart-page-client.tsx:63 | There is a line the cart page prices differently from the cart context, because the page takes the variant's own price first. |
| CartContext.SubtotalIgnoresVariant | components/cart/cart-context.tsx:50-53 | For every cart, replacing any item's variant leaves the subtotal unchanged: the variant never enters the price. |
| CartTable.CookieSession | lib/db/cart.ts:16-23 | The cookie gives a session exactly when it is present and non-empty. |
| CartTable.GetCart | lib/db/cart.ts:11-51 | With no user and no cookie the cart is empty. Otherwise it holds exactly the rows of the user, or else of the cookie's session, or it fails with "Failed to fetch cart". |
| CartTable.AddToCart | lib/db/cart.ts:53-124 | With one matching row for the owner, product and variant, that row's quantity becomes old plus added and nothing is inserted. With none, exactly one row with the owner, product, variant and quantity is appended. With several, it fails with "Failed to check cart". Other rows are unchanged. |
| CartTable.UpdateCartItem | lib/db/cart.ts:126-148 | Only the rows with that id in the caller's scope get the new quantity. With no user and no cookie the scope is every row. |
| CartTable.RemoveCartItem | lib/db/cart.ts:150-172 | Exactly the rows with that id in the caller's scope are deleted, and the rest keep their order. |
| CartTable.ClearCart | lib/db/cart.ts:174-198 | Every row of the owner is deleted and every other row is kept. With no user and no cookie nothing happens. |
| CartTable.MergeAnonymousCart | lib/db/cart.ts:200-240 | When the session owns no rows, the merge returns early and changes nothing. It reaches the merge procedure only when the session owns a row. |
| CartTable.WellFormed | lib/db/cart.ts:74-123 | The table invariant: distinct ids, each row owned by exactly one of a user or a session, at most one row per (owner, product, variant). |
| CartTable.SetQuantity | lib/db/cart.ts:100-103 | The rows with that id the owner may touch get the new quantity. Every other row, and every other column, is unchanged. |
| CartTable.AddToCartKeepsWellFormed | lib/db/cart.ts:74-123 | With a fresh id, adding keeps the table invariant: distinct ids, one owner per row, at most one row per (owner, product, variant). |
| CartTable.SetQuantityKeepsWellFormed | lib/db/cart.ts:100-103 | Changing quantities keeps the invariant. |
| CartTable.InsertKeepsWellFormed | lib/db/cart.ts:110-123 | When the duplicate check finds no row and the id is fresh, the inserted row keeps the invariant. |
| CartTable.UpdateCartItemKeepsWellFormed | lib/db/cart.ts:126-148 | updateCartItem keeps the invariant, whether or not the write succeeds. |
| CartTable.RemoveCartItemKeepsWellFormed | lib/db/cart.ts:150-172 | removeCartItem keeps the invariant. |
| CartTable.ClearCartKeepsWellFormed | lib/db/cart.ts:174-198 | clearCart keeps the invariant. |
| CartTable.WellFormedLookupAtMostOne | lib/db/cart.ts:91-96 | In a well-formed table the duplicate check finds at most one row, so the "several rows" error cannot happen. |
| CartTable.AddToCartUnits | lib/db/cart.ts:98-123 | A successful add raises the owner's total units by exactly the added quantity, whether it updates a row or inserts one. |
| CartTable.ClearThenGetCartIsEmpty | lib/db/cart.ts:177-190 | After clearing, reading the same owner's cart gives the empty list. |
| UsersDb.GetUserPreferences | lib/db/users.ts:32-60 | A flag is off exactly when the user's row exists, the query succeeds and that column is false. A missing row, an error or a null column reads as on. |
| UsersDb.NewRole | lib/db/users.ts:115 | A new user's role is the given role when it is non-empty, and otherwise "customer". |
| UsersDb.CreateOrUpdateUser | lib/db/users.ts:62-131 | An existing user gets the new email and the given names and phone, and keeps role and creation time. A new user is inserted with the given or default role. On failure the table is unchanged. |
| UsersDb.UnsetDefaults | lib/db/users.ts:186-193 | The first step only clears default flags, and only on that user's rows. After a requested, successful clear, no default of the user other than the kept id remains. |
| UsersDb.ClearDefaults | lib/db/users.ts:225-233 | Every row of the user except the kept id loses its default flag. All other columns and all other users' rows are unchanged. |
| UsersDb.ClearDefaultsKeepsOk | lib/db/users.ts:186-193 | The first step never breaks "at most one default address per user". |
| UsersDb.CreateAddress | lib/db/users.ts:173-207 | The default-clearing step runs first. The insert then appends exactly one row with the given fields, or fails with the cleared table kept. |
| UsersDb.CreateAddressKeepsOk | lib/db/users.ts:186-200 | With a fresh id and a successful clear, creating an address keeps at most one default per user and distinct ids. |
| UsersDb.CreateDefaultIsTheDefault | lib/db/users.ts:186-195 | A new default address is afterwards the user's only default. |
| UsersDb.UncheckedClearBreaksOneDefault | lib/db/users.ts:187-193 | The clear's failure is not checked: a failed clear followed by a default insert leaves a user with two defaults. |
| UsersDb.PatchRows | lib/db/users.ts:235-241 | Only the row matching both id and user is patched, with each given field written and each omitted field kept. |
| UsersDb.PatchKeepsOk | lib/db/users.ts:226-241 | Patching keeps the invariant when a patch that sets the default targets the user's only remaining default. |
| UsersDb.UpdateAddress | lib/db/users.ts:209-253 | Other defaults of the user are cleared when the update sets the default, and then only the row matching id and user is patched. |
| UsersDb.UpdateAddressKeepsOk | lib/db/users.ts:225-241 | With a successful clear, updating keeps at most one default per user, whether or not the patch succeeds. |
| UsersDb.UpdateAddressOthersUnchanged | lib/db/users.ts:226-239 | An update never changes another user's addresses. |
| UsersDb.DeleteAddress | lib/db/users.ts:255-269 | Exactly the rows matching both id and user are removed, and the others keep their order. |
| UsersDb.DeleteAddressKeepsOk | lib/db/users.ts:259 | Deleting keeps at most one default per user and distinct ids. |
| UsersDb.GetUserAddresses | lib/db/users.ts:133-153 | The result is a permutation of the user's addresses with every default before every non-default. A failed query gives none. |
| UsersDb.GetDefaultAddress | lib/db/users.ts:271-292 | A returned address is the user's and is a default. A failed query gives none. |
| UsersDb.DefaultAddressFound | lib/db/users.ts:275-280 | Under the invariant, the lookup finds nothing exactly when the user has no default address. |
| AddressActions.StoredLine2 | lib/actions/address-actions.ts:32 | An empty or absent second line is stored as null, and any other value unchanged. |
| AddressActions.CreateAddress | lib/actions/address-actions.ts:7-47 | Without a current user it fails with "Not authenticated" before any change. Otherwise it appends one row owned by the current user on success. Existing rows can only lose their default flag, and only the current user's rows, and only when the new address is a default. After a successful clear no old row of the user is a default. A failed insert adds no row: the table is exactly the one the clear step left. |
| AddressActions.CreateAddressDefault | lib/actions/address-actions.ts:24-38 | With a successful clear, a default address created by the action is afterwards the user's only default, and the invariant holds. |
| AddressActions.Overwrite | lib/actions/address-actions.ts:81-89 | The update writes all seven fields: applied to any row, it yields the row the form data describes, with that row's id and owner. |
| AddressActions.UpdateAddress | lib/actions/address-actions.ts:49-100 | Without a current user it fails with "Not authenticated" before any change. Otherwise only the row matching id and current user is overwritten, and only the other rows' default flags may change. A failed update leaves exactly the table the clear step left, with every row of that id unchanged. |
| AddressActions.UpdateAddressKeepsOk | lib/actions/address-actions.ts:69-91 | With a successful clear, the action keeps at most one default per user. |
| AddressActions.DeleteAddress | lib/actions/address-actions.ts:102-120 | Without a current user it fails with "Not authenticated". A failed delete fails with "Failed to delete address" and changes nothing. Otherwise it removes exactly the row matching id and current user. |
| AddressForm.Required | components/account/address-form.tsx:29-34 | An empty required field gives exactly one complaint with that field's message, and a filled one gives none. |
| AddressForm.Errors | components/account/address-form.tsx:28-36 | There is no complaint exactly when the form is complete. Each required field's complaint is present exactly when that field is empty. |
| AddressForm.Validate | components/account/address-form.tsx:28-36 | A submission is valid exactly when the five required fields are non-empty. Valid data carries the fields, with an omitted default flag read as false. |
| AddressForm.Line2NeverRejects | components/account/address-form.tsx:30 | The second line never changes whether a submission is valid. |
| AddressForm.DefaultValues | components/account/address-form.tsx:52-60 | The dialog opens with the edited address's fields, with "" and false where there is none. |
| AddressForm.Submit | components/account/address-form.tsx:63-106 | An incomplete form is blocked with its field complaints and calls no action. A complete one calls update with the edited address's id, or create when there is none, with the entered fields and the default flag read as false when omitted. |
| AddressForm.EmptyFormRejected | components/account/address-form.tsx:28-60 | A new dialog submitted untouched gets all five required-field complaints. |
| AddressForm.UnchangedEditRoundTrip | components/account/address-form.tsx:52-68 | Saving an address without edits writes back the same row, except that an empty second line becomes null. |
| Admin.UnsetPrimary | lib/db/admin.ts:83-90 | The first step only clears primary flags, and only on that product's images. It runs only for a primary image. |
| Admin.AddProductImage | lib/db/admin.ts:73-109 | Other products' images are never changed. A non-primary image leaves every existing flag unchanged. On success exactly one image is appended, primary exactly when requested. |
| Admin.AddProductImageKeepsOk | lib/db/admin.ts:83-101 | With a successful clear and a fresh id, adding keeps at most one primary image per product. A new primary image is then its product's only primary. |
| Admin.DeleteProductImage | lib/db/admin.ts:111-120 | Exactly the image with that id is removed, and the rest keep their order. |
| Admin.DeleteProductImageKeepsOk | lib/db/admin.ts:114 | Deleting keeps at most one primary image per product. |
| Admin.ParseOrderSort | lib/db/admin.ts:208-221 | "oldest", "highest" and "lowest" select their orders. Anything else, including no value, sorts newest first. |
| Admin.OrderLe | lib/db/admin.ts:208-221 | The comparator is total: highest means total non-increasing, lowest total non-decreasing, and oldest or newest created_at ascending or descending. |
| Admin.AdminGetAllOrders | lib/db/admin.ts:178-233 | A page holds at most limit orders (default 10), all with the given status when one is set, in the chosen order. A failed query raises "Failed to fetch orders". |
| Admin.OrderSelection | lib/db/admin.ts:203-205 | An order is selected exactly when it has the status, or always when the status is empty or absent. |
| Admin.OrderListing | lib/db/admin.ts:203-221 | The selected orders in the chosen order, ties in table order. |
| Admin.OrderListingIsTheOrder | lib/db/admin.ts:208-221 | When the sort column is unique on the selected orders, every ordering of them the database may return is the model's listing. |
| Admin.OrderPageIsWindow | lib/db/admin.ts:223 | A page always succeeds and holds min(limit, rows left) rows; its i-th row is row offset+i of the filtered, sorted listing. |
| Admin.OrderPagesTile | lib/db/admin.ts:202-223 | When the sort column is unique on the selected orders, page (offset, n) followed by page (offset+n, m) is page (offset, n+m). |
| Admin.AdminGetAllUsers | lib/db/admin.ts:236-266 | A page holds at most limit users, each with the role when one is set and matching the search in email, first or last name ignoring case, newest first. |
| Admin.MatchesSearch | lib/db/admin.ts:252-254 | The search matches when the term occurs, ignoring ASCII case, in the email or in a present first or last name. |
| Admin.UserSelection | lib/db/admin.ts:246-254 | A user is selected exactly when they pass the role filter and the three-column search. |
| Admin.NewestFirst | lib/db/admin.ts:256 | The comparator is total and puts a later created_at first. |
| Admin.UsersPageIsWindow | lib/db/admin.ts:246-256 | A page always succeeds and holds min(limit, rows left) rows; its i-th row is row offset+i of the selected users, newest first. |
| Admin.AllSelectedUsersListed | lib/db/admin.ts:246-256 | For any role and search, a page from the start at least as large as the table holds exactly the selected users, each as often as the selection does. |
| Admin.AllUsersListed | lib/db/admin.ts:242-256 | With no filters and a page as large as the table, the listing holds every user. |
| Admin.TopProducts | lib/db/admin.ts:376-395 | The result joins, row by row in procedure order, the rows whose product lookup succeeded, each with its product, units sold and revenue. |
| Admin.TopProductsOrder | lib/db/admin.ts:376-395 | The kept rows are a subsequence of the procedure's rows. Their number is the number of successful lookups, and all rows are kept when every lookup succeeds. |
| Admin.DashboardCounts | lib/db/admin.ts:412-414 | A count the database leaves null is reported as 0, and any other count as is. |
| Reviews.Tally | lib/db/reviews.ts:95-106 | The distribution has the keys 1 to 5 and every rating seen, each mapped to the number of reviews with that rating. |
| Reviews.TallyStep | lib/db/reviews.ts:103-106 | One more review increments exactly its own rating's entry. |
| Reviews.Distribution | lib/db/reviews.ts:95-106 | The loop that starts from five zero entries and counts each review computes the distribution. |
| Reviews.DistributionSumsToCount | lib/db/reviews.ts:95-106 | With ratings in 1..5, as the table's check constraint demands, the keys are exactly 1..5 and the counts sum to the number of reviews. |
| Reviews.Summarize | lib/db/reviews.ts:90-112 | The count is the number of ratings. The average is sum/count when there are ratings and 0 otherwise. The distribution is the tally. |
| Reviews.AverageInRange | lib/db/reviews.ts:92 | With ratings in 1..5, a non-empty average lies between 1 and 5. |
| Reviews.EmptyIsEmptySummary | lib/db/reviews.ts:76-101 | No reviews summarise to the same answer as a failed query: count 0, average 0, all five entries 0. |
| Reviews.PublishedRatings | lib/db/reviews.ts:69-73 | There is one rating per published review of the product. |
| Reviews.GetProductRating | lib/db/reviews.ts:61-127 | On success the summary is that of the product's published reviews, and its count is their number. On failure it is the all-zero summary. |
| Reviews.RatingDistributionAddsUp | lib/db/reviews.ts:94-106 | With ratings in 1..5, the reported distribution always sums to the reported count. |
| Reviews.ParseReviewSort | lib/db/reviews.ts:33-43 | "highest" and "lowest" select rating order. Anything else sorts newest first. |
| Reviews.ReviewLe | lib/db/reviews.ts:33-43 | The comparator is total: highest means rating non-increasing, lowest rating non-decreasing, newest created_at descending. |
| Reviews.ProductReviews | lib/db/reviews.ts:29-30 | A review is selected exactly when it is a published review of the product. |
| Reviews.GetProductReviews | lib/db/reviews.ts:8-59 | A page holds at most limit reviews (default 10), all published reviews of the product, in the chosen order. A failed query gives none. |
| Reviews.ReviewsPageIsWindow | lib/db/reviews.ts:29-45 | A page holds min(limit, rows left) rows; its i-th row is row offset+i of the product's published reviews in the chosen order. |
| Reviews.AllReviewsListed | lib/db/reviews.ts:16-47 | A page from the start at least as large as the table holds each published review of the product exactly as often as the table does, and no other review. |
| Reviews.CreateReview | lib/db/reviews.ts:129-157 | A successful insert appends the review with is_published set. A rating outside 1..5 or a failed insert changes nothing and reports the database's message. |
| Reviews.CreatedReviewCounts | lib/db/reviews.ts:140-145 | A created review counts at once in its product's rating summary. |
| Products.ParseProductSort | lib/db/products.ts:239-252 | "price_asc", "price_desc" and "popular" select their orders. Anything else sorts newest first. |
| Products.ProductLe | lib/db/products.ts:239-252 | The comparator is total: price non-decreasing or non-increasing, featured first, or created_at descending. |
| Products.JoinQuery | lib/db/products.ts:205-262 | A page holds exactly min(limit, selected - offset) products (none past the end), all published and passing every given filter, with inclusive price bounds, in the chosen order. |
| Products.ProductsPageIsWindow | lib/db/products.ts:212-254 | With no condition on ties, a page has that size and its i-th product is product offset+i of the sorted selection. |
| Products.AllProductsListed | lib/db/products.ts:212-254 | A first page at least as large as the table holds each product passing the filters exactly as often as the table does, and nothing else, whatever the order of ties. |
| Products.FirstPageIsTop | lib/db/products.ts:239-254 | On a first page every shown product may precede, in the chosen order, every selected product left out, so the page holds the top of the listing whatever the order of ties. |
| Products.GetProducts | lib/db/products.ts:177-304 | The join query's page is returned when it succeeds. Otherwise the plain query pages through the published products in table order. The plain page holds exactly min(limit, published - offset) of them, row i being published product offset+i. When both fail, the first min(limit, 4) built-in products are returned. |
| Products.DefaultOptions | lib/db/products.ts:188-198 | Omitted options mean limit 10, offset 0 and newest first. |
| Products.Selected | lib/db/products.ts:212-236 | The join query's filters: published, and each given option, with inclusive price bounds on the list price. |
| Products.Selection | lib/db/products.ts:212-236 | A product is selected exactly when it is a row passing the join query's filters. |
| Products.Listing | lib/db/products.ts:212-252 | The selected products in the chosen order, ties in table order. |
| Products.ListingIsTheOrder | lib/db/products.ts:239-252 | When the sort column is unique on the selected products, every ordering of them the database may return is the model's listing. |
| Products.JoinQueryIsPage | lib/db/products.ts:212-254 | When the sort column is unique on the selected products, every page is rows offset to offset+limit-1 of one listing that does not depend on the page asked for, so consecutive pages tile it. |
| Products.GetFeaturedProducts | lib/db/products.ts:528-530 | When the join query succeeds: published featured products, newest first, exactly min(limit, number of published featured products) of them, and no featured product left out is newer than one shown. |
| Products.GetNewArrivals | lib/db/products.ts:532-534 | When the join query succeeds: published new products, newest first, exactly min(limit, number of published new products) of them, and no new product left out is newer than one shown. |
| Products.SearchProducts | lib/db/products.ts:536-538 | When the join query succeeds: published products whose name contains the query ignoring case (all published ones for an empty query), exactly min(limit, number of matches) of them, and no match left out is newer than one shown. |
| Products.FallbackIgnoresFilters | lib/db/products.ts:302 | The fallback ignores the filters: asking for featured products can return a product that is not featured. |
| Products.FirstRelated | lib/db/products.ts:511-518 | The first min(limit, n) related products in table order, where n is the number of products in the category other than the given id. |
| Products.GetRelatedProducts | lib/db/products.ts:500-526 | At most limit products of the same category other than the given one. They are published database rows on success and built-in products on failure. |
| Products.NoFallbackRelated | lib/db/products.ts:518 | With the database unreachable, no built-in product has a related product, because the four are in four categories. |
| Products.FallbackPage | lib/db/products.ts:325-341 | The first built-in product with the key, shown with the fixed summary, or none exactly when no built-in product has the key. |
| Products.ProductPage | lib/db/products.ts:311-380 | A single published row with the key gives its page and the summary of its published reviews. Anything else falls back to the built-in products. |
| Products.GetProductById | lib/db/products.ts:306-401 | A page found by id is for that id, and is a published database row or a built-in product. |
| Products.GetProductBySlug | lib/db/products.ts:403-498 | A page found by slug is for that slug, and is a published database row or a built-in product. |
| Products.ByIdFallback | lib/db/products.ts:383-399 | With the database unreachable, exactly the four built-in ids have a page, and each shows the fixed summary. |
| Products.FallbackDistributionAddsUp | lib/db/products.ts:331-339 | The fixed distribution adds up to its review count of 12. |
| Products.FallbackSummaryUnreachable | lib/db/products.ts:331-339 | No list of ratings summarises to the fixed summary: that distribution averages 55/12, not the stated 4.5. |
| Categories.NameLe | lib/db/categories.ts:88 | Name order is a total order on categories. |
| Categories.Matches | lib/db/categories.ts:108-117 | The parent filter is none, a null parent or that parent, and the gender filter applies only to a non-empty gender. |
| Categories.FilterFallback | lib/db/categories.ts:105-120 | The result is an order-preserving subsequence of the built-in list. It holds exactly the built-in categories passing the parent filter (none, null parent, or that parent) and, when the gender is truthy, the gender filter. |
| Categories.GetCategories | lib/db/categories.ts:65-102 | On success the result is a permutation of the matching rows in name order. On failure it is the filtered built-in list. |
| Categories.GetMainCategories | lib/db/categories.ts:166-168 | Exactly the top-level categories, of the gender when one is given, on success. |
| Categories.GetSubcategories | lib/db/categories.ts:170-172 | Only the children of the category, and on success all of them. |
| Categories.GetWomenCategories | lib/db/categories.ts:174-176 | Only women's categories. |
| Categories.WomenFallback | lib/db/categories.ts:174-176 | With the database unreachable, every built-in category is returned. |
| Categories.GetMenCategories | lib/db/categories.ts:178-180 | Only men's categories. |
| Categories.MenFallback | lib/db/categories.ts:178-180 | With the database unreachable, there is no men's category. |
| Categories.FallbackNotByName | lib/db/categories.ts:7-63 | The built-in list is not in name order, so the two paths order categories differently. |
| Categories.Single | lib/db/categories.ts:122-164 | The one row with the key when the query finds exactly one. Otherwise the first built-in category with the key, or none. |
| Categories.GetCategoryBySlug | lib/db/categories.ts:122-142 | A category found by slug has that slug and comes from the table or the built-in list. |
| Categories.GetCategoryById | lib/db/categories.ts:144-164 | A category found by id has that id and comes from the table or the built-in list. |
| Categories.DuplicateSlugFallsBack | lib/db/categories.ts:130-135 | Two rows with one slug make the lookup fall back to the built-in list. |
| Wishlist.GetWishlist | lib/db/wishlist.ts:9-36 | A permutation of exactly the user's rows, newest first. A failed query gives none. |
| Wishlist.IsInWishlist | lib/db/wishlist.ts:79-100 | True exactly when the query succeeds and finds exactly one row. An error reads as false. |
| Wishlist.IsInWishlistIffPresent | lib/db/wishlist.ts:83-95 | Under the unique constraint, membership is answered correctly whenever the query succeeds. |
| Wishlist.AddToWishlist | lib/db/wishlist.ts:43-61 | The call succeeds exactly when the database raises no error other than the duplicate-key error 23505. A saved pair is left alone. Otherwise one row is added on success. A failure changes nothing. The unique constraint is kept. |
| Wishlist.AddIdempotent | lib/db/wishlist.ts:47-56 | Adding the same pair twice leaves the list as adding it once did. The second call fails only when the database raises another error. |
| Wishlist.RemoveFromWishlist | lib/db/wishlist.ts:63-77 | Exactly the user's rows for the product are deleted, and the rest keep their order. |
| Wishlist.ClearWishlist | lib/db/wishlist.ts:102-116 | Exactly the user's rows are deleted. |
| Wishlist.AddThenRemove | lib/db/wishlist.ts:47-95 | After an add the product is reported saved, and after a removal it is not. |
| Wishlist.ClearThenEmpty | lib/db/wishlist.ts:106 | After clearing, the user's list reads back empty. |
| Wishlist.ClearKeepsOthers | lib/db/wishlist.ts:106 | Clearing one user's list leaves every other user's list as it was. |
| Newsletter.EmailCheckCorrect | lib/db/newsletter.ts:19-22 | Splitting at the first '@' accepts exactly the addresses the pattern accepts. |
| Newsletter.IsValidEmail | lib/db/newsletter.ts:19-20 | An email passes exactly when it has the pattern's shape: a non-empty local part and a domain, both without white space or '@', the domain with an inner dot. |
| Newsletter.AcceptsPlainAddress | lib/db/newsletter.ts:19-22 | An address of the form a@b.c passes. |
| Newsletter.RejectsDotlessDomain | lib/db/newsletter.ts:19-22 | A domain without an inner dot fails. |
| Newsletter.Subscribe | lib/db/newsletter.ts:8-80 | A missing or malformed email is rejected with no change. A subscribed email stays as it is. An unsubscribed one is resubscribed ("Welcome back"): the table keeps its length and only subscription flags differ. An unknown one gets exactly one new subscribed row appended after the others. Success implies the email is subscribed afterwards, and, with ids as the primary key, every other email's rows are as before. |
| Newsletter.Unsubscribe | lib/db/newsletter.ts:82-124 | An unknown email fails as not found with no change. A known one ends unsubscribed, the table keeps its length, only subscription flags differ, and, with ids as the primary key, every other email's rows are as before. |
| Newsletter.FlagOwnRow | lib/db/newsletter.ts:42-45 | Updating the flag of an email's only row by its id leaves that email with the new flag, changes no id or email, and, with ids as the primary key, leaves every other email's rows alone. |
| Newsletter.Insert | lib/db/newsletter.ts:59-64 | An insert appends the row after the others, adds it to its email's rows and to no other email's. |
| Newsletter.SubscribeTwice | lib/db/newsletter.ts:39-55 | A second subscription of the same email changes nothing and says "already subscribed". |
| Newsletter.UnsubscribeThenSubscribe | lib/db/newsletter.ts:39-52 | An unsubscribed email that subscribes again is welcomed back and subscribed. |
| Newsletter.SubscribeKeepsUnique | lib/db/newsletter.ts:39-71 | Subscribing keeps at most one row per email. |
| UserActions.UpdateUserProfile | lib/actions/user-actions.ts:13-33 | Only the first and last names, a given phone and the update time change, on the row with that id. Email, role and every other row are untouched. An error reports no success. |
| UserActions.UpdateNotificationPreferences | lib/actions/user-actions.ts:50-78 | The upsert leaves one row for the user with the three submitted flags. The product-updates flag of an existing row is kept. Other users' rows are unchanged. |
| UserActions.PreferencesReadBack | lib/actions/user-actions.ts:60-69 | Reading the preferences back gives the submitted flags and the previous product-updates flag. |
| UserActions.PreferencesIdempotent | lib/actions/user-actions.ts:60-69 | Submitting the same preferences twice is submitting them once. |
| AuthCallback.Destination | app/auth/callback/route.ts:10 | The destination is the callback URL when it is non-empty, and otherwise "/products". |
| AuthCallback.FirstName | app/auth/callback/route.ts:34 | The text before the first space of the full name, or "" with no full name. |
| AuthCallback.LastName | app/auth/callback/route.ts:34-35 | The last name is everything after the first space of the full name: with a space, first name, a space and last name rebuild the full name. Without a space, or without a full name, it is "". |
| AuthCallback.Callback | app/auth/callback/route.ts:7-47 | The redirect is always the origin plus the destination. A row with role "customer" is added only when a code is present, the session has a user and no row with that id exists. Existing rows are never changed. |
| AuthCallback.SecondSignInKeepsRow | app/auth/callback/route.ts:26-41 | A second sign-in never touches the row the first one created. |
| TestimonialSlider.Next | components/testimonial-slider.tsx:53-55 | Moves forward, wrapping from the last index to 0. The index stays in range. |
| TestimonialSlider.Prev | components/testimonial-slider.tsx:57-59 | Moves back, wrapping from 0 to the last index. The index stays in range. |
| TestimonialSlider.GoTo | components/testimonial-slider.tsx:128 | A dot selects its own slide. |
| TestimonialSlider.NextPrevInverse | components/testimonial-slider.tsx:53-59 | Next then previous, or previous then next, returns to the start. |
| TestimonialSlider.AdvanceIsModular | components/testimonial-slider.tsx:53-55 | n presses of next move the index by n modulo the number of testimonials. |
| TestimonialSlider.FullCycle | components/testimonial-slider.tsx:53-55 | As many presses as there are testimonials return to the start. |
| ProductGrid.Toggle | components/products/product-grid.tsx:18-22 | A present id loses every occurrence and an absent one is appended at the end. Every other id keeps its membership. A duplicate-free list stays duplicate-free. |
| ProductGrid.ToggleTwice | components/products/product-grid.tsx:19-21 | Toggling twice restores the id's membership, and for an absent id it restores the list itself. |

## Left out

- Database access, cookies, local storage, auth sessions, toasts and cache revalidation are not modelled. Each table is a value, and each call's outcome is a boolean parameter.
- The server procedures `merge_carts`, `decrement_variant_stock`, `decrement_product_stock`, `get_top_products` and `get_sales_by_day` are not modelled: their bodies are not in the repository. Their results are parameters (the top-product rows and the lookup) or are left out (sales by day).
- `createOrder` (lib/db/orders.ts) is not modelled: it is a chain of inserts and those procedures.
- The cart provider's `initCart` (components/cart/cart-context.tsx:56-131) is not modelled: it fetches and merges through `merge_carts`.
- `getUserById`, `getAddressById` and `getWishlistByUserId` are plain lookups or aliases with no rule of their own.
- `updateUserPassword` is not modelled: it only forwards to the auth provider.
- `adminCreateProduct`, `adminUpdateProduct`, `adminDeleteProduct`, the category CRUD functions and `adminUpdateUserRole` are not modelled: they are single unconditional writes.
- `totalSales`, the cart page's shipping and tax, the discount percentage and the real-valued rating average are floating point. Prices are integer cents and the average is an exact ratio.
- Joined columns (images, categories, variants, users) are not modelled: only the base rows are.
- Text search: `ilike` wildcards and commas inside the search term are not modelled. The model uses plain substring search with ASCII case folding.
- Text order: the database's collation is not modelled. Names are compared in code-point order.
- Concurrency between requests is not modelled: the code does not coordinate any.
- The initial values of the notifications form differ from the defaults of `getUserPreferences`. The form is not part of this model.
- The creation time of the built-in products and categories is the load time in the source. Here it is the fixed time 0.
- UsersDb.CreateOrUpdateUser: the update does not touch `updated_at`, and no database trigger is modelled. Every failure is reported with the outer catch's single message.
- CartTable.MergeAnonymousCart: the merge itself is left to `merge_carts`, so the contract states only when it is reached.
- Admin.TopProducts: the product lookup is a parameter, and the procedure's own choice and order of rows are taken as given.
- Products.GetProducts: on the plain-query path each product's separately fetched images and category are not modelled. That query has no ORDER BY, so Postgres may return its rows in any order; the model takes table order.
- Products.FirstRelated: `.limit` without ORDER BY may return any of the related rows in any order in Postgres; the model takes the first ones in table order.
- Admin.OrderPagesTile: tiling across separate queries is promised only when the sort column is unique on the selected orders, because Postgres may order ties differently in each query.
- Products.JoinQueryIsPage: as for orders, separate page queries agree on one listing only when the sort column is unique on the selected products. The size of a page, its membership in the first-page case and the top-of-listing property hold whatever the ties (Products.ProductsPageIsWindow, Products.AllProductsListed, Products.FirstPageIsTop).
- Newsletter.Subscribe: a failed lookup with the "no rows" code counts as a successful lookup, and any other failure as a failed one.
- Newsletter.Subscribe: the promise that other emails' rows are untouched is stated only for tables whose ids are distinct (the primary key). The update goes by id, so under repeated ids it would also flip another row with that id.
- Newsletter.Unsubscribe: the same primary-key hypothesis holds for its promise about other emails' rows.

=== FILE: address_actions.dfy ===
/** lib/actions/address-actions.ts: the address actions the account pages
    call. Each one first requires a signed-in user, then works on that
    user's rows with the two-step default rule of the address book. */
module AddressActions {
  import opened Common
  import opened Catalog
  import UsersDb

  /** What the address form submits. */
  datatype AddressData = AddressData(
    line1: string,
    line2: Option<string>,
    city: string,
    state: string,
    postalCode: string,
    country: string,
    isDefault: bool)

  const NotAuthenticated := "Not authenticated"

  /** `address_line2 || null`: an empty or absent second line is stored as
      null. */
  function StoredLine2(line2: Option<string>): (r: Option<string>)
    ensures r.None? <==> !Truthy(line2)
    ensures r.Some? ==> r == line2
  {
    if Truthy(line2) then line2 else None
  }

  /** The row `createAddress` inserts for user `userId`. */
  function NewRow(data: AddressData, userId: Id, id: Id): Address {
    Address(id, userId, data.line1, StoredLine2(data.line2), data.city, data.state, data.postalCode,
            data.country, data.isDefault)
  }

  function AsNewAddress(data: AddressData, userId: Id): UsersDb.NewAddress {
    UsersDb.NewAddress(userId, data.line1, StoredLine2(data.line2), data.city, data.state, data.postalCode,
                       data.country, Some(data.isDefault))
  }

  /** `createAddress`: the address-book insert for the current user. */
  function CreateAddress(table: seq<Address>, currentUser: Option<Id>, data: AddressData, newId: Id,
                         clearOk: bool, insertOk: bool): (r: Step<seq<Address>, ()>)
    ensures currentUser.None? ==> r == Step(table, Err(NotAuthenticated))
    ensures currentUser.Some? ==> (r.reply.Ok? <==> insertOk)
    ensures currentUser.Some? && r.reply.Err? ==> r.reply.msg == UsersDb.CreateFailed
    ensures currentUser.Some? && r.reply.Err? ==>
      r.state == UsersDb.UnsetDefaults(table, currentUser.value, None, data.isDefault, clearOk) && |r.state| == |table|
    ensures currentUser.Some? && r.reply.Ok? ==>
      |r.state| == |table| + 1 && r.state[|table|] == NewRow(data, currentUser.value, newId)
    ensures currentUser.Some? ==> |r.state| >= |table|
    ensures currentUser.Some? ==> forall j :: 0 <= j < |table| ==>
      && r.state[j] == table[j].(isDefault := r.state[j].isDefault)
      && (r.state[j].isDefault ==> table[j].isDefault)
      && (!data.isDefault || table[j].userId != currentUser.value ==> r.state[j] == table[j])
    ensures currentUser.Some? && data.isDefault && clearOk ==>
      forall j :: 0 <= j < |table| && table[j].userId == currentUser.value ==> !r.state[j].isDefault
  {
    if currentUser.None? then Step(table, Err(NotAuthenticated))
    else
      var u := currentUser.value;
      var cleared := UsersDb.UnsetDefaults(table, u, None, data.isDefault, clearOk);
      var s := UsersDb.CreateAddress(table, AsNewAddress(data, u), newId, clearOk, insertOk);
      assert |s.state| >= |table| && forall j :: 0 <= j < |table| ==> s.state[j] == cleared[j];
      assert data.isDefault && clearOk ==> forall j :: 0 <= j < |table| && table[j].userId == u ==>
        cleared[j] in cleared && !cleared[j].isDefault;
      Step(s.state, if s.reply.Ok? then Ok(()) else Err(s.reply.msg))
  }

  /** With the clear succeeding and a fresh id, a created default address
      becomes the user's one default, and the invariant holds after. */
  lemma CreateAddressDefault(table: seq<Address>, userId: Id, data: AddressData, newId: Id)
    requires UsersDb.AddressesOk(table) && UsersDb.FreshAddressId(table, newId)
    ensures var r := CreateAddress(table, Some(userId), data, newId, true, true);
      && UsersDb.AddressesOk(r.state)
      && (data.isDefault ==> UsersDb.GetDefaultAddress(r.state, userId, true) == Some(NewRow(data, userId, newId)))
  {
    UsersDb.CreateAddressKeepsOk(table, AsNewAddress(data, userId), newId, true);
    if data.isDefault {
      UsersDb.CreateDefaultIsTheDefault(table, AsNewAddress(data, userId), newId);
    }
  }

  /** The update body: all seven fields are written. */
  function Overwrite(data: AddressData): (patch: UsersDb.AddressPatch)
    ensures forall a: Address :: UsersDb.Apply(a, patch) == NewRow(data, a.userId, a.id)
  {
    UsersDb.AddressPatch(Some(data.line1), Some(StoredLine2(data.line2)), Some(data.city), Some(data.state),
                         Some(data.postalCode), Some(data.country), Some(data.isDefault))
  }

  /** `updateAddress`: clear the user's other defaults when this address is
      to be the default, then overwrite the row with this id and user. No
      matching row is not an error here. */
  function UpdateAddress(table: seq<Address>, currentUser: Option<Id>, addressId: Id, data: AddressData,
                         clearOk: bool, updateOk: bool): (r: Step<seq<Address>, ()>)
    ensures currentUser.None? ==> r == Step(table, Err(NotAuthenticated))
    ensures currentUser.Some? ==> (r.reply.Ok? <==> updateOk)
    ensures currentUser.Some? && r.reply.Err? ==> r.reply.msg == UsersDb.UpdateFailed
    ensures currentUser.Some? && r.reply.Err? ==>
      r.state == UsersDb.UnsetDefaults(table, currentUser.value, Some(addressId), data.isDefault, clearOk)
    ensures currentUser.Some? && r.reply.Err? ==> forall j :: 0 <= j < |table| && table[j].id == addressId ==>
      r.state[j] == table[j]
    ensures currentUser.Some? ==> |r.state| == |table|
    ensures currentUser.Some? && r.reply.Ok? ==> forall j :: 0 <= j < |table| && table[j].id == addressId && table[j].userId == currentUser.value ==>
      r.state[j] == NewRow(data, currentUser.value, addressId)
    ensures currentUser.Some? ==> forall j :: 0 <= j < |table| && !(table[j].id == addressId && table[j].userId == currentUser.value) ==>
      && r.state[j] == table[j].(isDefault := r.state[j].isDefault)
      && (r.state[j].isDefault ==> table[j].isDefault)
      && (!data.isDefault || table[j].userId != currentUser.value ==> r.state[j] == table[j])
  {
    if currentUser.None? then Step(table, Err(NotAuthenticated))
    else
      var u := currentUser.value;
      var cleared := UsersDb.UnsetDefaults(table, u, Some(addressId), data.isDefault, clearOk);
      if updateOk then Step(UsersDb.PatchRows(cleared, addressId, u, Overwrite(data)), Ok(()))
      else Step(cleared, Err(UsersDb.UpdateFailed))
  }

  /** With the clear succeeding, `updateAddress` keeps the invariant. */
  lemma UpdateAddressKeepsOk(table: seq<Address>, currentUser: Option<Id>, addressId: Id, data: AddressData, updateOk: bool)
    requires UsersDb.AddressesOk(table)
    ensures UsersDb.AddressesOk(UpdateAddress(table, currentUser, addressId, data, true, updateOk).state)
  {
    if currentUser.Some? {
      var u := currentUser.value;
      var cleared := UsersDb.UnsetDefaults(table, u, Some(addressId), data.isDefault, true);
      UsersDb.ClearDefaultsKeepsOk(table, u, Some(addressId), data.isDefault, true);
      if updateOk {
        UsersDb.PatchKeepsOk(cleared, addressId, u, Overwrite(data));
      }
    }
  }

  /** `deleteAddress`: the address-book delete for the current user. */
  function DeleteAddress(table: seq<Address>, currentUser: Option<Id>, addressId: Id, writeOk: bool): (r: Step<seq<Address>, ()>)
    ensures currentUser.None? ==> r == Step(table, Err(NotAuthenticated))
    ensures currentUser.Some? ==> (r.reply.Ok? <==> writeOk)
    ensures currentUser.Some? && !writeOk ==> r == Step(table, Err(UsersDb.DeleteFailed))
    ensures currentUser.Some? && writeOk ==>
      forall a :: a in r.state <==> a in table && !(a.id == addressId && a.userId == currentUser.value)
  {
    if currentUser.None? then Step(table, Err(NotAuthenticated))
    else UsersDb.DeleteAddress(table, addressId, currentUser.value, writeOk)
  }
}

=== FILE: address_form.dfy ===
/** components/account/address-form.tsx: the validation schema of the
    address dialog, the values it opens with, and which action a valid
    submission calls. */
module AddressForm {
  import opened Common
  import opened Catalog
  import AddressActions

  /** The raw form values; the second line and the default flag may be
      missing. */
  datatype FormInput = FormInput(
    line1: string,
    line2: Option<string>,
    city: string,
    state: string,
    postalCode: string,
    country: string,
    isDefault: Option<bool>)

  /** A schema complaint: the field and its message. */
  datatype FieldError = FieldError(field: string, message: string)

  datatype Validation = Valid(data: AddressActions.AddressData) | Invalid(errors: seq<FieldError>)

  /** The complaint for one required field, if it is empty. */
  function Required(value: string, field: string, message: string): (r: seq<FieldError>)
    ensures |r| == (if value == "" then 1 else 0)
    ensures r != [] ==> r[0] == FieldError(field, message)
  {
    if value == "" then [FieldError(field, message)] else []
  }

  /** The complaints of `addressFormSchema`, in field order: one per empty
      required field. */
  function Errors(input: FormInput): (e: seq<FieldError>)
    ensures e == [] <==> Complete(input)
    ensures |e| <= 5
    ensures FieldError("address_line1", "Address is required") in e <==> input.line1 == ""
    ensures FieldError("city", "City is required") in e <==> input.city == ""
    ensures FieldError("state", "State/Province is required") in e <==> input.state == ""
    ensures FieldError("postal_code", "Postal code is required") in e <==> input.postalCode == ""
    ensures FieldError("country", "Country is required") in e <==> input.country == ""
  {
    Required(input.line1, "address_line1", "Address is required")
    + Required(input.city, "city", "City is required")
    + Required(input.state, "state", "State/Province is required")
    + Required(input.postalCode, "postal_code", "Postal code is required")
    + Required(input.country, "country", "Country is required")
  }

  /** The five required fields are the non-empty ones. */
  predicate Complete(input: FormInput) {
    input.line1 != "" && input.city != "" && input.state != "" && input.postalCode != "" && input.country != ""
  }

  /** Parsing with `addressFormSchema`. */
  function Validate(input: FormInput): (v: Validation)
    ensures v.Valid? <==> Complete(input)
    ensures v.Valid? ==> v.data == AddressActions.AddressData(input.line1, input.line2, input.city, input.state,
                                                               input.postalCode, input.country, input.isDefault.GetOr(false))
    ensures v.Invalid? ==> 1 <= |v.errors| <= 5
    ensures v.Invalid? && input.line1 == "" ==> v.errors[0] == FieldError("address_line1", "Address is required")
  {
    var errors := Errors(input);
    if errors == [] then
      Valid(AddressActions.AddressData(input.line1, input.line2, input.city, input.state, input.postalCode,
                                       input.country, input.isDefault.GetOr(false)))
    else Invalid(errors)
  }

  /** The second line never decides validity. */
  lemma Line2NeverRejects(input: FormInput, line2: Option<string>)
    ensures Validate(input.(line2 := line2)).Valid? == Validate(input).Valid?
  {
  }

  /** The values the dialog opens with: the edited address's fields, with
      "" and false where there is none. */
  function DefaultValues(address: Option<Address>): (input: FormInput)
    ensures address.None? ==> input == FormInput("", Some(""), "", "", "", "", Some(false))
    ensures address.Some? ==> var a := address.value;
      input == FormInput(a.line1, Some(a.line2.GetOr("")), a.city, a.state, a.postalCode, a.country, Some(a.isDefault))
  {
    match address
    case None => FormInput("", Some(""), "", "", "", "", Some(false))
    case Some(a) =>
      FormInput(a.line1, Some(if a.line2.Some? then a.line2.value else ""), a.city, a.state, a.postalCode,
                a.country, Some(a.isDefault))
  }

  /** The action a valid submission calls. */
  datatype Call = CallUpdate(id: Id, data: AddressActions.AddressData) | CallCreate(data: AddressActions.AddressData)

  /** What pressing Save does. With complaints, `handleSubmit` shows them
      under their fields and never runs `onSubmit`; without, `onSubmit`
      calls one action. */
  datatype Submission = Blocked(errors: seq<FieldError>) | Sends(call: Call)

  /** Submitting the dialog: update the edited address, or create a new
      one, once every required field is filled in. */
  function Submit(address: Option<Address>, input: FormInput): (r: Submission)
    ensures r.Sends? <==> Complete(input)
    ensures r.Blocked? ==> r.errors == Errors(input) && r.errors != []
    ensures r.Sends? && address.Some? ==> r.call.CallUpdate? && r.call.id == address.value.id
    ensures r.Sends? && address.None? ==> r.call.CallCreate?
    ensures r.Sends? ==> r.call.data == AddressActions.AddressData(input.line1, input.line2, input.city, input.state,
                                                                   input.postalCode, input.country, input.isDefault.GetOr(false))
  {
    match Validate(input)
    case Invalid(errors) => Blocked(errors)
    case Valid(data) => if address.Some? then Sends(CallUpdate(address.value.id, data)) else Sends(CallCreate(data))
  }

  /** A new dialog cannot be submitted untouched: all five required fields
      complain. */
  lemma EmptyFormRejected()
    ensures Validate(DefaultValues(None)) == Invalid(Errors(DefaultValues(None)))
    ensures |Errors(DefaultValues(None))| == 5
  {
  }

  /** Saving an address unchanged writes it back as it was, except that an
      empty second line becomes null. */
  lemma UnchangedEditRoundTrip(a: Address)
    requires a.line1 != "" && a.city != "" && a.state != "" && a.postalCode != "" && a.country != ""
    ensures var r := Submit(Some(a), DefaultValues(Some(a)));
      && r.Sends? && r.call.CallUpdate?
      && AddressActions.NewRow(r.call.data, a.userId, a.id) == a.(line2 := AddressActions.StoredLine2(a.line2))
  {
  }
}

=== FILE: admin.dfy ===
/** lib/db/admin.ts: the primary-image rule of `product_images` (the same
    two-step "clear the flag, then insert" as the address book), the order
    and user listings of the admin pages, and the parts of the dashboard
    statistics that are not computed inside database procedures. */
module Admin {
  import opened Common
  import opened Text
  import opened Catalog

  // ---------------------------------------------------------------- images

  /** At most one primary image per product. */
  predicate OnePrimary(images: seq<ProductImage>) {
    forall a, b :: a in images && b in images && a.productId == b.productId && a.isPrimary && b.isPrimary ==> a.id == b.id
  }

  predicate ImagesOk(images: seq<ProductImage>) {
    DistinctIds(images, (x: ProductImage) => x.id) && OnePrimary(images)
  }

  predicate FreshImageId(images: seq<ProductImage>, id: Id) {
    forall x :: x in images ==> x.id != id
  }

  /** The image fields of `adminAddProductImage`; `alt` and `isPrimary` may
      be omitted. */
  datatype ImageData = ImageData(url: string, alt: Option<string>, isPrimary: Option<bool>)

  const AddImageFailed := "Failed to add product image"
  const DeleteImageFailed := "Failed to delete product image"

  /** The first call: `update({is_primary: false})` on the product's primary
      images. It runs only when the new image is to be primary, and its
      failure is not checked. */
  function UnsetPrimary(images: seq<ProductImage>, productId: Id, requested: bool, clearOk: bool): (r: seq<ProductImage>)
    ensures |r| == |images|
    ensures forall j :: 0 <= j < |images| ==> r[j] == images[j].(isPrimary := r[j].isPrimary)
    ensures forall j :: 0 <= j < |images| ==>
      (r[j].isPrimary <==> images[j].isPrimary && !(requested && clearOk && images[j].productId == productId))
  {
    if requested && clearOk then
      seq(|images|, j requires 0 <= j < |images| =>
        if images[j].productId == productId then images[j].(isPrimary := false) else images[j])
    else images
  }

  /** The inserted row; an omitted flag takes the column default, false. */
  function NewImage(productId: Id, data: ImageData, id: Id): (x: ProductImage)
    ensures x.id == id && x.productId == productId && x.url == data.url && x.alt == data.alt
    ensures x.isPrimary <==> data.isPrimary == Some(true)
  {
    ProductImage(id, productId, data.url, data.alt, data.isPrimary.GetOr(false))
  }

  /** `adminAddProductImage`: clear the product's primary image when the new
      one is primary, then insert. A failed insert is reported after the
      clearing has happened. */
  function AddProductImage(images: seq<ProductImage>, productId: Id, data: ImageData, newId: Id,
                           clearOk: bool, insertOk: bool): (r: Step<seq<ProductImage>, ProductImage>)
    ensures var cleared := UnsetPrimary(images, productId, data.isPrimary == Some(true), clearOk);
      && (r.reply.Ok? <==> insertOk)
      && (r.reply.Ok? ==> r.reply.value == NewImage(productId, data, newId) && r.state == cleared + [r.reply.value])
      && (r.reply.Err? ==> r.state == cleared && r.reply.msg == AddImageFailed)
    ensures |r.state| >= |images|
    ensures forall j :: 0 <= j < |images| && images[j].productId != productId ==> r.state[j] == images[j]
    ensures data.isPrimary != Some(true) ==> r.state[..|images|] == images
  {
    var cleared := UnsetPrimary(images, productId, data.isPrimary == Some(true), clearOk);
    if insertOk then
      assert (cleared + [NewImage(productId, data, newId)])[..|images|] == cleared;
      Step(cleared + [NewImage(productId, data, newId)], Ok(NewImage(productId, data, newId)))
    else Step(cleared, Err(AddImageFailed))
  }

  /** With the clear succeeding and a fresh id, adding an image keeps at most
      one primary per product, and a new primary image is its product's
      only one. */
  lemma AddProductImageKeepsOk(images: seq<ProductImage>, productId: Id, data: ImageData, newId: Id, insertOk: bool)
    requires ImagesOk(images) && FreshImageId(images, newId)
    ensures var r := AddProductImage(images, productId, data, newId, true, insertOk);
      && ImagesOk(r.state)
      && (r.reply.Ok? && data.isPrimary == Some(true) ==>
            forall x :: x in r.state && x.productId == productId && x.isPrimary ==> x == r.reply.value)
  {
    var requested := data.isPrimary == Some(true);
    var cleared := UnsetPrimary(images, productId, requested, true);
    forall a, b | a in cleared && b in cleared && a.productId == b.productId && a.isPrimary && b.isPrimary ensures a.id == b.id {
      var i :| 0 <= i < |cleared| && cleared[i] == a;
      var j :| 0 <= j < |cleared| && cleared[j] == b;
      assert images[i] in images && images[j] in images;
    }
    if insertOk {
      var row := NewImage(productId, data, newId);
      var t := cleared + [row];
      forall i, j | 0 <= i < j < |t| ensures t[i].id != t[j].id {
        if j == |cleared| { assert images[i] in images; }
      }
      forall a | a in cleared && a.productId == productId ensures !(requested && a.isPrimary) {
        var i :| 0 <= i < |cleared| && cleared[i] == a;
      }
    }
  }

  /** `adminDeleteProductImage`: removes the image with that id. */
  function DeleteProductImage(images: seq<ProductImage>, id: Id, writeOk: bool): (r: Step<seq<ProductImage>, ()>)
    ensures r.reply.Ok? <==> writeOk
    ensures r.reply.Err? ==> r.state == images && r.reply.msg == DeleteImageFailed
    ensures writeOk ==> forall x :: x in r.state <==> x in images && x.id != id
    ensures IsSubsequence(r.state, images)
  {
    FilterIsSubsequence(images, (x: ProductImage) => x.id != id);
    if writeOk then Step(Filter(images, (x: ProductImage) => x.id != id), Ok(()))
    else
      SubsequenceRefl(images);
      Step(images, Err(DeleteImageFailed))
  }

  lemma DeleteProductImageKeepsOk(images: seq<ProductImage>, id: Id, writeOk: bool)
    requires ImagesOk(images)
    ensures ImagesOk(DeleteProductImage(images, id, writeOk).state)
  {
    FilterKeepsDistinct(images, (x: ProductImage) => x.id, (x: ProductImage) => x.id != id);
  }

  // ---------------------------------------------------------------- orders

  datatype OrderSort = Newest | Oldest | Highest | Lowest

  /** The `sortBy` switch: an omitted or unknown value sorts newest first. */
  function ParseOrderSort(sortBy: Option<string>): (s: OrderSort)
    ensures sortBy == Some("oldest") <==> s == Oldest
    ensures sortBy == Some("highest") <==> s == Highest
    ensures sortBy == Some("lowest") <==> s == Lowest
  {
    if sortBy == Some("oldest") then Oldest
    else if sortBy == Some("highest") then Highest
    else if sortBy == Some("lowest") then Lowest
    else Newest
  }

  /** `a` may come before `b` in a listing sorted by `sort`. */
  predicate Precedes(sort: OrderSort, a: Order, b: Order) {
    match sort
    case Newest => a.createdAt >= b.createdAt
    case Oldest => a.createdAt <= b.createdAt
    case Highest => a.total >= b.total
    case Lowest => a.total <= b.total
  }

  function OrderLe(sort: OrderSort): (le: (Order, Order) -> bool)
    ensures forall a, b :: le(a, b) <==> Precedes(sort, a, b)
    ensures Total(le)
  {
    (a, b) => Precedes(sort, a, b)
  }

  const OrdersFailed := "Failed to fetch orders"

  /** The orders the status filter keeps, in table order. */
  function OrderSelection(orders: seq<Order>, status: Option<string>): (r: seq<Order>)
    ensures forall o :: o in r <==> o in orders && (Truthy(status) ==> o.status == status.value)
  {
    if Truthy(status) then Filter(orders, (o: Order) => o.status == status.value) else orders
  }

  /** The selection in listing order: the listing pages are cut from. */
  function OrderListing(orders: seq<Order>, status: Option<string>, sortBy: Option<string>): seq<Order> {
    SortBy(OrderSelection(orders, status), OrderLe(ParseOrderSort(sortBy)))
  }

  /** When the sort column is unique on the selected orders, every ordering
      the database may return is the model's listing. */
  lemma OrderListingIsTheOrder(orders: seq<Order>, status: Option<string>, sortBy: Option<string>, db: seq<Order>)
    requires NoTies(OrderSelection(orders, status), OrderLe(ParseOrderSort(sortBy)))
    requires multiset(db) == multiset(OrderSelection(orders, status))
    requires forall i, j :: 0 <= i < j < |db| ==> Precedes(ParseOrderSort(sortBy), db[i], db[j])
    ensures db == OrderListing(orders, status, sortBy)
  {
    OnlyOrder(OrderSelection(orders, status), OrderLe(ParseOrderSort(sortBy)), db);
  }

  /** `adminGetAllOrders`: filter by a truthy status, sort, and return the
      page `range(offset, offset + limit - 1)`; limit 10 and offset 0 by
      default. */
  function AdminGetAllOrders(orders: seq<Order>, limit: Option<nat>, offset: Option<nat>, status: Option<string>,
                             sortBy: Option<string>, queryOk: bool): (r: Result<seq<Order>>)
    ensures r.Ok? <==> queryOk
    ensures r.Err? ==> r.msg == OrdersFailed
    ensures r.Ok? ==> |r.value| <= limit.GetOr(10)
    ensures r.Ok? ==> forall x :: x in r.value ==> x in orders && (Truthy(status) ==> x.status == status.value)
    ensures r.Ok? ==> forall i, j :: 0 <= i < j < |r.value| ==> Precedes(ParseOrderSort(sortBy), r.value[i], r.value[j])
  {
    if !queryOk then Err(OrdersFailed)
    else
      SortedWindow(OrderSelection(orders, status), OrderLe(ParseOrderSort(sortBy)), offset.GetOr(0), limit.GetOr(10));
      Ok(Window(OrderListing(orders, status, sortBy), offset.GetOr(0), limit.GetOr(10)))
  }

  /** Consecutive pages tile the listing: page `offset` of size `n` followed
      by the page just after it is the page of size `n + m`. Separate
      queries agree on the order only when the sort column has no ties
      among the selected orders (`OrderListingIsTheOrder`). */
  lemma OrderPagesTile(orders: seq<Order>, status: Option<string>, sortBy: Option<string>, offset: nat, n: nat, m: nat)
    requires NoTies(OrderSelection(orders, status), OrderLe(ParseOrderSort(sortBy)))
    ensures var first := AdminGetAllOrders(orders, Some(n), Some(offset), status, sortBy, true);
      var second := AdminGetAllOrders(orders, Some(m), Some(offset + n), status, sortBy, true);
      first.value + second.value == AdminGetAllOrders(orders, Some(n + m), Some(offset), status, sortBy, true).value
  {
    OrderPageIsWindow(orders, status, sortBy, offset, n);
    OrderPageIsWindow(orders, status, sortBy, offset + n, m);
    OrderPageIsWindow(orders, status, sortBy, offset, n + m);
    ResultsTile(AdminGetAllOrders(orders, Some(n), Some(offset), status, sortBy, true),
                AdminGetAllOrders(orders, Some(m), Some(offset + n), status, sortBy, true),
                AdminGetAllOrders(orders, Some(n + m), Some(offset), status, sortBy, true),
                OrderListing(orders, status, sortBy), offset, n, m);
  }

  /** A successful page is the window of the listing. */
  lemma OrderPageIsWindow(orders: seq<Order>, status: Option<string>, sortBy: Option<string>, offset: nat, limit: nat)
    ensures var r := AdminGetAllOrders(orders, Some(limit), Some(offset), status, sortBy, true);
            var l := OrderListing(orders, status, sortBy);
      && r.Ok?
      && |r.value| == (if offset >= |l| then 0 else Min(limit, |l| - offset))
      && forall i :: 0 <= i < |r.value| ==> offset + i < |l| && r.value[i] == l[offset + i]
  {
  }

  // ---------------------------------------------------------------- users

  const UsersFailed := "Failed to fetch users"

  /** The `or(...)` search: the term occurs, ignoring ASCII case, in the
      email or in a present first or last name. */
  predicate MatchesSearch(u: User, term: string) {
    || ILikeContains(u.email, term)
    || (u.firstName.Some? && ILikeContains(u.firstName.value, term))
    || (u.lastName.Some? && ILikeContains(u.lastName.value, term))
  }

  /** `order("created_at", { ascending: false })` on users. */
  function NewestFirst(): (le: (User, User) -> bool)
    ensures forall a, b :: le(a, b) <==> a.createdAt >= b.createdAt
    ensures Total(le)
  {
    DescendingTotal((u: User) => u.createdAt);
    Descending((u: User) => u.createdAt)
  }

  /** `adminGetAllUsers`: filter by a truthy role and a truthy search term,
      newest first, one page. */
  function AdminGetAllUsers(users: seq<User>, limit: Option<nat>, offset: Option<nat>, role: Option<string>,
                            search: Option<string>, queryOk: bool): (r: Result<seq<User>>)
    ensures r.Ok? <==> queryOk
    ensures r.Err? ==> r.msg == UsersFailed
    ensures r.Ok? ==> |r.value| <= limit.GetOr(10)
    ensures r.Ok? ==> forall u :: u in r.value ==>
      && u in users
      && (Truthy(role) ==> u.role == role.value)
      && (Truthy(search) ==> MatchesSearch(u, search.value))
    ensures r.Ok? ==> forall i, j :: 0 <= i < j < |r.value| ==> r.value[i].createdAt >= r.value[j].createdAt
  {
    if !queryOk then Err(UsersFailed)
    else
      SortedWindow(UserSelection(users, role, search), NewestFirst(), offset.GetOr(0), limit.GetOr(10));
      Ok(Window(UserListing(users, role, search), offset.GetOr(0), limit.GetOr(10)))
  }

  /** The users the role and search filters keep. */
  function UserSelection(users: seq<User>, role: Option<string>, search: Option<string>): (r: seq<User>)
    ensures forall u :: u in r <==>
      && u in users
      && (Truthy(role) ==> u.role == role.value)
      && (Truthy(search) ==> MatchesSearch(u, search.value))
    ensures |r| <= |users|
  {
    var byRole := if Truthy(role) then Filter(users, (u: User) => u.role == role.value) else users;
    if Truthy(search) then Filter(byRole, (u: User) => MatchesSearch(u, search.value)) else byRole
  }

  /** The selection, newest first: the listing pages are cut from. */
  function UserListing(users: seq<User>, role: Option<string>, search: Option<string>): seq<User> {
    SortBy(UserSelection(users, role, search), NewestFirst())
  }

  /** A successful page is rows `offset .. offset + limit - 1` of the
      selection, newest first. */
  lemma UsersPageIsWindow(users: seq<User>, limit: nat, offset: nat, role: Option<string>, search: Option<string>)
    ensures var r := AdminGetAllUsers(users, Some(limit), Some(offset), role, search, true);
            var l := UserListing(users, role, search);
      && r.Ok?
      && |r.value| == (if offset >= |l| then 0 else Min(limit, |l| - offset))
      && forall i :: 0 <= i < |r.value| ==> offset + i < |l| && r.value[i] == l[offset + i]
  {
  }

  /** A page from the start at least as large as the table holds each
      selected user exactly as often as the selection does. */
  lemma AllSelectedUsersListed(users: seq<User>, limit: nat, role: Option<string>, search: Option<string>)
    requires limit >= |users|
    ensures var r := AdminGetAllUsers(users, Some(limit), None, role, search, true);
      multiset(r.value) == multiset(UserSelection(users, role, search))
  {
    var sorted := UserListing(users, role, search);
    assert |sorted| == |multiset(sorted)| == |UserSelection(users, role, search)|;
    assert Window(sorted, 0, limit) == sorted;
  }

  /** With no filters and a page as large as the table, the listing holds
      every user. */
  lemma AllUsersListed(users: seq<User>)
    ensures var r := AdminGetAllUsers(users, Some(|users|), None, None, None, true);
      multiset(r.value) == multiset(users)
  {
    AllSelectedUsersListed(users, |users|, None, None);
  }

  // ---------------------------------------------------------------- dashboard

  /** A row of the `get_top_products` procedure. */
  datatype TopRow = TopRow(productId: Id, totalSold: int, revenue: int)

  datatype TopProduct = TopProduct(product: Product, totalSold: int, revenue: int)

  /** The product lookup for each top row: the product, or `None` when the
      lookup fails. */
  type ProductLookup = Id -> Option<Product>

  function Found(lookup: ProductLookup): TopRow -> bool {
    (x: TopRow) => lookup(x.productId).Some?
  }

  /** The `topProducts` loop: in procedure order, the rows whose product
      lookup succeeded, each with its product. */
  function TopProducts(rows: seq<TopRow>, lookup: ProductLookup): (r: seq<TopProduct>)
    ensures Joins(r, Filter(rows, Found(lookup)), lookup)
  {
    if rows == [] then []
    else
      var x := rows[0];
      var rest := TopProducts(rows[1..], lookup);
      FoundStep(rows, lookup);
      if lookup(x.productId).Some? then
        var top := TopProduct(lookup(x.productId).value, x.totalSold, x.revenue);
        JoinsCons(top, x, rest, Filter(rows[1..], Found(lookup)), lookup);
        [top] + rest
      else
        rest
  }

  /** `r` is `kept` row by row, each row with the product its lookup gave. */
  predicate Joins(r: seq<TopProduct>, kept: seq<TopRow>, lookup: ProductLookup) {
    && |r| == |kept|
    && forall i :: 0 <= i < |r| ==>
         lookup(kept[i].productId) == Some(r[i].product) && r[i].totalSold == kept[i].totalSold && r[i].revenue == kept[i].revenue
  }

  lemma JoinsCons(top: TopProduct, x: TopRow, rest: seq<TopProduct>, kept: seq<TopRow>, lookup: ProductLookup)
    requires Joins(rest, kept, lookup)
    requires lookup(x.productId) == Some(top.product) && top.totalSold == x.totalSold && top.revenue == x.revenue
    ensures Joins([top] + rest, [x] + kept, lookup)
  {
    forall i | 0 <= i < |[top] + rest|
      ensures lookup(([x] + kept)[i].productId) == Some(([top] + rest)[i].product)
    {
      if i > 0 {
        assert ([x] + kept)[i] == kept[i - 1] && ([top] + rest)[i] == rest[i - 1];
      }
    }
  }

  lemma FoundStep(rows: seq<TopRow>, lookup: ProductLookup)
    requires rows != []
    ensures lookup(rows[0].productId).Some? ==> Filter(rows, Found(lookup)) == [rows[0]] + Filter(rows[1..], Found(lookup))
    ensures lookup(rows[0].productId).None? ==> Filter(rows, Found(lookup)) == Filter(rows[1..], Found(lookup))
  {
    assert rows == [rows[0]] + rows[1..];
  }

  /** Top products keep the procedure's order: they come from a subsequence
      of its rows, and a row whose lookup succeeds is never dropped. */
  lemma TopProductsOrder(rows: seq<TopRow>, lookup: ProductLookup)
    ensures IsSubsequence(Filter(rows, Found(lookup)), rows)
    ensures |TopProducts(rows, lookup)| == Count(rows, Found(lookup))
    ensures (forall x :: x in rows ==> lookup(x.productId).Some?) ==> |TopProducts(rows, lookup)| == |rows|
  {
    FilterIsSubsequence(rows, Found(lookup));
    if forall x :: x in rows ==> lookup(x.productId).Some? {
      FilterAll(rows, Found(lookup));
    }
  }

  /** The dashboard counts; a count the database leaves null reads 0. */
  datatype Counts = Counts(totalOrders: nat, totalCustomers: nat, totalProducts: nat)

  function DashboardCounts(orders: Option<nat>, customers: Option<nat>, products: Option<nat>): (c: Counts)
    ensures orders.None? ==> c.totalOrders == 0
    ensures customers.None? ==> c.totalCustomers == 0
    ensures products.None? ==> c.totalProducts == 0
    ensures orders.Some? ==> c.totalOrders == orders.value
    ensures customers.Some? ==> c.totalCustomers == customers.value
    ensures products.Some? ==> c.totalProducts == products.value
  {
    Counts(orders.GetOr(0), customers.GetOr(0), products.GetOr(0))
  }
}

=== FILE: auth_callback.dfy ===
/** app/auth/callback/route.ts: the sign-in callback. It exchanges the
    code for a session, creates the user's row on first sign-in with the
    name split from the provider's full name, and always redirects. */
module AuthCallback {
  import opened Common
  import opened Text
  import opened Catalog
  import opened UsersDb

  /** The query parameters and origin of the callback URL. */
  datatype Request = Request(origin: string, code: Option<string>, callbackUrl: Option<string>)

  /** The signed-in user the session exchange yields. */
  datatype SessionUser = SessionUser(id: Id, email: string, fullName: Option<string>)

  /** `callbackUrl || "/products"`. */
  function Destination(request: Request): (path: string)
    ensures Truthy(request.callbackUrl) ==> path == request.callbackUrl.value
    ensures !Truthy(request.callbackUrl) ==> path == "/products"
  {
    if Truthy(request.callbackUrl) then request.callbackUrl.value else "/products"
  }

  /** `full_name?.split(" ")[0] || ""`. */
  function FirstName(fullName: Option<string>): (first: string)
    ensures fullName.None? ==> first == ""
    ensures ' ' !in first
    ensures fullName.Some? ==> first <= fullName.value
    ensures fullName.Some? && ' ' !in fullName.value ==> first == fullName.value
  {
    if fullName.None? then "" else FirstPiece(fullName.value)
  }

  function FirstPiece(s: string): (first: string)
    ensures ' ' !in first
    ensures first <= s
    ensures ' ' in s ==> s[|first|] == ' '
    ensures ' ' !in s ==> first == s
  {
    Split(s, ' ')[0]
  }

  /** `full_name?.split(" ").slice(1).join(" ") || ""`: everything after
      the first space. */
  function LastName(fullName: Option<string>): (last: string)
    ensures fullName.None? ==> last == ""
    ensures fullName.Some? && ' ' !in fullName.value ==> last == ""
    ensures fullName.Some? && ' ' in fullName.value ==> FirstName(fullName) + " " + last == fullName.value
  {
    if fullName.None? then ""
    else
      SplitAtFirstSpace(fullName.value);
      Join(Split(fullName.value, ' ')[1..], ' ')
  }

  /** The pieces after the first one, joined again, are what follows the
      first space. */
  lemma SplitAtFirstSpace(fullName: string)
    ensures var parts := Split(fullName, ' ');
      && (' ' in fullName ==> parts[0] + " " + Join(parts[1..], ' ') == fullName)
      && (' ' !in fullName ==> Join(parts[1..], ' ') == "")
  {
    var parts := Split(fullName, ' ');
    JoinSplit(fullName, ' ');
    if ' ' in fullName {
      assert |parts| >= 2 by {
        var i := IndexOf(fullName, ' ');
        assert parts == [fullName[..i]] + Split(fullName[i + 1..], ' ');
      }
      assert Join(parts, ' ') == parts[0] + [' '] + Join(parts[1..], ' ');
    }
  }

  /** What the callback does: the users table after it, and where it
      redirects. */
  datatype Response = Response(users: UserTable, redirect: string)

  /** The row a first sign-in creates. */
  function NewUser(user: SessionUser, now: int): User {
    User(user.id, user.email, Some(FirstName(user.fullName)), Some(LastName(user.fullName)), None, "customer", now, now)
  }

  /** `GET /auth/callback`. `session` is what the code exchange yields;
      `lookupOk` is whether the existence check succeeded (a failed check
      reads as "no row"), and `insertOk` whether the insert succeeded. The
      insert's outcome is not checked. */
  function Callback(users: UserTable, request: Request, session: Option<SessionUser>, now: int,
                    lookupOk: bool, insertOk: bool): (r: Response)
    requires Keyed(users)
    ensures r.redirect == request.origin + Destination(request)
    ensures Keyed(r.users)
    ensures r.users.Keys == users.Keys || (session.Some? && r.users.Keys == users.Keys + {session.value.id} && session.value.id !in users)
    ensures forall k :: k in users ==> k in r.users && r.users[k] == users[k]
    ensures r.users != users <==> Truthy(request.code) && session.Some? && session.value.id !in users && insertOk
    ensures r.users != users ==> r.users[session.value.id] == NewUser(session.value, now)
    ensures r.users != users ==> r.users[session.value.id].role == "customer"
  {
    var redirect := request.origin + Destination(request);
    if Truthy(request.code) && session.Some? && !(lookupOk && session.value.id in users)
       && session.value.id !in users && insertOk then
      var u := session.value;
      assert u.id !in users;
      Response(users[u.id := NewUser(u, now)], redirect)
    else Response(users, redirect)
  }

  /** A second sign-in never touches the row the first one created. */
  lemma SecondSignInKeepsRow(users: UserTable, request: Request, session: SessionUser, now: int, later: int,
                             lookupOk: bool)
    requires Keyed(users) && Truthy(request.code)
    ensures var first := Callback(users, request, Some(session), now, true, true).users;
      Callback(first, request, Some(session), later, lookupOk, true).users == first
  {
  }
}

=== FILE: cart_context.dfy ===
/** The client-side cart of components/cart/cart-context.tsx: a list of cart
    items mirrored from the `cart_items` table, the derived item count and
    subtotal, and the add / update / remove / clear transitions. The outcome
    of each transition's database call is a parameter. */
module CartContext {
  import opened Common
  import opened Catalog

  /** A cart row joined with its product and optional variant. */
  datatype Item = Item(row: CartRow, product: Product, variant: Option<Variant>)

  /** The provider's state: its items and the anonymous session id that
      local storage holds (absent once merged into a signed-in cart). */
  datatype State = State(items: seq<Item>, sessionId: Option<Id>)

  const AddFailed := "Failed to add item to cart. Please try again."
  const UpdateFailed := "Failed to update item quantity. Please try again."
  const RemoveFailed := "Failed to remove item from cart. Please try again."
  const ClearFailed := "Failed to clear cart. Please try again."

  function Quantity(it: Item): int {
    it.row.quantity
  }

  /** The number of units in the cart (`itemCount`). */
  function ItemCount(items: seq<Item>): (n: int)
    ensures items == [] ==> n == 0
    ensures (forall i :: 0 <= i < |items| ==> Quantity(items[i]) >= 0) ==> n >= 0
  {
    SumOfNonNegative(items, Quantity);
    SumOf(items, Quantity)
  }

  /** `sale_price || price`: a missing or zero sale price falls back to the
      list price. The variant's own price is not consulted. */
  function UnitPrice(p: Product): (r: int)
    ensures p.salePrice.Some? && p.salePrice.value != 0 ==> r == p.salePrice.value
    ensures p.salePrice.None? || p.salePrice == Some(0) ==> r == p.price
  {
    if p.salePrice.Some? && p.salePrice.value != 0 then p.salePrice.value else p.price
  }

  function LineTotal(it: Item): int {
    UnitPrice(it.product) * it.row.quantity
  }

  /** The cart's `subtotal`, in cents. */
  function Subtotal(items: seq<Item>): (total: int)
    ensures items == [] ==> total == 0
    ensures (forall i :: 0 <= i < |items| ==> LineTotal(items[i]) >= 0) ==> total >= 0
  {
    SumOfNonNegative(items, LineTotal);
    SumOf(items, LineTotal)
  }

  /** The variant id a new row gets: `variant?.id || null`. */
  function VariantIdOf(variant: Option<Variant>): Option<Id> {
    if variant.Some? then Some(variant.value.id) else None
  }

  /** The `findIndex` test of `addItem`: same product, and the given
      variant's id, or no variant id when no variant is given. */
  predicate Matches(it: Item, productId: Id, variant: Option<Variant>) {
    && it.row.productId == productId
    && (if variant.Some? then it.row.variantId == Some(variant.value.id) else it.row.variantId.None?)
  }

  function MatchFn(productId: Id, variant: Option<Variant>): Item -> bool {
    it => Matches(it, productId, variant)
  }

  /** At most one item per (product, variant): the cart's central invariant. */
  predicate UniqueKeys(items: seq<Item>) {
    forall i, j :: 0 <= i < j < |items| ==>
      !(items[i].row.productId == items[j].row.productId && items[i].row.variantId == items[j].row.variantId)
  }

  /** Adds `quantity` units of a product (and variant). A matching item has
      its quantity raised in place; otherwise a new item is appended with
      the id the database returned. The matching item is mutated before the
      database call, so the raised quantity shows even when the call fails. */
  function AddItem(st: State, userId: Option<Id>, product: Product, quantity: int,
                   variant: Option<Variant>, dbOk: bool, newId: Id): (r: Step<seq<Item>, ()>)
    ensures r.reply.Ok? <==> dbOk
    ensures var m := FindFirst(st.items, MatchFn(product.id, variant));
      m.Some? ==>
        && |r.state| == |st.items|
        && r.state[m.value] == st.items[m.value].(row := st.items[m.value].row.(quantity := st.items[m.value].row.quantity + quantity))
        && (forall j :: 0 <= j < |st.items| && j != m.value ==> r.state[j] == st.items[j])
    ensures var m := FindFirst(st.items, MatchFn(product.id, variant));
      m.None? && dbOk ==>
        && |r.state| == |st.items| + 1
        && r.state[..|st.items|] == st.items
        && r.state[|st.items|].row.id == newId
        && Matches(r.state[|st.items|], product.id, variant)
        && r.state[|st.items|].row.quantity == quantity
        && r.state[|st.items|].product == product
        && r.state[|st.items|].variant == variant
        && (userId.Some? ==> r.state[|st.items|].row.userId == userId && r.state[|st.items|].row.sessionId.None?)
        && (userId.None? ==> r.state[|st.items|].row.userId.None? && r.state[|st.items|].row.sessionId == st.sessionId)
    ensures var m := FindFirst(st.items, MatchFn(product.id, variant));
      m.None? && !dbOk ==> r.state == st.items
  {
    match FindFirst(st.items, MatchFn(product.id, variant))
    case Some(i) =>
      var old_ := st.items[i];
      var bumped := st.items[i := old_.(row := old_.row.(quantity := old_.row.quantity + quantity))];
      Step(bumped, if dbOk then Ok(()) else Err(AddFailed))
    case None =>
      var row := CartRow(newId, userId, if userId.None? then st.sessionId else None,
                         product.id, VariantIdOf(variant), quantity);
      var item := Item(row, product, variant);
      if dbOk then Step(st.items + [item], Ok(())) else Step(st.items, Err(AddFailed))
  }

  /** Sets the quantity of the items with id `itemId`; a quantity below 1
      removes them instead. A failed database call leaves the items as they were. */
  function UpdateItemQuantity(items: seq<Item>, itemId: Id, quantity: int, dbOk: bool): (r: Step<seq<Item>, ()>)
    ensures r.reply.Ok? <==> dbOk
    ensures !dbOk ==> r.state == items
    ensures quantity < 1 ==> r == RemoveItem(items, itemId, dbOk)
    ensures quantity >= 1 && dbOk ==>
      && |r.state| == |items|
      && forall j :: 0 <= j < |items| ==>
           r.state[j] == if items[j].row.id == itemId then items[j].(row := items[j].row.(quantity := quantity)) else items[j]
  {
    if quantity < 1 then RemoveItem(items, itemId, dbOk)
    else
      var updated := seq(|items|, j requires 0 <= j < |items| =>
        if items[j].row.id == itemId then items[j].(row := items[j].row.(quantity := quantity)) else items[j]);
      if dbOk then Step(updated, Ok(())) else Step(items, Err(UpdateFailed))
  }

  /** Drops the items with id `itemId`, keeping the others in order. A failed
      database call leaves the items as they were. */
  function RemoveItem(items: seq<Item>, itemId: Id, dbOk: bool): (r: Step<seq<Item>, ()>)
    ensures r.reply.Ok? <==> dbOk
    ensures !dbOk ==> r.state == items
    ensures dbOk ==> forall it :: it in r.state <==> it in items && it.row.id != itemId
    ensures dbOk ==> IsSubsequence(r.state, items)
  {
    if dbOk then
      FilterIsSubsequence(items, (it: Item) => it.row.id != itemId);
      Step(Filter(items, (it: Item) => it.row.id != itemId), Ok(()))
    else Step(items, Err(RemoveFailed))
  }

  /** Empties the cart of the signed-in user, or else of the anonymous
      session; with neither there is nothing to clear and nothing changes. */
  function ClearCart(st: State, userId: Option<Id>, dbOk: bool): (r: Step<seq<Item>, ()>)
    ensures userId.None? && st.sessionId.None? ==> r == Step(st.items, Ok(()))
    ensures (userId.Some? || st.sessionId.Some?) ==> (r.reply.Ok? <==> dbOk)
    ensures r.reply.Ok? ==> (r.state == [] || (userId.None? && st.sessionId.None?))
    ensures r.reply.Err? ==> r.state == st.items
  {
    if userId.None? && st.sessionId.None? then Step(st.items, Ok(()))
    else if dbOk then Step([], Ok(()))
    else Step(st.items, Err(ClearFailed))
  }

  /** Adding `quantity` units raises the item count by exactly `quantity`
      whenever the cart changes: always for a matching item (even when the
      database call fails), and on success for a new item. */
  lemma {:induction false} AddItemCount(st: State, userId: Option<Id>, product: Product, quantity: int,
                                        variant: Option<Variant>, dbOk: bool, newId: Id)
    ensures var r := AddItem(st, userId, product, quantity, variant, dbOk, newId);
      var m := FindFirst(st.items, MatchFn(product.id, variant));
      ItemCount(r.state) == ItemCount(st.items) + (if m.Some? || dbOk then quantity else 0)
  {
    var r := AddItem(st, userId, product, quantity, variant, dbOk, newId);
    match FindFirst(st.items, MatchFn(product.id, variant))
    case Some(i) =>
      SumOfUpdate(st.items, i, r.state[i], Quantity);
      assert r.state == st.items[i := r.state[i]];
    case None =>
      if dbOk {
        SumOfAppend(st.items, [r.state[|st.items|]], Quantity);
        assert r.state == st.items + [r.state[|st.items|]];
      }
  }

  /** The subtotal grows by the added units at the unit price of the product
      the cart item carries: the stored product for a matching item, the
      given product for a new one. */
  lemma {:induction false} AddItemSubtotal(st: State, userId: Option<Id>, product: Product, quantity: int,
                                           variant: Option<Variant>, newId: Id)
    ensures var r := AddItem(st, userId, product, quantity, variant, true, newId);
      var m := FindFirst(st.items, MatchFn(product.id, variant));
      Subtotal(r.state) == Subtotal(st.items) +
        UnitPrice(if m.Some? then st.items[m.value].product else product) * quantity
  {
    var r := AddItem(st, userId, product, quantity, variant, true, newId);
    match FindFirst(st.items, MatchFn(product.id, variant))
    case Some(i) =>
      SumOfUpdate(st.items, i, r.state[i], LineTotal);
      assert r.state == st.items[i := r.state[i]];
      assert LineTotal(r.state[i]) == LineTotal(st.items[i]) + UnitPrice(st.items[i].product) * quantity;
    case None =>
      SumOfAppend(st.items, [r.state[|st.items|]], LineTotal);
      assert r.state == st.items + [r.state[|st.items|]];
  }

  /** Removing an item lowers the item count by the quantities of the items
      with that id and leaves the rest. */
  lemma RemoveItemCount(items: seq<Item>, itemId: Id)
    ensures ItemCount(RemoveItem(items, itemId, true).state) ==
      ItemCount(items) - SumOf(Filter(items, (it: Item) => it.row.id == itemId), Quantity)
  {
    SumOfPartition(items, (it: Item) => it.row.id == itemId, (it: Item) => it.row.id != itemId, Quantity);
  }

  /** Adding never creates a second item for the same (product, variant). */
  lemma AddItemKeepsKeysUnique(st: State, userId: Option<Id>, product: Product, quantity: int,
                               variant: Option<Variant>, dbOk: bool, newId: Id)
    requires UniqueKeys(st.items)
    ensures UniqueKeys(AddItem(st, userId, product, quantity, variant, dbOk, newId).state)
  {
    var r := AddItem(st, userId, product, quantity, variant, dbOk, newId);
    match FindFirst(st.items, MatchFn(product.id, variant))
    case Some(i) =>
      assert forall j :: 0 <= j < |r.state| ==>
        (r.state[j].row.productId == st.items[j].row.productId && r.state[j].row.variantId == st.items[j].row.variantId);
    case None =>
      if dbOk {
        var n := |st.items|;
        forall j | 0 <= j < n
          ensures !(r.state[j].row.productId == r.state[n].row.productId && r.state[j].row.variantId == r.state[n].row.variantId)
        {
          assert r.state[j] == st.items[j];
          assert !MatchFn(product.id, variant)(st.items[j]);
        }
      }
  }

  /** Changing quantities or removing items never creates a duplicate key. */
  lemma UpdateKeepsKeysUnique(items: seq<Item>, itemId: Id, quantity: int, dbOk: bool)
    requires UniqueKeys(items)
    ensures UniqueKeys(UpdateItemQuantity(items, itemId, quantity, dbOk).state)
  {
    if quantity < 1 && dbOk {
      RemoveKeepsKeysUnique(items, itemId);
    }
  }

  lemma {:induction false} RemoveKeepsKeysUnique(items: seq<Item>, itemId: Id)
    requires UniqueKeys(items)
    ensures UniqueKeys(RemoveItem(items, itemId, true).state)
  {
    FilterKeepsKeysUnique(items, (it: Item) => it.row.id != itemId);
  }

  lemma {:induction false} FilterKeepsKeysUnique(items: seq<Item>, p: Item -> bool)
    requires UniqueKeys(items)
    ensures UniqueKeys(Filter(items, p))
  {
    if items != [] {
      FilterKeepsKeysUnique(items[1..], p);
      var rest := Filter(items[1..], p);
      if p(items[0]) {
        forall k | 0 <= k < |rest|
          ensures !(items[0].row.productId == rest[k].row.productId && items[0].row.variantId == rest[k].row.variantId)
        {
          assert rest[k] in items[1..];
          var m :| 0 <= m < |items[1..]| && items[1..][m] == rest[k];
          assert items[m + 1] == rest[k];
        }
      }
    }
  }

  /** The cart page prices a line at the variant's price first
      (components/cart/cart-page-client.tsx), the provider's subtotal never
      does; the two disagree as soon as a variant carries its own price. */
  function PageUnitPrice(it: Item): int {
    if it.variant.Some? && it.variant.value.price.Some? && it.variant.value.price.value != 0
    then it.variant.value.price.value
    else UnitPrice(it.product)
  }

  lemma SubtotalIgnoresVariantPrice()
    ensures exists it: Item :: PageUnitPrice(it) * Quantity(it) != LineTotal(it)
  {
    var p := Product("p", "Heel", "heel", 12999, None, "c", false, false, true, 0);
    var v := Variant("v", "p", Some(13999));
    var it := Item(CartRow("i", None, Some("s"), "p", Some("v"), 1), p, Some(v));
    assert PageUnitPrice(it) * Quantity(it) == 13999;
    assert LineTotal(it) == 12999;
  }

  /** For every cart: the subtotal does not depend on the items' variants,
      so replacing any item's variant leaves it unchanged. */
  lemma SubtotalIgnoresVariant(items: seq<Item>, k: nat, variant: Option<Variant>)
    requires k < |items|
    ensures Subtotal(items[k := items[k].(variant := variant)]) == Subtotal(items)
  {
    SumOfUpdate(items, k, items[k].(variant := variant), LineTotal);
  }
}

=== FILE: cart_table.dfy ===
/** The server-side cart of lib/db/cart.ts: the `cart_items` table scoped to
    one owner, the signed-in user or else the anonymous session named by the
    `cart_session_id` cookie. Each database call's success is a parameter. */
module CartTable {
  import opened Common
  import opened Catalog

  /** The owner filter a query applies. `Anyone` is the unfiltered query
      that update and remove fall back to when there is neither a user nor
      a cookie. */
  datatype Owner = ByUser(userId: Id) | BySession(sessionId: Id) | Anyone

  predicate OwnedBy(r: CartRow, o: Owner) {
    match o
    case ByUser(u) => r.userId == Some(u)
    case BySession(s) => r.sessionId == Some(s)
    case Anyone => true
  }

  /** The session id a cookie carries: an empty cookie counts as none. */
  function CookieSession(cookie: Option<string>): (r: Option<Id>)
    ensures r.Some? <==> Truthy(cookie)
    ensures r.Some? ==> r.value == cookie.value
  {
    if Truthy(cookie) then Some(cookie.value) else None
  }

  /** The owner of a read, update or remove: the user, else the cookie's
      session, else no owner filter at all. */
  function Scope(userId: Option<Id>, cookie: Option<string>): Owner {
    if userId.Some? then ByUser(userId.value)
    else if CookieSession(cookie).Some? then BySession(CookieSession(cookie).value)
    else Anyone
  }

  const FetchFailed := "Failed to fetch cart"
  const CheckFailed := "Failed to check cart"
  const UpdateFailed := "Failed to update cart"
  const InsertFailed := "Failed to add to cart"
  const UpdateItemFailed := "Failed to update cart item"
  const RemoveItemFailed := "Failed to remove cart item"
  const ClearFailed := "Failed to clear cart"

  /** The rows `getCart` returns. With no user and no cookie the answer is
      the empty cart, without a query. */
  function GetCart(table: seq<CartRow>, userId: Option<Id>, cookie: Option<string>, queryOk: bool): (r: Result<seq<CartRow>>)
    ensures userId.None? && !Truthy(cookie) ==> r == Ok([])
    ensures (userId.Some? || Truthy(cookie)) ==> (r.Ok? <==> queryOk)
    ensures r.Err? ==> r.msg == FetchFailed
    ensures r.Ok? && userId.Some? ==> forall x :: x in r.value <==> x in table && x.userId == userId
    ensures r.Ok? && userId.None? ==>
      forall x :: x in r.value <==> x in table && Truthy(cookie) && x.sessionId == Some(cookie.value)
  {
    if userId.None? && !Truthy(cookie) then Ok([])
    else if !queryOk then Err(FetchFailed)
    else Ok(Filter(table, (x: CartRow) => OwnedBy(x, Scope(userId, cookie))))
  }

  /** The rows the duplicate check of `addToCart` selects: the owner's rows
      for the product with exactly the given variant, or with none. */
  function Lookup(table: seq<CartRow>, owner: Owner, productId: Id, variantId: Option<Id>): seq<CartRow> {
    Filter(table, (x: CartRow) => OwnedBy(x, owner) && x.productId == productId && x.variantId == variantId)
  }

  /** Sets `quantity` on the rows with id `id` that `owner` may touch. */
  function SetQuantity(table: seq<CartRow>, id: Id, owner: Owner, quantity: int): (r: seq<CartRow>)
    ensures |r| == |table|
    ensures forall j :: 0 <= j < |table| ==>
      r[j] == if table[j].id == id && OwnedBy(table[j], owner) then table[j].(quantity := quantity) else table[j]
  {
    seq(|table|, j requires 0 <= j < |table| =>
      if table[j].id == id && OwnedBy(table[j], owner) then table[j].(quantity := quantity) else table[j])
  }

  /** `addToCart`: raise the quantity of the owner's row for this product and
      variant, or insert one. An anonymous caller without a cookie gets the
      fresh session id `freshSession`, which is never stored in a cookie. */
  function AddToCart(table: seq<CartRow>, productId: Id, quantity: int, variantId: Option<Id>,
                     userId: Option<Id>, cookie: Option<string>, freshSession: Id, newId: Id,
                     lookupOk: bool, writeOk: bool): (r: Step<seq<CartRow>, ()>)
    ensures var owner := AddOwner(userId, cookie, freshSession);
      var found := Lookup(table, owner, productId, variantId);
      && (r.reply.Ok? <==> lookupOk && |found| <= 1 && writeOk)
      && (r.reply.Err? ==> r.state == table)
      && (!lookupOk || |found| > 1 ==> r.reply == Err(CheckFailed))
      && (r.reply.Ok? && |found| == 1 ==>
            r.state == SetQuantity(table, found[0].id, Anyone, found[0].quantity + quantity))
      && (r.reply.Ok? && |found| == 0 ==>
            r.state == table + [CartRow(newId, userId, SessionFor(userId, cookie, freshSession), productId, variantId, quantity)])
  {
    var owner := AddOwner(userId, cookie, freshSession);
    var found := Lookup(table, owner, productId, variantId);
    if !lookupOk || |found| > 1 then Step(table, Err(CheckFailed))
    else if |found| == 1 then
      if writeOk then Step(SetQuantity(table, found[0].id, Anyone, found[0].quantity + quantity), Ok(()))
      else Step(table, Err(UpdateFailed))
    else
      var row := CartRow(newId, userId, SessionFor(userId, cookie, freshSession), productId, variantId, quantity);
      if writeOk then Step(table + [row], Ok(())) else Step(table, Err(InsertFailed))
  }

  /** The session id `addToCart` uses: none for a signed-in user, else the
      cookie's, else a fresh one. */
  function SessionFor(userId: Option<Id>, cookie: Option<string>, freshSession: Id): Option<Id> {
    if userId.Some? then None
    else if CookieSession(cookie).Some? then CookieSession(cookie)
    else Some(freshSession)
  }

  function AddOwner(userId: Option<Id>, cookie: Option<string>, freshSession: Id): Owner {
    if userId.Some? then ByUser(userId.value) else BySession(SessionFor(userId, cookie, freshSession).value)
  }

  /** `updateCartItem`: sets the quantity of row `itemId` within the caller's
      scope. No lower bound is checked on this path. */
  function UpdateCartItem(table: seq<CartRow>, itemId: Id, quantity: int, userId: Option<Id>,
                          cookie: Option<string>, writeOk: bool): (r: Step<seq<CartRow>, ()>)
    ensures r.reply.Ok? <==> writeOk
    ensures r.reply.Err? ==> r.state == table && r.reply.msg == UpdateItemFailed
    ensures |r.state| == |table|
    ensures forall j :: 0 <= j < |table| && !(table[j].id == itemId && OwnedBy(table[j], Scope(userId, cookie))) ==>
      r.state[j] == table[j]
    ensures writeOk ==> forall j :: 0 <= j < |table| && table[j].id == itemId && OwnedBy(table[j], Scope(userId, cookie)) ==>
      r.state[j] == table[j].(quantity := quantity)
  {
    if writeOk then Step(SetQuantity(table, itemId, Scope(userId, cookie), quantity), Ok(()))
    else Step(table, Err(UpdateItemFailed))
  }

  /** `removeCartItem`: deletes row `itemId` within the caller's scope. */
  function RemoveCartItem(table: seq<CartRow>, itemId: Id, userId: Option<Id>,
                          cookie: Option<string>, writeOk: bool): (r: Step<seq<CartRow>, ()>)
    ensures r.reply.Ok? <==> writeOk
    ensures r.reply.Err? ==> r.state == table && r.reply.msg == RemoveItemFailed
    ensures writeOk ==> forall x :: x in r.state <==>
      x in table && !(x.id == itemId && OwnedBy(x, Scope(userId, cookie)))
    ensures IsSubsequence(r.state, table)
  {
    var keep := (x: CartRow) => !(x.id == itemId && OwnedBy(x, Scope(userId, cookie)));
    FilterIsSubsequence(table, keep);
    if writeOk then Step(Filter(table, keep), Ok(()))
    else
      SubsequenceRefl(table);
      Step(table, Err(RemoveItemFailed))
  }

  /** `clearCart`: deletes every row of the user, or else of the cookie's
      session; with neither, nothing is deleted. */
  function ClearCart(table: seq<CartRow>, userId: Option<Id>, cookie: Option<string>,
                     writeOk: bool): (r: Step<seq<CartRow>, ()>)
    ensures userId.None? && !Truthy(cookie) ==> r == Step(table, Ok(()))
    ensures (userId.Some? || Truthy(cookie)) ==> (r.reply.Ok? <==> writeOk)
    ensures r.reply.Err? ==> r.state == table && r.reply.msg == ClearFailed
    ensures r.reply.Ok? && (userId.Some? || Truthy(cookie)) ==>
      forall x :: x in r.state <==> x in table && !OwnedBy(x, Scope(userId, cookie))
    ensures IsSubsequence(r.state, table)
  {
    SubsequenceRefl(table);
    if userId.None? && !Truthy(cookie) then Step(table, Ok(()))
    else if writeOk then
      FilterIsSubsequence(table, (x: CartRow) => !OwnedBy(x, Scope(userId, cookie)));
      Step(Filter(table, (x: CartRow) => !OwnedBy(x, Scope(userId, cookie))), Ok(()))
    else Step(table, Err(ClearFailed))
  }

  /** What `mergeAnonymousCartWithUserCart` decides. The merge itself runs
      in the `merge_carts` database procedure, whose body is not part of
      this model. */
  datatype MergeDecision = NothingToMerge | CallsMergeCarts

  function MergeAnonymousCart(table: seq<CartRow>, userId: Id, sessionId: Id,
                              anonFetchOk: bool, userFetchOk: bool, rpcOk: bool): (r: Result<MergeDecision>)
    ensures r == Ok(NothingToMerge) <==> anonFetchOk && forall x :: x in table ==> x.sessionId != Some(sessionId)
    ensures r == Ok(CallsMergeCarts) ==> exists x :: x in table && x.sessionId == Some(sessionId)
  {
    if !anonFetchOk then Err("Failed to fetch anonymous cart")
    else if forall x | x in table :: x.sessionId != Some(sessionId) then Ok(NothingToMerge)
    else if !userFetchOk then Err("Failed to fetch user cart")
    else if !rpcOk then Err("Failed to merge carts")
    else Ok(CallsMergeCarts)
  }

  /** The one owner a row belongs to. */
  function OwnerOf(x: CartRow): Owner {
    if x.userId.Some? then ByUser(x.userId.value)
    else if x.sessionId.Some? then BySession(x.sessionId.value)
    else Anyone
  }

  /** A row's primary key. */
  function RowId(x: CartRow): Id {
    x.id
  }

  /** The cart table's invariant: distinct ids, each row owned by exactly one
      of a user or a session, and at most one row per (owner, product,
      variant). */
  predicate WellFormed(table: seq<CartRow>) {
    && DistinctIds(table, RowId)
    && (forall i :: 0 <= i < |table| ==> table[i].userId.Some? != table[i].sessionId.Some?)
    && (forall i, j :: 0 <= i < j < |table| ==>
          !(OwnerOf(table[i]) == OwnerOf(table[j]) && table[i].productId == table[j].productId
            && table[i].variantId == table[j].variantId))
  }

  predicate FreshId(table: seq<CartRow>, id: Id) {
    forall x :: x in table ==> x.id != id
  }

  /** `addToCart` keeps the table well formed when the database gives the
      new row a fresh id. */
  lemma AddToCartKeepsWellFormed(table: seq<CartRow>, productId: Id, quantity: int, variantId: Option<Id>,
                                 userId: Option<Id>, cookie: Option<string>, freshSession: Id, newId: Id,
                                 lookupOk: bool, writeOk: bool)
    requires WellFormed(table)
    requires FreshId(table, newId)
    ensures WellFormed(AddToCart(table, productId, quantity, variantId, userId, cookie, freshSession, newId, lookupOk, writeOk).state)
  {
    var found := Lookup(table, AddOwner(userId, cookie, freshSession), productId, variantId);
    var r := AddToCart(table, productId, quantity, variantId, userId, cookie, freshSession, newId, lookupOk, writeOk);
    if r.reply.Err? {
      assert r.state == table;
    } else if |found| == 0 {
      InsertKeepsWellFormed(table, productId, quantity, variantId, userId, cookie, freshSession, newId);
    } else {
      assert r.state == SetQuantity(table, found[0].id, Anyone, found[0].quantity + quantity);
      SetQuantityKeepsWellFormed(table, found[0].id, Anyone, found[0].quantity + quantity);
    }
  }

  /** Changing quantities touches no column of the invariant. */
  lemma SetQuantityKeepsWellFormed(table: seq<CartRow>, id: Id, owner: Owner, quantity: int)
    requires WellFormed(table)
    ensures WellFormed(SetQuantity(table, id, owner, quantity))
  {
    var t := SetQuantity(table, id, owner, quantity);
    assert forall j :: 0 <= j < |table| ==>
      (t[j].id == table[j].id && t[j].userId == table[j].userId && t[j].sessionId == table[j].sessionId
       && t[j].productId == table[j].productId && t[j].variantId == table[j].variantId);
  }

  /** `updateCartItem` keeps the table well formed. */
  lemma UpdateCartItemKeepsWellFormed(table: seq<CartRow>, itemId: Id, quantity: int, userId: Option<Id>,
                                      cookie: Option<string>, writeOk: bool)
    requires WellFormed(table)
    ensures WellFormed(UpdateCartItem(table, itemId, quantity, userId, cookie, writeOk).state)
  {
    SetQuantityKeepsWellFormed(table, itemId, Scope(userId, cookie), quantity);
  }

  /** Two rows of a well-formed table, the first before the second. */
  predicate Apart(a: CartRow, b: CartRow) {
    && a.id != b.id
    && !(OwnerOf(a) == OwnerOf(b) && a.productId == b.productId && a.variantId == b.variantId)
  }

  /** Deleting rows keeps the table well formed. */
  lemma SubsequenceKeepsWellFormed(kept: seq<CartRow>, table: seq<CartRow>)
    requires WellFormed(table) && IsSubsequence(kept, table)
    ensures WellFormed(kept)
  {
    SubsequenceKeepsPairwise(kept, table, Apart);
    SubsequenceMembers(kept, table);
    forall i | 0 <= i < |kept| ensures kept[i].userId.Some? != kept[i].sessionId.Some? {
      assert kept[i] in table;
    }
  }

  /** `removeCartItem` keeps the table well formed. */
  lemma RemoveCartItemKeepsWellFormed(table: seq<CartRow>, itemId: Id, userId: Option<Id>,
                                      cookie: Option<string>, writeOk: bool)
    requires WellFormed(table)
    ensures WellFormed(RemoveCartItem(table, itemId, userId, cookie, writeOk).state)
  {
    SubsequenceKeepsWellFormed(RemoveCartItem(table, itemId, userId, cookie, writeOk).state, table);
  }

  /** `clearCart` keeps the table well formed. */
  lemma ClearCartKeepsWellFormed(table: seq<CartRow>, userId: Option<Id>, cookie: Option<string>, writeOk: bool)
    requires WellFormed(table)
    ensures WellFormed(ClearCart(table, userId, cookie, writeOk).state)
  {
    SubsequenceKeepsWellFormed(ClearCart(table, userId, cookie, writeOk).state, table);
  }

  /** The insert case of `AddToCartKeepsWellFormed`. */
  lemma InsertKeepsWellFormed(table: seq<CartRow>, productId: Id, quantity: int, variantId: Option<Id>,
                              userId: Option<Id>, cookie: Option<string>, freshSession: Id, newId: Id)
    requires WellFormed(table)
    requires FreshId(table, newId)
    requires |Lookup(table, AddOwner(userId, cookie, freshSession), productId, variantId)| == 0
    ensures WellFormed(AddToCart(table, productId, quantity, variantId, userId, cookie, freshSession, newId, true, true).state)
  {
    var owner := AddOwner(userId, cookie, freshSession);
    var found := Lookup(table, owner, productId, variantId);
    var row := CartRow(newId, userId, SessionFor(userId, cookie, freshSession), productId, variantId, quantity);
    assert OwnerOf(row) == owner;
    forall j | 0 <= j < |table|
      ensures table[j].id != row.id
      ensures !(OwnerOf(table[j]) == OwnerOf(row) && table[j].productId == row.productId && table[j].variantId == row.variantId)
    {
      assert table[j] in table && table[j] !in found;
      assert !(OwnedBy(table[j], owner) && table[j].productId == productId && table[j].variantId == variantId);
    }
    assert AddToCart(table, productId, quantity, variantId, userId, cookie, freshSession, newId, true, true).state == table + [row];
  }

  /** In a well-formed table the duplicate check finds at most one row, so
      the "Failed to check cart" error comes only from a failed query. */
  lemma {:induction false} WellFormedLookupAtMostOne(table: seq<CartRow>, owner: Owner, productId: Id, variantId: Option<Id>)
    requires WellFormed(table)
    requires owner != Anyone
    ensures |Lookup(table, owner, productId, variantId)| <= 1
  {
    var found := Lookup(table, owner, productId, variantId);
    if |found| > 1 {
      var a, b := found[0], found[1];
      assert a in table && b in table;
      var i :| 0 <= i < |table| && table[i] == a;
      var j :| 0 <= j < |table| && table[j] == b;
      assert OwnerOf(a) == owner && OwnerOf(b) == owner;
      if i == j {
        LookupDistinct(table, owner, productId, variantId);
        assert false;
      } else if i < j {
        assert false;
      } else {
        assert false;
      }
    }
  }

  /** With distinct ids, the rows a filter selects are distinct too. */
  lemma {:induction false} LookupDistinct(table: seq<CartRow>, owner: Owner, productId: Id, variantId: Option<Id>)
    requires DistinctIds(table, RowId)
    ensures var f := Lookup(table, owner, productId, variantId); |f| > 1 ==> f[0] != f[1]
  {
    FilterKeepsDistinct(table, RowId, (x: CartRow) => OwnedBy(x, owner) && x.productId == productId && x.variantId == variantId);
  }

  /** Quantity held by an owner's rows. */
  function OwnerUnits(table: seq<CartRow>, owner: Owner): int {
    if table == [] then 0
    else (if OwnedBy(table[0], owner) then table[0].quantity else 0) + OwnerUnits(table[1..], owner)
  }

  /** After a successful `addToCart` into a well-formed table, the owner's
      cart holds exactly `quantity` more units. */
  lemma AddToCartUnits(table: seq<CartRow>, productId: Id, quantity: int, variantId: Option<Id>,
                       userId: Option<Id>, cookie: Option<string>, freshSession: Id, newId: Id)
    requires WellFormed(table)
    ensures var r := AddToCart(table, productId, quantity, variantId, userId, cookie, freshSession, newId, true, true);
      var owner := AddOwner(userId, cookie, freshSession);
      OwnerUnits(r.state, owner) == OwnerUnits(table, owner) + quantity
  {
    var owner := AddOwner(userId, cookie, freshSession);
    WellFormedLookupAtMostOne(table, owner, productId, variantId);
    var found := Lookup(table, owner, productId, variantId);
    if |found| == 1 {
      LookupOwned(table, owner, productId, variantId);
      AddToCartUpdates(table, productId, quantity, variantId, userId, cookie, freshSession, newId);
      var m := found[0];
      var after := SetQuantity(table, m.id, Anyone, m.quantity + quantity);
      assert AddToCart(table, productId, quantity, variantId, userId, cookie, freshSession, newId, true, true).state == after;
      assert m in table && OwnedBy(m, owner);
      AddUnits(table, owner, m, quantity);
    } else {
      InsertedUnits(table, productId, quantity, variantId, userId, cookie, freshSession, newId);
    }
  }

  /** With one row found, a successful add sets that row's quantity. */
  lemma AddToCartUpdates(table: seq<CartRow>, productId: Id, quantity: int, variantId: Option<Id>,
                         userId: Option<Id>, cookie: Option<string>, freshSession: Id, newId: Id)
    requires |Lookup(table, AddOwner(userId, cookie, freshSession), productId, variantId)| == 1
    ensures var m := Lookup(table, AddOwner(userId, cookie, freshSession), productId, variantId)[0];
      AddToCart(table, productId, quantity, variantId, userId, cookie, freshSession, newId, true, true).state
        == SetQuantity(table, m.id, Anyone, m.quantity + quantity)
  {
  }

  /** A row the duplicate check finds is in the table and the owner's. */
  lemma LookupOwned(table: seq<CartRow>, owner: Owner, productId: Id, variantId: Option<Id>)
    ensures forall x :: x in Lookup(table, owner, productId, variantId) ==> x in table && OwnedBy(x, owner)
  {
  }

  /** The insert case of `AddToCartUnits`. */
  lemma InsertedUnits(table: seq<CartRow>, productId: Id, quantity: int, variantId: Option<Id>,
                      userId: Option<Id>, cookie: Option<string>, freshSession: Id, newId: Id)
    requires |Lookup(table, AddOwner(userId, cookie, freshSession), productId, variantId)| == 0
    ensures var r := AddToCart(table, productId, quantity, variantId, userId, cookie, freshSession, newId, true, true);
      var owner := AddOwner(userId, cookie, freshSession);
      OwnerUnits(r.state, owner) == OwnerUnits(table, owner) + quantity
  {
    var owner := AddOwner(userId, cookie, freshSession);
    var r := AddToCart(table, productId, quantity, variantId, userId, cookie, freshSession, newId, true, true);
    var row := CartRow(newId, userId, SessionFor(userId, cookie, freshSession), productId, variantId, quantity);
    assert OwnedBy(row, owner);
    assert r.state == table + [row];
    InsertUnits(table, owner, row);
  }

  /** Setting the quantity of one owned row (ids being distinct) shifts the
      owner's units by the change. */
  lemma AddUnits(table: seq<CartRow>, owner: Owner, m: CartRow, delta: int)
    requires DistinctIds(table, RowId)
    requires m in table && OwnedBy(m, owner)
    ensures OwnerUnits(SetQuantity(table, m.id, Anyone, m.quantity + delta), owner) == OwnerUnits(table, owner) + delta
  {
    var k :| 0 <= k < |table| && table[k] == m;
    SetQuantityAt(table, k, m.quantity + delta);
    UnitsUpdate(table, owner, k, m.(quantity := m.quantity + delta));
  }

  /** With distinct ids, setting the quantity of row `k`'s id changes row
      `k` alone. */
  lemma SetQuantityAt(table: seq<CartRow>, k: nat, quantity: int)
    requires DistinctIds(table, RowId)
    requires k < |table|
    ensures SetQuantity(table, table[k].id, Anyone, quantity) == table[k := table[k].(quantity := quantity)]
  {
    forall j | 0 <= j < |table| && j != k ensures table[j].id != table[k].id {
      if j < k { assert RowId(table[j]) != RowId(table[k]); } else { assert RowId(table[k]) != RowId(table[j]); }
    }
  }

  /** Appending an owned row adds its quantity to the owner's units. */
  lemma {:induction false} InsertUnits(table: seq<CartRow>, owner: Owner, row: CartRow)
    requires OwnedBy(row, owner)
    ensures OwnerUnits(table + [row], owner) == OwnerUnits(table, owner) + row.quantity
  {
    if table != [] {
      assert (table + [row])[1..] == table[1..] + [row];
      InsertUnits(table[1..], owner, row);
    }
  }

  /** Replacing one of the owner's rows by another of theirs shifts the
      owner's units by the difference. */
  lemma {:induction false} UnitsUpdate(table: seq<CartRow>, owner: Owner, k: nat, x: CartRow)
    requires k < |table| && OwnedBy(table[k], owner) && OwnedBy(x, owner)
    ensures OwnerUnits(table[k := x], owner) == OwnerUnits(table, owner) - table[k].quantity + x.quantity
  {
    if k == 0 {
      assert table[k := x][1..] == table[1..];
    } else {
      assert table[k := x][1..] == table[1..][k - 1 := x];
      UnitsUpdate(table[1..], owner, k - 1, x);
    }
  }

  /** Clearing an owner's cart leaves nothing for that owner to read back. */
  lemma ClearThenGetCartIsEmpty(table: seq<CartRow>, userId: Option<Id>, cookie: Option<string>)
    requires userId.Some? || Truthy(cookie)
    ensures GetCart(ClearCart(table, userId, cookie, true).state, userId, cookie, true) == Ok([])
  {
    var s := ClearCart(table, userId, cookie, true).state;
    FilterNone(s, (x: CartRow) => OwnedBy(x, Scope(userId, cookie)));
  }
}

=== FILE: catalog.dfy ===
/** The rows of the storefront's tables, as declared in
    types/database.types.ts. Prices are integer cents; timestamps are
    integers that order like the ISO-8601 strings the tables store. Only the
    columns some modelled operation reads or writes are kept. */
module Catalog {
  import opened Common

  datatype Category = Category(
    id: Id,
    name: string,
    slug: string,
    parentId: Option<Id>,
    gender: Option<string>)

  datatype Product = Product(
    id: Id,
    name: string,
    slug: string,
    price: int,
    salePrice: Option<int>,
    categoryId: Id,
    isFeatured: bool,
    isNew: bool,
    isPublished: bool,
    createdAt: int)

  datatype Variant = Variant(id: Id, productId: Id, price: Option<int>)

  datatype ProductImage = ProductImage(
    id: Id,
    productId: Id,
    url: string,
    alt: Option<string>,
    isPrimary: bool)

  datatype User = User(
    id: Id,
    email: string,
    firstName: Option<string>,
    lastName: Option<string>,
    phone: Option<string>,
    role: string,
    createdAt: int,
    updatedAt: int)

  datatype Address = Address(
    id: Id,
    userId: Id,
    line1: string,
    line2: Option<string>,
    city: string,
    state: string,
    postalCode: string,
    country: string,
    isDefault: bool)

  datatype Order = Order(
    id: Id,
    userId: Option<Id>,
    status: string,
    total: int,
    createdAt: int)

  datatype Review = Review(
    id: Id,
    productId: Id,
    userId: Id,
    rating: int,
    isPublished: bool,
    createdAt: int)

  /** A cart row belongs to a signed-in user or to an anonymous session. */
  datatype CartRow = CartRow(
    id: Id,
    userId: Option<Id>,
    sessionId: Option<Id>,
    productId: Id,
    variantId: Option<Id>,
    quantity: int)

  datatype WishlistRow = WishlistRow(
    id: Id,
    userId: Id,
    productId: Id,
    createdAt: int)

  /** The primary keys of a table are pairwise distinct. */
  predicate DistinctIds<T>(rows: seq<T>, id: T -> Id) {
    forall i, j :: 0 <= i < j < |rows| ==> id(rows[i]) != id(rows[j])
  }

  /** A filter keeps primary keys distinct. */
  lemma {:induction false} FilterKeepsDistinct<T(!new)>(rows: seq<T>, id: T -> Id, p: T -> bool)
    requires DistinctIds(rows, id)
    ensures DistinctIds(Filter(rows, p), id)
  {
    if rows != [] {
      FilterKeepsDistinct(rows[1..], id, p);
      var rest := Filter(rows[1..], p);
      forall k | 0 <= k < |rest| ensures id(rest[k]) != id(rows[0]) {
        assert rest[k] in rows[1..];
        var m :| 0 <= m < |rows[1..]| && rows[1..][m] == rest[k];
        assert rows[m + 1] == rest[k];
      }
    }
  }

  /** Rows with distinct keys that all carry the same key number at most one. */
  lemma SameKeyAtMostOne<T>(rows: seq<T>, id: T -> Id, key: Id)
    requires DistinctIds(rows, id)
    requires forall x :: x in rows ==> id(x) == key
    ensures |rows| <= 1
  {
    if |rows| > 1 {
      FirstTwo(rows);
      assert false;
    }
  }

  lemma FirstTwo<T>(rows: seq<T>)
    requires |rows| > 1
    ensures rows[0] in rows && rows[1] in rows
  {
  }
}

=== FILE: categories.dfy ===
/** lib/db/categories.ts: the category queries, filtered by parent and
    gender and ordered by name, and the five built-in categories served
    when the database cannot be reached. */
module Categories {
  import opened Common
  import opened Text
  import opened Catalog

  /** The built-in categories: five top-level women's categories, in this
      order. */
  const Fallback: seq<Category> := [Heels, Flats, Sandals, Boots, Sneakers]

  const Heels := Category("1", "Heels", "heels", None, Some("women"))
  const Flats := Category("2", "Flats", "flats", None, Some("women"))
  const Sandals := Category("3", "Sandals", "sandals", None, Some("women"))
  const Boots := Category("4", "Boots", "boots", None, Some("women"))
  const Sneakers := Category("5", "Sneakers", "sneakers", None, Some("women"))

  /** The `parentId` option: omitted, `null` (top level only), or an id. */
  datatype ParentFilter = Unset | IsNull | Equals(id: string)

  /** The filters of `getCategories`; the gender filter applies only when
      the gender is a non-empty string. */
  predicate Matches(parent: ParentFilter, gender: Option<string>, c: Category) {
    && (match parent
        case Unset => true
        case IsNull => c.parentId.None?
        case Equals(id) => c.parentId == Some(id))
    && (Truthy(gender) ==> c.gender == gender)
  }

  /** `order("name")`. */
  function NameLe(): (le: (Category, Category) -> bool)
    ensures forall a, b :: le(a, b) <==> LexLe(a.name, b.name)
    ensures Total(le)
  {
    LexLeOrders();
    (a: Category, b: Category) => LexLe(a.name, b.name)
  }

  /** `filterFallbackCategories`: the built-in categories passing the
      filters, in their own order. */
  function FilterFallback(parent: ParentFilter, gender: Option<string>): (r: seq<Category>)
    ensures IsSubsequence(r, Fallback)
    ensures forall c :: c in r <==> c in Fallback && Matches(parent, gender, c)
  {
    var r := Filter(Fallback, (c: Category) => Matches(parent, gender, c));
    FilterIsSubsequence(Fallback, (c: Category) => Matches(parent, gender, c));
    r
  }

  /** `getCategories`: the matching rows by name; the built-in categories
      when the query fails. */
  function GetCategories(categories: seq<Category>, parent: ParentFilter, gender: Option<string>,
                         queryOk: bool): (r: seq<Category>)
    ensures queryOk ==> multiset(r) == multiset(Filter(categories, (c: Category) => Matches(parent, gender, c)))
    ensures queryOk ==> forall i, j :: 0 <= i < j < |r| ==> LexLe(r[i].name, r[j].name)
    ensures !queryOk ==> r == FilterFallback(parent, gender)
    ensures queryOk ==> forall c :: c in r <==> c in categories && Matches(parent, gender, c)
    ensures forall c :: c in r ==> Matches(parent, gender, c)
  {
    if queryOk then
      var matching := Filter(categories, (c: Category) => Matches(parent, gender, c));
      SortByMembers(matching, NameLe());
      SortBy(matching, NameLe())
    else FilterFallback(parent, gender)
  }

  /** `getMainCategories`: the top-level categories, of the gender if one
      is given. */
  function GetMainCategories(categories: seq<Category>, gender: Option<string>, queryOk: bool): (r: seq<Category>)
    ensures forall c :: c in r ==> c.parentId.None? && (Truthy(gender) ==> c.gender == gender)
    ensures queryOk ==> forall c :: c in categories && c.parentId.None? && (Truthy(gender) ==> c.gender == gender) ==> c in r
  {
    GetCategories(categories, IsNull, gender, queryOk)
  }

  /** `getSubcategories`: the children of one category. */
  function GetSubcategories(categories: seq<Category>, parentId: string, queryOk: bool): (r: seq<Category>)
    ensures forall c :: c in r ==> c.parentId == Some(parentId)
    ensures queryOk ==> |r| == Count(categories, (c: Category) => c.parentId == Some(parentId))
  {
    var r := GetCategories(categories, Equals(parentId), None, queryOk);
    if queryOk then
      SameFilter(categories, (c: Category) => Matches(Equals(parentId), None, c), (c: Category) => c.parentId == Some(parentId));
      assert |multiset(r)| == |r|;
      r
    else r
  }

  /** Every built-in category is a top-level women's category. */
  lemma FallbackShape()
    ensures forall c :: c in Fallback ==> c.parentId.None? && c.gender == Some("women")
  {
  }

  lemma FallbackForWomen()
    ensures FilterFallback(Unset, Some("women")) == Fallback
  {
    FallbackShape();
    FilterAll(Fallback, (c: Category) => Matches(Unset, Some("women"), c));
  }

  lemma FallbackForMen()
    ensures FilterFallback(Unset, Some("men")) == []
  {
    FallbackShape();
    FilterNone(Fallback, (c: Category) => Matches(Unset, Some("men"), c));
  }

  /** `getWomenCategories`. */
  function GetWomenCategories(categories: seq<Category>, queryOk: bool): (r: seq<Category>)
    ensures forall c :: c in r ==> c.gender == Some("women")
  {
    GetCategories(categories, Unset, Some("women"), queryOk)
  }

  /** With the database unreachable: every built-in category is a women's category. */
  lemma WomenFallback(categories: seq<Category>)
    ensures GetWomenCategories(categories, false) == Fallback
  {
    FallbackForWomen();
  }

  /** `getMenCategories`. */
  function GetMenCategories(categories: seq<Category>, queryOk: bool): (r: seq<Category>)
    ensures forall c :: c in r ==> c.gender == Some("men")
  {
    GetCategories(categories, Unset, Some("men"), queryOk)
  }

  /** With the database unreachable: there is no built-in men's category. */
  lemma MenFallback(categories: seq<Category>)
    ensures GetMenCategories(categories, false) == []
  {
    FallbackForMen();
  }

  /** The built-in categories are not in name order, so the two paths of
      `getCategories` order their rows differently. */
  lemma FallbackNotByName()
    ensures !LexLe(Fallback[0].name, Fallback[1].name)
  {
  }

  /** A single-row lookup by `key`: the one row with the key when the query
      succeeds with exactly one (`.single()`), else the first built-in
      category with the key, else none. */
  function Single(categories: seq<Category>, key: Category -> bool, queryOk: bool): (r: Option<Category>)
    ensures r.Some? ==> key(r.value) && (r.value in categories || r.value in Fallback)
    ensures queryOk && Count(categories, key) == 1 ==> r == Some(Filter(categories, key)[0])
    ensures !(queryOk && Count(categories, key) == 1) ==>
      (r.None? <==> forall c :: c in Fallback ==> !key(c))
    ensures !(queryOk && Count(categories, key) == 1) && r.Some? ==> r.value in Fallback
  {
    var rows := Filter(categories, key);
    if queryOk && |rows| == 1 then
      assert rows[0] in rows;
      Some(rows[0])
    else
      match FindFirst(Fallback, key)
      case Some(i) => Some(Fallback[i])
      case None => None
  }

  /** `getCategoryBySlug`. */
  function GetCategoryBySlug(categories: seq<Category>, slug: string, queryOk: bool): (r: Option<Category>)
    ensures r.Some? ==> r.value.slug == slug && (r.value in categories || r.value in Fallback)
  {
    Single(categories, (c: Category) => c.slug == slug, queryOk)
  }

  /** `getCategoryById`. */
  function GetCategoryById(categories: seq<Category>, id: string, queryOk: bool): (r: Option<Category>)
    ensures r.Some? ==> r.value.id == id && (r.value in categories || r.value in Fallback)
  {
    Single(categories, (c: Category) => c.id == id, queryOk)
  }

  /** Two rows with one slug make `.single()` fail: the lookup then falls
      back to the built-in categories, even with the database up. */
  lemma DuplicateSlugFallsBack(categories: seq<Category>, slug: string)
    requires Count(categories, (c: Category) => c.slug == slug) >= 2
    ensures GetCategoryBySlug(categories, slug, true) == Single([], (c: Category) => c.slug == slug, false)
  {
  }
}

=== FILE: common.dfy ===
/** Shared vocabulary of the storefront model: identifiers, optional values,
    replies that carry the storefront's error messages, and the sequence
    operations (filter, count, paginate, sort) that every table query in the
    model is built from. A table is a sequence of rows in insertion order. */
module Common {

  /** Row identifiers are database-generated UUIDs or primary keys and are
      never empty, so in the storefront an id is falsy exactly when absent. */
  type Id = s: string | |s| > 0 witness "0"

  datatype Option<+T> = None | Some(value: T) {
    /** The value, or `default` when absent (the `??` operator). */
    function GetOr(default: T): T {
      match this
      case Some(v) => v
      case None => default
    }
  }

  /** A reply: a value, or the error message the storefront reports. */
  datatype Result<+T> = Ok(value: T) | Err(msg: string)

  /** The state of a table after an operation, together with its reply.
      A failed reply may still come with a changed state when an earlier
      database call of the same operation has already been applied. */
  datatype Step<+S, +R> = Step(state: S, reply: Result<R>)

  /** JavaScript truthiness of an optional string: present and non-empty. */
  predicate Truthy(s: Option<string>) {
    s.Some? && s.value != ""
  }

  function Min(a: int, b: int): int {
    if a <= b then a else b
  }

  /** The rows that satisfy `p`, in their original order (a `.eq(...)` or
      `.filter(...)` over a table). */
  function Filter<T(!new)>(s: seq<T>, p: T -> bool): (r: seq<T>)
    ensures |r| <= |s|
    ensures forall i :: 0 <= i < |r| ==> p(r[i])
    ensures forall x :: x in r <==> x in s && p(x)
    ensures multiset(r) <= multiset(s)
  {
    if s == [] then []
    else
      assert s == [s[0]] + s[1..];
      if p(s[0]) then [s[0]] + Filter(s[1..], p)
      else Filter(s[1..], p)
  }

  /** `a` is obtained from `b` by deleting elements, keeping the order. */
  ghost predicate IsSubsequence<T>(a: seq<T>, b: seq<T>)
    decreases |b|
  {
    if a == [] then true
    else if b == [] then false
    else (a[0] == b[0] && IsSubsequence(a[1..], b[1..])) || IsSubsequence(a, b[1..])
  }

  lemma {:induction false} SubsequenceRefl<T>(s: seq<T>)
    ensures IsSubsequence(s, s)
  {
    if s != [] {
      SubsequenceRefl(s[1..]);
    }
  }

  lemma {:induction false} FilterIsSubsequence<T(!new)>(s: seq<T>, p: T -> bool)
    ensures IsSubsequence(Filter(s, p), s)
  {
    if s != [] {
      FilterIsSubsequence(s[1..], p);
    }
  }

  /** The rows of a subsequence are rows of the whole. */
  lemma {:induction false} SubsequenceMembers<T>(a: seq<T>, b: seq<T>)
    requires IsSubsequence(a, b)
    ensures forall x :: x in a ==> x in b
    decreases |b|
  {
    if a != [] {
      if a[0] == b[0] && IsSubsequence(a[1..], b[1..]) {
        SubsequenceMembers(a[1..], b[1..]);
        assert a == [a[0]] + a[1..] && b == [b[0]] + b[1..];
      } else {
        SubsequenceMembers(a, b[1..]);
      }
    }
  }

  /** A relation that holds between each row and every later row still
      holds in a subsequence. */
  lemma {:induction false} SubsequenceKeepsPairwise<T>(a: seq<T>, b: seq<T>, ok: (T, T) -> bool)
    requires IsSubsequence(a, b)
    requires forall i, j :: 0 <= i < j < |b| ==> ok(b[i], b[j])
    ensures forall i, j :: 0 <= i < j < |a| ==> ok(a[i], a[j])
    decreases |b|
  {
    if a != [] {
      if a[0] == b[0] && IsSubsequence(a[1..], b[1..]) {
        SubsequenceKeepsPairwise(a[1..], b[1..], ok);
        SubsequenceMembers(a[1..], b[1..]);
        forall i, j | 0 <= i < j < |a| ensures ok(a[i], a[j]) {
          if i == 0 {
            assert a[j] == a[1..][j - 1] && a[j] in b[1..];
            var m :| 0 <= m < |b[1..]| && b[1..][m] == a[j];
            assert b[m + 1] == a[j];
          } else {
            assert a[i] == a[1..][i - 1] && a[j] == a[1..][j - 1];
          }
        }
      } else {
        forall i, j | 0 <= i < j < |b[1..]| ensures ok(b[1..][i], b[1..][j]) {
          assert b[1..][i] == b[i + 1] && b[1..][j] == b[j + 1];
        }
        SubsequenceKeepsPairwise(a, b[1..], ok);
      }
    }
  }

  /** A filter that no row passes selects nothing. */
  lemma {:induction false} FilterNone<T(!new)>(s: seq<T>, p: T -> bool)
    requires forall x :: x in s ==> !p(x)
    ensures Filter(s, p) == []
  {
    if s != [] {
      FilterNone(s[1..], p);
    }
  }

  /** Filters by two predicates that agree everywhere agree. */
  lemma {:induction false} SameFilter<T(!new)>(s: seq<T>, p: T -> bool, q: T -> bool)
    requires forall x :: p(x) == q(x)
    ensures Filter(s, p) == Filter(s, q)
  {
    if s != [] {
      SameFilter(s[1..], p, q);
    }
  }

  /** Filtering first by a weaker predicate changes nothing. */
  lemma {:induction false} FilterWeakerFirst<T(!new)>(s: seq<T>, p: T -> bool, q: T -> bool)
    requires forall x :: q(x) ==> p(x)
    ensures Filter(Filter(s, p), q) == Filter(s, q)
  {
    if s != [] {
      FilterWeakerFirst(s[1..], p, q);
    }
  }

  /** A filter that every row passes selects everything. */
  lemma {:induction false} FilterAll<T(!new)>(s: seq<T>, p: T -> bool)
    requires forall x :: x in s ==> p(x)
    ensures Filter(s, p) == s
  {
    if s != [] {
      FilterAll(s[1..], p);
    }
  }

  /** The number of rows that satisfy `p`. */
  function Count<T(!new)>(s: seq<T>, p: T -> bool): nat {
    |Filter(s, p)|
  }

  lemma {:induction false} FilterAppend<T(!new)>(a: seq<T>, b: seq<T>, p: T -> bool)
    ensures Filter(a + b, p) == Filter(a, p) + Filter(b, p)
  {
    if a == [] {
      assert a + b == b;
    } else {
      assert (a + b)[1..] == a[1..] + b;
      FilterAppend(a[1..], b, p);
    }
  }

  /** Filtering twice is filtering by the conjunction. */
  lemma {:induction false} FilterFilter<T(!new)>(s: seq<T>, p: T -> bool, q: T -> bool)
    ensures Filter(Filter(s, p), q) == Filter(s, x => p(x) && q(x))
  {
    if s != [] {
      FilterFilter(s[1..], p, q);
    }
  }

  /** The rows PostgREST returns for `range(offset, offset + limit - 1)`:
      at most `limit` consecutive rows starting at position `offset`. */
  function Window<T>(s: seq<T>, offset: nat, limit: nat): (w: seq<T>)
    ensures |w| == if offset >= |s| then 0 else Min(limit, |s| - offset)
    ensures forall i :: 0 <= i < |w| ==> offset + i < |s| && w[i] == s[offset + i]
  {
    if offset >= |s| then [] else s[offset .. Min(offset + limit, |s|)]
  }

  /** A filter keeps each passing row as often as it occurs and drops the
      others. */
  lemma {:induction false} FilterMultiset<T(!new)>(s: seq<T>, p: T -> bool)
    ensures forall x :: multiset(Filter(s, p))[x] == if p(x) then multiset(s)[x] else 0
  {
    if s != [] {
      FilterMultiset(s[1..], p);
      assert s == [s[0]] + s[1..];
    }
  }

  /** Consecutive pages tile: a page followed by the page right after it is
      one page as large as both. */
  lemma WindowsTile<T>(s: seq<T>, offset: nat, n: nat, m: nat)
    ensures Window(s, offset, n) + Window(s, offset + n, m) == Window(s, offset, n + m)
  {
    if offset < |s| && offset + n < |s| {
      assert s[offset .. Min(offset + n + m, |s|)] == s[offset .. offset + n] + s[offset + n .. Min(offset + n + m, |s|)];
    }
  }

  /** `WindowsTile` for pages a query returned. */
  lemma ResultsTile<T>(first: Result<seq<T>>, second: Result<seq<T>>, both: Result<seq<T>>, s: seq<T>, offset: nat, n: nat, m: nat)
    requires first == Ok(Window(s, offset, n)) && second == Ok(Window(s, offset + n, m))
    requires both == Ok(Window(s, offset, n + m))
    ensures first.Ok? && second.Ok? && both.Ok? && first.value + second.value == both.value
  {
    WindowsTile(s, offset, n, m);
  }

  /** Sorting keeps exactly the rows it was given. */
  lemma SortByMembers<T(!new)>(s: seq<T>, le: (T, T) -> bool)
    requires Total(le)
    ensures forall x :: x in SortBy(s, le) <==> x in s
  {
    var r := SortBy(s, le);
    forall x ensures x in r <==> x in s {
      assert x in r <==> x in multiset(r);
      assert x in s <==> x in multiset(s);
    }
  }

  /** A page of a sorted selection holds rows of the selection, in order. */
  lemma SortedWindow<T(!new)>(s: seq<T>, le: (T, T) -> bool, offset: nat, limit: nat)
    requires Total(le)
    ensures var w := Window(SortBy(s, le), offset, limit);
      (forall x :: x in w ==> x in s) && SortedBy(w, le)
  {
    var sorted := SortBy(s, le);
    var w := Window(sorted, offset, limit);
    forall x | x in w ensures x in s {
      assert x in multiset(sorted);
    }
  }

  /** `le` is a total preorder, as the comparison of an ORDER BY column is. */
  ghost predicate Total<T(!new)>(le: (T, T) -> bool) {
    && (forall a, b :: le(a, b) || le(b, a))
    && (forall a, b, c :: le(a, b) && le(b, c) ==> le(a, c))
  }

  predicate SortedBy<T>(s: seq<T>, le: (T, T) -> bool) {
    forall i, j :: 0 <= i < j < |s| ==> le(s[i], s[j])
  }

  /** A row of a sorted sequence that is not among its first `n` rows is
      preceded by each of them. */
  lemma SortedPrefixIsTop<T>(s: seq<T>, le: (T, T) -> bool, n: nat, x: T)
    requires SortedBy(s, le) && x in s && x !in s[..Min(n, |s|)]
    ensures forall i :: 0 <= i < Min(n, |s|) ==> le(s[i], x)
  {
    var k :| 0 <= k < |s| && s[k] == x;
    assert forall j :: 0 <= j < Min(n, |s|) ==> s[..Min(n, |s|)][j] == s[j];
  }

  /** Inserts `x` before the first row it may precede. */
  function InsertBy<T(!new)>(x: T, s: seq<T>, le: (T, T) -> bool): (r: seq<T>)
    requires Total(le)
    ensures multiset(r) == multiset(s) + multiset{x}
    ensures SortedBy(s, le) ==> SortedBy(r, le)
  {
    if s == [] then [x]
    else if le(x, s[0]) then
      InsertFront(x, s, le);
      [x] + s
    else
      var rest := InsertBy(x, s[1..], le);
      InsertBehind(x, s, rest, le);
      [s[0]] + rest
  }

  /** The case of `InsertBy` where `x` goes first. */
  lemma InsertFront<T(!new)>(x: T, s: seq<T>, le: (T, T) -> bool)
    requires Total(le) && s != [] && le(x, s[0])
    ensures multiset([x] + s) == multiset(s) + multiset{x}
    ensures SortedBy(s, le) ==> SortedBy([x] + s, le)
  {
    if SortedBy(s, le) {
      forall i, j | 0 <= i < j < |[x] + s| ensures le(([x] + s)[i], ([x] + s)[j]) {
        if i == 0 && j > 1 {
          assert le(s[0], s[j - 1]);
        }
      }
    }
  }

  /** The case of `InsertBy` where `x` goes behind the first row. */
  lemma InsertBehind<T(!new)>(x: T, s: seq<T>, rest: seq<T>, le: (T, T) -> bool)
    requires Total(le) && s != [] && !le(x, s[0])
    requires multiset(rest) == multiset(s[1..]) + multiset{x}
    requires SortedBy(s[1..], le) ==> SortedBy(rest, le)
    ensures multiset([s[0]] + rest) == multiset(s) + multiset{x}
    ensures SortedBy(s, le) ==> SortedBy([s[0]] + rest, le)
  {
    assert s == [s[0]] + s[1..];
    if SortedBy(s, le) {
      TailSorted(s, le);
      forall y | y in rest ensures le(s[0], y) {
        assert y in multiset(rest);
        if y != x {
          assert y in multiset(s[1..]);
          var k :| 0 <= k < |s[1..]| && s[1..][k] == y;
          assert s[k + 1] == y;
        }
      }
      ConsSorted(s[0], rest, le);
    }
  }

  lemma TailSorted<T>(s: seq<T>, le: (T, T) -> bool)
    requires s != [] && SortedBy(s, le)
    ensures SortedBy(s[1..], le)
  {
    forall i, j | 0 <= i < j < |s[1..]| ensures le(s[1..][i], s[1..][j]) {
      assert s[1..][i] == s[i + 1] && s[1..][j] == s[j + 1];
    }
  }

  lemma ConsSorted<T>(h: T, rest: seq<T>, le: (T, T) -> bool)
    requires SortedBy(rest, le) && forall y :: y in rest ==> le(h, y)
    ensures SortedBy([h] + rest, le)
  {
    forall i, j | 0 <= i < j < |[h] + rest| ensures le(([h] + rest)[i], ([h] + rest)[j]) {
      if i == 0 {
        assert ([h] + rest)[j] == rest[j - 1];
        assert rest[j - 1] in rest;
      } else {
        assert ([h] + rest)[i] == rest[i - 1] && ([h] + rest)[j] == rest[j - 1];
      }
    }
  }

  /** A stable sort of the rows by `le`: an ORDER BY whose ties keep table
      order (Postgres leaves that order open; the model fixes one). */
  function SortBy<T(!new)>(s: seq<T>, le: (T, T) -> bool): (r: seq<T>)
    requires Total(le)
    ensures multiset(r) == multiset(s)
    ensures SortedBy(r, le)
  {
    if s == [] then []
    else
      assert s == [s[0]] + s[1..];
      InsertBy(s[0], SortBy(s[1..], le), le)
  }

  /** No two different rows of `s` tie under `le`: the ORDER BY key is
      unique on them. */
  ghost predicate NoTies<T>(s: seq<T>, le: (T, T) -> bool) {
    forall i, j :: 0 <= i < |s| && 0 <= j < |s| && s[i] != s[j] ==> !(le(s[i], s[j]) && le(s[j], s[i]))
  }

  /** Without ties an ORDER BY has one answer: every ordering of the rows
      by `le` the database may return is the one `SortBy` picks. */
  lemma OnlyOrder<T(!new)>(s: seq<T>, le: (T, T) -> bool, db: seq<T>)
    requires Total(le) && NoTies(s, le)
    requires multiset(db) == multiset(s) && SortedBy(db, le)
    ensures db == SortBy(s, le)
  {
    var sorted := SortBy(s, le);
    assert NoTies(sorted, le) by {
      forall i, j | 0 <= i < |sorted| && 0 <= j < |sorted| && sorted[i] != sorted[j]
        ensures !(le(sorted[i], sorted[j]) && le(sorted[j], sorted[i]))
      {
        assert sorted[i] in multiset(s) && sorted[j] in multiset(s);
        var a :| 0 <= a < |s| && s[a] == sorted[i];
        var b :| 0 <= b < |s| && s[b] == sorted[j];
      }
    }
    SortedUnique(sorted, db, le);
  }

  /** Two orderings of the same rows by `le` agree when no two rows tie. */
  lemma {:induction false} SortedUnique<T(!new)>(a: seq<T>, b: seq<T>, le: (T, T) -> bool)
    requires Total(le) && NoTies(a, le)
    requires multiset(a) == multiset(b) && SortedBy(a, le) && SortedBy(b, le)
    ensures a == b
    decreases |a|
  {
    assert |a| == |multiset(a)| == |multiset(b)| == |b|;
    if a != [] {
      SortedHeadsAgree(a, b, le);
      SameTails(a, b);
      TailSorted(a, le);
      TailSorted(b, le);
      NoTiesTail(a, le);
      SortedUnique(a[1..], b[1..], le);
      assert a == [a[0]] + a[1..] && b == [b[0]] + b[1..];
    }
  }

  /** Two tie-free orderings of the same rows start with the same row. */
  lemma SortedHeadsAgree<T(!new)>(a: seq<T>, b: seq<T>, le: (T, T) -> bool)
    requires Total(le) && NoTies(a, le) && a != [] && b != []
    requires multiset(a) == multiset(b) && SortedBy(a, le) && SortedBy(b, le)
    ensures a[0] == b[0]
  {
    assert a[0] in multiset(b) && b[0] in multiset(a);
    var k :| 0 <= k < |b| && b[k] == a[0];
    var m :| 0 <= m < |a| && a[m] == b[0];
    assert le(b[0], a[0]) by {
      if k > 0 { assert le(b[0], b[k]); }
    }
    assert le(a[0], b[0]) by {
      if m > 0 { assert le(a[0], a[m]); }
    }
  }

  lemma SameTails<T>(a: seq<T>, b: seq<T>)
    requires a != [] && b != [] && a[0] == b[0] && multiset(a) == multiset(b)
    ensures multiset(a[1..]) == multiset(b[1..])
  {
    assert a == [a[0]] + a[1..] && b == [b[0]] + b[1..];
    assert multiset(a) == multiset{a[0]} + multiset(a[1..]);
    assert multiset(b) == multiset{b[0]} + multiset(b[1..]);
    assert multiset(a[1..]) == multiset(a) - multiset{a[0]};
    assert multiset(b[1..]) == multiset(b) - multiset{b[0]};
  }

  lemma NoTiesTail<T>(a: seq<T>, le: (T, T) -> bool)
    requires a != [] && NoTies(a, le)
    ensures NoTies(a[1..], le)
  {
    var ra := a[1..];
    forall i, j | 0 <= i < |ra| && 0 <= j < |ra| && ra[i] != ra[j] ensures !(le(ra[i], ra[j]) && le(ra[j], ra[i])) {
      assert ra[i] == a[i + 1] && ra[j] == a[j + 1];
    }
  }

  /** ORDER BY an integer column, ascending. */
  function Ascending<T(!new)>(key: T -> int): (le: (T, T) -> bool)
    ensures forall a, b :: le(a, b) <==> key(a) <= key(b)
  {
    (a, b) => key(a) <= key(b)
  }

  /** ORDER BY an integer column, descending. */
  function Descending<T(!new)>(key: T -> int): (le: (T, T) -> bool)
    ensures forall a, b :: le(a, b) <==> key(a) >= key(b)
  {
    (a, b) => key(a) >= key(b)
  }

  lemma AscendingTotal<T(!new)>(key: T -> int)
    ensures Total(Ascending(key))
  {
  }

  lemma DescendingTotal<T(!new)>(key: T -> int)
    ensures Total(Descending(key))
  {
  }

  /** Sum of an integer measure over the rows. */
  function SumOf<T>(s: seq<T>, f: T -> int): int {
    if s == [] then 0 else f(s[0]) + SumOf(s[1..], f)
  }

  /** A sum of non-negative measures is non-negative. */
  lemma {:induction false} SumOfNonNegative<T>(s: seq<T>, f: T -> int)
    ensures (forall i :: 0 <= i < |s| ==> f(s[i]) >= 0) ==> SumOf(s, f) >= 0
  {
    if s != [] && forall i :: 0 <= i < |s| ==> f(s[i]) >= 0 {
      assert forall i :: 0 <= i < |s[1..]| ==> s[1..][i] == s[i + 1];
      SumOfNonNegative(s[1..], f);
    }
  }

  lemma {:induction false} SumOfAppend<T>(a: seq<T>, b: seq<T>, f: T -> int)
    ensures SumOf(a + b, f) == SumOf(a, f) + SumOf(b, f)
  {
    if a == [] {
      assert a + b == b;
    } else {
      assert (a + b)[1..] == a[1..] + b;
      SumOfAppend(a[1..], b, f);
    }
  }

  /** Sum after replacing one row: the old row's measure is swapped for the new one's. */
  lemma {:induction false} SumOfUpdate<T>(s: seq<T>, i: nat, x: T, f: T -> int)
    requires i < |s|
    ensures SumOf(s[i := x], f) == SumOf(s, f) - f(s[i]) + f(x)
  {
    if i == 0 {
      assert s[i := x][1..] == s[1..];
    } else {
      assert s[i := x][1..] == s[1..][i - 1 := x];
      SumOfUpdate(s[1..], i - 1, x, f);
    }
  }

  /** The rows split by `p` carry the whole sum between them. */
  lemma {:induction false} SumOfPartition<T(!new)>(s: seq<T>, p: T -> bool, q: T -> bool, f: T -> int)
    requires forall x :: q(x) == !p(x)
    ensures SumOf(s, f) == SumOf(Filter(s, p), f) + SumOf(Filter(s, q), f)
  {
    if s != [] {
      SumOfPartition(s[1..], p, q, f);
    }
  }

  /** The position of the first row satisfying `p` (JavaScript `findIndex`,
      with `None` for -1). */
  function FindFirst<T>(s: seq<T>, p: T -> bool): (r: Option<nat>)
    ensures r.Some? ==> r.value < |s| && p(s[r.value])
    ensures r.Some? ==> forall j :: 0 <= j < r.value ==> !p(s[j])
    ensures r.None? ==> forall j :: 0 <= j < |s| ==> !p(s[j])
  {
    if s == [] then None
    else if p(s[0]) then Some(0)
    else
      match FindFirst(s[1..], p)
      case None => None
      case Some(k) => Some(k + 1)
  }
}

=== FILE: newsletter.dfy ===
/** lib/db/newsletter.ts: the newsletter's subscriber table as a small
    state machine per email (unknown, subscribed, unsubscribed), behind an
    email-shape check. */
module Newsletter {
  import opened Common
  import opened Text
  import Catalog

  // ---------------------------------------------------------------- email shape

  /** No white space and no '@'. */
  predicate Clean(s: string) {
    forall k :: 0 <= k < |s| ==> !IsSpace(s[k]) && s[k] != '@'
  }

  /** A '.' with at least one character on each side. */
  predicate InnerDot(d: string) {
    exists k :: 1 <= k < |d| - 1 && d[k] == '.'
  }

  /** What `/^[^\s@]+@[^\s@]+\.[^\s@]+$/` accepts: a non-empty clean local
      part, '@', and a clean domain with an inner dot. */
  ghost predicate EmailShape(email: string) {
    exists i :: 0 < i < |email| && email[i] == '@' && Clean(email[..i]) && Clean(email[i + 1..]) && InnerDot(email[i + 1..])
  }

  /** The check as a computation: split at the first '@'. */
  function SplitCheck(email: string): bool {
    '@' in email &&
    var i := IndexOf(email, '@');
    i > 0 && Clean(email[..i]) && Clean(email[i + 1..]) && InnerDot(email[i + 1..])
  }

  /** The computed check accepts exactly the strings the pattern accepts. */
  lemma EmailCheckCorrect(email: string)
    ensures SplitCheck(email) <==> EmailShape(email)
  {
    if SplitCheck(email) {
      var i := IndexOf(email, '@');
      assert 0 < i < |email| && email[i] == '@';
    }
    if EmailShape(email) {
      var i :| 0 < i < |email| && email[i] == '@' && Clean(email[..i]) && Clean(email[i + 1..]) && InnerDot(email[i + 1..]);
      CleanHasNoAt(email[..i]);
      FirstAt(email, i);
    }
  }

  /** `isValidEmail`: the pattern test, computed. */
  function IsValidEmail(email: string): (r: bool)
    ensures r <==> EmailShape(email)
  {
    EmailCheckCorrect(email);
    SplitCheck(email)
  }

  lemma CleanHasNoAt(s: string)
    requires Clean(s)
    ensures '@' !in s
  {
  }

  lemma FirstAt(email: string, i: nat)
    requires i < |email| && email[i] == '@' && '@' !in email[..i]
    ensures IndexOf(email, '@') == i
  {
  }

  /** The shortest kind of address passes the check. */
  lemma AcceptsPlainAddress()
    ensures IsValidEmail("a@b.c")
  {
    var e := "a@b.c";
    FirstAt(e, 1);
    assert e[..1] == "a" && e[2..] == "b.c";
    assert "b.c"[1] == '.';
  }

  /** A domain without a dot fails the check. */
  lemma RejectsDotlessDomain()
    ensures !IsValidEmail("ana@shop")
  {
    assert IndexOf("ana@shop", '@') == 3;
    assert "ana@shop"[4..] == "shop";
  }

  // ---------------------------------------------------------------- the table

  datatype Subscriber = Subscriber(id: Id, email: string, isSubscribed: bool)

  /** The action's answer: success flag, message for the visitor and, on
      failure, the error text. */
  datatype Reply = Reply(success: bool, message: string, error: Option<string>)

  datatype Outcome = Outcome(table: seq<Subscriber>, reply: Reply)

  const EmailRequired := Reply(false, "Email is required", Some("Email is required"))
  const InvalidEmail := Reply(false, "Please enter a valid email address", Some("Invalid email format"))
  const Retry := "An error occurred. Please try again."
  const Resubscribed := "Welcome back! You've been resubscribed to our newsletter."
  const AlreadySubscribed := "You're already subscribed to our newsletter!"
  const Subscribed := "Thank you for subscribing to our newsletter!"
  const NotFound := "Email not found in our subscription list."
  const Unsubscribed := "You have been successfully unsubscribed from our newsletter."

  /** A row's primary key. */
  function SubscriberId(s: Subscriber): Id {
    s.id
  }

  function Rows(table: seq<Subscriber>, email: string): seq<Subscriber> {
    Filter(table, (s: Subscriber) => s.email == email)
  }

  /** At most one row per email, which the actions below preserve. */
  predicate UniqueEmails(table: seq<Subscriber>) {
    forall i, j :: 0 <= i < j < |table| ==> table[i].email != table[j].email
  }

  /** The state of one email: absent, or present with its flag. */
  function StatusOf(table: seq<Subscriber>, email: string): Option<bool> {
    var rows := Rows(table, email);
    if |rows| == 1 then Some(rows[0].isSubscribed) else None
  }

  /** `.update(...).eq("id", id)`: set the flag of the row with that id. */
  function SetFlag(table: seq<Subscriber>, id: Id, flag: bool): (r: seq<Subscriber>)
    ensures |r| == |table|
    ensures forall k :: 0 <= k < |r| ==> r[k] == if table[k].id == id then table[k].(isSubscribed := flag) else table[k]
  {
    if table == [] then []
    else [if table[0].id == id then table[0].(isSubscribed := flag) else table[0]] + SetFlag(table[1..], id, flag)
  }

  /** The greeting of a successful subscription, by the email's state
      before. */
  function SuccessMessage(status: Option<bool>): string {
    match status
    case Some(true) => AlreadySubscribed
    case Some(false) => Resubscribed
    case None => Subscribed
  }

  /** `subscribeToNewsletter`. `.single()` reports both no row and several
      rows as PGRST116, which the lookup treats as "no subscriber yet". */
  function Subscribe(table: seq<Subscriber>, email: Option<string>, newId: Id, lookupOk: bool, writeOk: bool,
                     dbMessage: string): (r: Outcome)
    ensures !Truthy(email) ==> r == Outcome(table, EmailRequired)
    ensures Truthy(email) && !IsValidEmail(email.value) ==> r == Outcome(table, InvalidEmail)
    ensures !r.reply.success ==> r.table == table
    ensures r.reply.success <==> Truthy(email) && IsValidEmail(email.value) && lookupOk
                                 && (StatusOf(table, email.value) == Some(true) || writeOk)
    ensures r.reply.success ==> r.reply.error.None?
    ensures Truthy(email) && IsValidEmail(email.value) && !lookupOk ==> r == Outcome(table, Reply(false, Retry, Some(dbMessage)))
    ensures r.reply.success && |Rows(table, email.value)| <= 1 ==> StatusOf(r.table, email.value) == Some(true)
    ensures r.reply.success ==> r.reply.message == SuccessMessage(StatusOf(table, email.value))
    ensures r.reply.success && StatusOf(table, email.value).None? ==> r.table == table + [Subscriber(newId, email.value, true)]
    ensures r.reply.success && StatusOf(table, email.value).Some? ==>
      |r.table| == |table| && forall k :: 0 <= k < |table| ==> r.table[k].(isSubscribed := table[k].isSubscribed) == table[k]
    ensures r.reply.success && Catalog.DistinctIds(table, SubscriberId) ==>
      forall e :: e != email.value ==> Rows(r.table, e) == Rows(table, e)
  {
    if !Truthy(email) then Outcome(table, EmailRequired)
    else if !IsValidEmail(email.value) then Outcome(table, InvalidEmail)
    else if !lookupOk then Outcome(table, Reply(false, Retry, Some(dbMessage)))
    else
      var e := email.value;
      match StatusOf(table, e)
      case Some(true) =>
        assert Rows(table, e)[0] in Rows(table, e);
        Outcome(table, Reply(true, AlreadySubscribed, None))
      case Some(false) =>
        if !writeOk then Outcome(table, Reply(false, Retry, Some(dbMessage)))
        else
          Outcome(FlagOwnRow(table, e, true), Reply(true, Resubscribed, None))
      case None =>
        if !writeOk then Outcome(table, Reply(false, Retry, Some(dbMessage)))
        else
          Outcome(Insert(table, Subscriber(newId, e, true)), Reply(true, Subscribed, None))
  }

  /** `unsubscribeFromNewsletter`. The email's shape is not checked here;
      an unknown email is reported as not found. */
  function Unsubscribe(table: seq<Subscriber>, email: string, lookupOk: bool, writeOk: bool, dbMessage: string): (r: Outcome)
    ensures email == "" ==> r == Outcome(table, EmailRequired)
    ensures !r.reply.success ==> r.table == table
    ensures r.reply.success <==> email != "" && lookupOk && StatusOf(table, email).Some? && writeOk
    ensures email != "" && (!lookupOk || StatusOf(table, email).None?) ==> r.reply == Reply(false, NotFound, Some(dbMessage))
    ensures r.reply.success ==> r.reply == Reply(true, Unsubscribed, None) && StatusOf(r.table, email) == Some(false)
    ensures r.reply.success ==>
      |r.table| == |table| && forall k :: 0 <= k < |table| ==> r.table[k].(isSubscribed := table[k].isSubscribed) == table[k]
    ensures r.reply.success && Catalog.DistinctIds(table, SubscriberId) ==>
      forall e :: e != email ==> Rows(r.table, e) == Rows(table, e)
  {
    if email == "" then Outcome(table, EmailRequired)
    else if !lookupOk || StatusOf(table, email).None? then Outcome(table, Reply(false, NotFound, Some(dbMessage)))
    else if !writeOk then Outcome(table, Reply(false, Retry, Some(dbMessage)))
    else
      Outcome(FlagOwnRow(table, email, false), Reply(true, Unsubscribed, None))
  }

  /** The update both actions issue for a known email: the flag of its
      only row, found by id, is set. */
  function FlagOwnRow(table: seq<Subscriber>, email: string, flag: bool): (r: seq<Subscriber>)
    requires |Rows(table, email)| == 1
    ensures StatusOf(r, email) == Some(flag)
    ensures |r| == |table| && forall k :: 0 <= k < |table| ==> r[k].(isSubscribed := table[k].isSubscribed) == table[k]
    ensures Catalog.DistinctIds(table, SubscriberId) ==> forall e :: e != email ==> Rows(r, e) == Rows(table, e)
  {
    var id := Rows(table, email)[0].id;
    UniqueRowFlag(table, id, flag, email);
    SetFlagKeepsOthers(table, id, flag, email);
    SetFlag(table, id, flag)
  }

  /** `.insert(...)`: the row is added after the others. */
  function Insert(table: seq<Subscriber>, row: Subscriber): (r: seq<Subscriber>)
    ensures |r| == |table| + 1 && r[..|table|] == table && r[|table|] == row
    ensures Rows(r, row.email) == Rows(table, row.email) + [row]
    ensures forall e :: e != row.email ==> Rows(r, e) == Rows(table, e)
  {
    FilterAppend(table, [row], (s: Subscriber) => s.email == row.email);
    AppendKeepsOthers(table, row);
    table + [row]
  }

  /** Appending a row of `row.email` leaves every other email's rows as
      they were. */
  lemma AppendKeepsOthers(table: seq<Subscriber>, row: Subscriber)
    ensures forall e :: e != row.email ==> Rows(table + [row], e) == Rows(table, e)
  {
    forall e | e != row.email ensures Rows(table + [row], e) == Rows(table, e) {
      FilterAppend(table, [row], (s: Subscriber) => s.email == e);
      assert Rows([row], e) == [];
    }
  }

  /** With ids as the primary key, setting the flag of an email's only row
      leaves every other email's rows as they were. */
  lemma SetFlagKeepsOthers(table: seq<Subscriber>, id: Id, flag: bool, email: string)
    requires |Rows(table, email)| == 1 && Rows(table, email)[0].id == id
    ensures Catalog.DistinctIds(table, SubscriberId) ==>
      forall e :: e != email ==> Rows(SetFlag(table, id, flag), e) == Rows(table, e)
  {
    if Catalog.DistinctIds(table, SubscriberId) {
      var own := Rows(table, email)[0];
      assert own in Rows(table, email);
      var j :| 0 <= j < |table| && table[j] == own;
      forall e | e != email ensures Rows(SetFlag(table, id, flag), e) == Rows(table, e) {
        RowsOfSetFlag(table, id, flag, e);
        var rs := Rows(table, e);
        forall x | x in rs ensures x.id != id {
          var i :| 0 <= i < |table| && table[i] == x;
          if i < j {
            assert SubscriberId(table[i]) != SubscriberId(table[j]);
          } else if j < i {
            assert SubscriberId(table[j]) != SubscriberId(table[i]);
          }
        }
        SetFlagNoId(rs, id, flag);
      }
    }
  }

  /** Setting the flag of an id no row carries changes nothing. */
  lemma SetFlagNoId(table: seq<Subscriber>, id: Id, flag: bool)
    requires forall x :: x in table ==> x.id != id
    ensures SetFlag(table, id, flag) == table
  {
    assert forall k :: 0 <= k < |table| ==> table[k] in table;
  }

  /** Setting the flag of the only row of an email leaves it the only row,
      now with the flag. */
  lemma UniqueRowFlag(table: seq<Subscriber>, id: Id, flag: bool, email: string)
    requires |Rows(table, email)| == 1 && Rows(table, email)[0].id == id
    ensures StatusOf(SetFlag(table, id, flag), email) == Some(flag)
  {
    RowsOfSetFlag(table, id, flag, email);
  }

  /** Setting a flag does not move rows between emails. */
  lemma {:induction false} RowsOfSetFlag(table: seq<Subscriber>, id: Id, flag: bool, email: string)
    ensures Rows(SetFlag(table, id, flag), email) == SetFlag(Rows(table, email), id, flag)
  {
    if table != [] {
      RowsOfSetFlag(table[1..], id, flag, email);
      var after := SetFlag(table, id, flag);
      assert after == [after[0]] + SetFlag(table[1..], id, flag);
      if table[0].email == email {
        assert Rows(table, email) == [table[0]] + Rows(table[1..], email);
      }
    }
  }

  /** Subscribing is idempotent: a second subscription of the same email
      changes nothing and says so. */
  lemma SubscribeTwice(table: seq<Subscriber>, email: string, id1: Id, id2: Id, dbMessage: string)
    requires email != "" && IsValidEmail(email) && |Rows(table, email)| <= 1
    ensures var first := Subscribe(table, Some(email), id1, true, true, dbMessage);
      && first.reply.success
      && Subscribe(first.table, Some(email), id2, true, true, dbMessage) == Outcome(first.table, Reply(true, AlreadySubscribed, None))
  {
  }

  /** An unsubscribed email that subscribes again is welcomed back and is
      subscribed once more. */
  lemma UnsubscribeThenSubscribe(table: seq<Subscriber>, email: string, newId: Id, dbMessage: string)
    requires IsValidEmail(email) && StatusOf(table, email).Some?
    ensures var off := Unsubscribe(table, email, true, true, dbMessage);
      var on := Subscribe(off.table, Some(email), newId, true, true, dbMessage);
      && off.reply.success
      && on.reply == Reply(true, Resubscribed, None)
      && StatusOf(on.table, email) == Some(true)
  {
    assert email != "";
  }

  /** Under unique emails an email has at most one row. */
  lemma {:induction false} UniqueAtMostOne(table: seq<Subscriber>, email: string)
    requires UniqueEmails(table)
    ensures |Rows(table, email)| <= 1
  {
    if table != [] {
      UniqueAtMostOne(table[1..], email);
      if table[0].email == email {
        forall s | s in table[1..] ensures s.email != email {
          var j :| 0 <= j < |table[1..]| && table[1..][j] == s;
          assert table[j + 1] == s;
        }
        FilterNone(table[1..], (s: Subscriber) => s.email == email);
      }
    }
  }

  lemma AppendNewKeepsUnique(table: seq<Subscriber>, row: Subscriber)
    requires UniqueEmails(table) && Rows(table, row.email) == []
    ensures UniqueEmails(table + [row])
  {
    forall k | 0 <= k < |table| ensures table[k].email != row.email {
      assert table[k] in table;
    }
  }

  /** Subscribing keeps at most one row per email. */
  lemma SubscribeKeepsUnique(table: seq<Subscriber>, email: Option<string>, newId: Id, lookupOk: bool, writeOk: bool,
                             dbMessage: string)
    requires UniqueEmails(table)
    ensures UniqueEmails(Subscribe(table, email, newId, lookupOk, writeOk, dbMessage).table)
  {
    if Truthy(email) && IsValidEmail(email.value) && lookupOk && writeOk {
      var e := email.value;
      match StatusOf(table, e)
      case Some(true) =>
      case Some(false) =>
        SetFlagKeepsUnique(table, Rows(table, e)[0].id, true);
      case None =>
        UniqueAtMostOne(table, e);
        AppendNewKeepsUnique(table, Subscriber(newId, e, true));
    }
  }

  lemma SetFlagKeepsUnique(table: seq<Subscriber>, id: Id, flag: bool)
    requires UniqueEmails(table)
    ensures UniqueEmails(SetFlag(table, id, flag))
  {
    var after := SetFlag(table, id, flag);
    forall i, j | 0 <= i < j < |after| ensures after[i].email != after[j].email {
      assert after[i].email == table[i].email && after[j].email == table[j].email;
    }
  }
}

=== FILE: product_grid.dfy ===
/** components/products/product-grid.tsx: the grid's local wishlist, a list
    of product ids that the heart button toggles. */
module ProductGrid {
  import opened Common

  /** The ids of a list, each at most once. */
  predicate NoDuplicates(ids: seq<string>) {
    forall i, j :: 0 <= i < j < |ids| ==> ids[i] != ids[j]
  }

  /** `toggleWishlist`: drop every occurrence of a present id, append an
      absent one at the end. */
  function Toggle(ids: seq<string>, id: string): (r: seq<string>)
    ensures id in ids ==> id !in r && IsSubsequence(r, ids)
    ensures id !in ids ==> r == ids + [id]
    ensures forall x :: x != id ==> (x in r <==> x in ids)
    ensures NoDuplicates(ids) ==> NoDuplicates(r)
  {
    if id in ids then
      FilterIsSubsequence(ids, (x: string) => x != id);
      var r := Filter(ids, (x: string) => x != id);
      if NoDuplicates(ids) then
        FilterNoDuplicates(ids, id);
        r
      else r
    else ids + [id]
  }

  lemma {:induction false} FilterNoDuplicates(ids: seq<string>, id: string)
    requires NoDuplicates(ids)
    ensures NoDuplicates(Filter(ids, (x: string) => x != id))
  {
    if ids != [] {
      assert NoDuplicates(ids[1..]) by {
        forall i, j | 0 <= i < j < |ids[1..]| ensures ids[1..][i] != ids[1..][j] {
          assert ids[1..][i] == ids[i + 1] && ids[1..][j] == ids[j + 1];
        }
      }
      FilterNoDuplicates(ids[1..], id);
      assert ids[0] !in ids[1..] by {
        forall k | 0 <= k < |ids[1..]| ensures ids[1..][k] != ids[0] {
          assert ids[1..][k] == ids[k + 1];
        }
      }
    }
  }

  /** Toggling twice restores the id's membership; for an absent id it
      restores the list itself. */
  lemma ToggleTwice(ids: seq<string>, id: string)
    ensures id in Toggle(Toggle(ids, id), id) <==> id in ids
    ensures id !in ids ==> Toggle(Toggle(ids, id), id) == ids
  {
    if id !in ids {
      FilterAppend(ids, [id], (x: string) => x != id);
      FilterAll(ids, (x: string) => x != id);
    }
  }
}

=== FILE: products.dfy ===
/** lib/db/products.ts: the product catalogue queries with their filters,
    sort orders and pages, the degraded paths taken when queries fail, the
    four built-in fallback products, and the product pages' rating
    summary. */
module Products {
  import opened Common
  import opened Text
  import opened Catalog
  import Reviews

  // ---------------------------------------------------------------- fallback data

  /** The built-in products served when the database cannot be reached.
      They are all created at the same moment, here time 0. */
  const Fallback: seq<Product> := [
    Product("1", "Elegant Stiletto Heels", "elegant-stiletto-heels", 12999, None, "1", true, true, true, 0),
    Product("2", "Comfortable Ballet Flats", "comfortable-ballet-flats", 7999, None, "2", true, false, true, 0),
    Product("3", "Summer Strappy Sandals", "summer-strappy-sandals", 8999, Some(6999), "3", false, true, true, 0),
    Product("4", "Ankle Leather Boots", "ankle-leather-boots", 14999, None, "4", true, false, true, 0)
  ]

  /** The fixed review summary of a fallback product page: average 4.5 over
      12 reviews, eight 5s, three 4s and one 3. */
  const FallbackSummary := Reviews.Summary(Reviews.Ratio(9, 2), 12, map[5 := 8, 4 := 3, 3 := 1, 2 := 0, 1 := 0])

  // ---------------------------------------------------------------- getProducts

  /** The options of `getProducts`; `None` is an omitted option. */
  datatype ProductQuery = ProductQuery(
    limit: Option<nat>,
    offset: Option<nat>,
    categoryId: Option<string>,
    featured: Option<bool>,
    isNew: Option<bool>,
    search: Option<string>,
    minPrice: Option<int>,
    maxPrice: Option<int>,
    sortBy: Option<string>)

  const NoOptions := ProductQuery(None, None, None, None, None, None, None, None, None)

  /** What happened to the three attempts: the join query, then the plain
      query, then the built-in list. */
  datatype Outcome = JoinOk | PlainOk | BothFailed

  datatype ProductSort = PriceAsc | PriceDesc | Popular | Newest

  /** The `sortBy` switch: an omitted or unknown value sorts newest first. */
  function ParseProductSort(sortBy: Option<string>): (s: ProductSort)
    ensures sortBy == Some("price_asc") <==> s == PriceAsc
    ensures sortBy == Some("price_desc") <==> s == PriceDesc
    ensures sortBy == Some("popular") <==> s == Popular
  {
    if sortBy == Some("price_asc") then PriceAsc
    else if sortBy == Some("price_desc") then PriceDesc
    else if sortBy == Some("popular") then Popular
    else Newest
  }

  function Rank(b: bool): int {
    if b then 1 else 0
  }

  /** `a` may come before `b` in a listing sorted by `sort`; "popular" puts
      featured products first. */
  predicate Precedes(sort: ProductSort, a: Product, b: Product) {
    match sort
    case PriceAsc => a.price <= b.price
    case PriceDesc => a.price >= b.price
    case Popular => Rank(a.isFeatured) >= Rank(b.isFeatured)
    case Newest => a.createdAt >= b.createdAt
  }

  function ProductLe(sort: ProductSort): (le: (Product, Product) -> bool)
    ensures forall a, b :: le(a, b) <==> Precedes(sort, a, b)
    ensures Total(le)
  {
    (a, b) => Precedes(sort, a, b)
  }

  /** The filters of the join query: published, and each given option;
      the price bounds are inclusive and apply to the list price. */
  predicate Selected(q: ProductQuery, p: Product) {
    && p.isPublished
    && (Truthy(q.categoryId) ==> p.categoryId == q.categoryId.value)
    && (q.featured.Some? ==> p.isFeatured == q.featured.value)
    && (q.isNew.Some? ==> p.isNew == q.isNew.value)
    && (Truthy(q.search) ==> ILikeContains(p.name, q.search.value))
    && (q.minPrice.Some? ==> p.price >= q.minPrice.value)
    && (q.maxPrice.Some? ==> p.price <= q.maxPrice.value)
  }

  function Published(products: seq<Product>): seq<Product> {
    Filter(products, (p: Product) => p.isPublished)
  }

  /** The join query: filter, sort, then one page. */
  function JoinQuery(products: seq<Product>, q: ProductQuery): (r: seq<Product>)
    ensures |r| <= q.limit.GetOr(10)
    ensures |r| == PageSize(|Selection(products, q)|, q.offset.GetOr(0), q.limit.GetOr(10))
    ensures forall p :: p in r ==> p in products && Selected(q, p)
    ensures forall i, j :: 0 <= i < j < |r| ==> Precedes(ParseProductSort(q.sortBy), r[i], r[j])
  {
    SortedWindow(Selection(products, q), ProductLe(ParseProductSort(q.sortBy)), q.offset.GetOr(0), q.limit.GetOr(10));
    ListingSize(products, q);
    Window(Listing(products, q), q.offset.GetOr(0), q.limit.GetOr(10))
  }

  /** The number of rows `.range(offset, offset + limit - 1)` returns from
      `n` rows. */
  function PageSize(n: nat, offset: nat, limit: nat): nat {
    if offset >= n then 0 else Min(limit, n - offset)
  }

  lemma ListingSize(products: seq<Product>, q: ProductQuery)
    ensures |Listing(products, q)| == |Selection(products, q)|
  {
    assert |multiset(Listing(products, q))| == |multiset(Selection(products, q))|;
  }

  /** Every page of the join query is a window onto the listing, whatever
      the ties: row `i` of the page is row `offset + i` of the listing. */
  lemma ProductsPageIsWindow(products: seq<Product>, q: ProductQuery)
    ensures var r := JoinQuery(products, q);
            var l := Listing(products, q);
      && |r| == PageSize(|l|, q.offset.GetOr(0), q.limit.GetOr(10))
      && forall i :: 0 <= i < |r| ==> q.offset.GetOr(0) + i < |l| && r[i] == l[q.offset.GetOr(0) + i]
  {
  }

  /** A first page at least as large as the table holds each selected
      product exactly as often as the table does, and nothing else: this
      holds whatever order the database gives to ties. */
  lemma AllProductsListed(products: seq<Product>, q: ProductQuery)
    requires q.offset.GetOr(0) == 0 && q.limit.GetOr(10) >= |products|
    ensures var r := JoinQuery(products, q);
      forall x :: multiset(r)[x] == if Selected(q, x) then multiset(products)[x] else 0
  {
    var sorted := Listing(products, q);
    ListingSize(products, q);
    assert Window(sorted, 0, q.limit.GetOr(10)) == sorted;
    FilterMultiset(products, (p: Product) => Selected(q, p));
  }

  /** On the first page, each shown product may precede every selected
      product that is not shown: the page holds the top of the listing. */
  lemma FirstPageIsTop(products: seq<Product>, q: ProductQuery)
    requires q.offset.GetOr(0) == 0
    ensures var r := JoinQuery(products, q);
      forall x, i :: x in products && Selected(q, x) && x !in r && 0 <= i < |r| ==>
        Precedes(ParseProductSort(q.sortBy), r[i], x)
  {
    var r := JoinQuery(products, q);
    var l := Listing(products, q);
    var le := ProductLe(ParseProductSort(q.sortBy));
    SortByMembers(Selection(products, q), le);
    assert r == l[..Min(q.limit.GetOr(10), |l|)];
    forall x | x in products && Selected(q, x) && x !in r
      ensures forall i :: 0 <= i < |r| ==> Precedes(ParseProductSort(q.sortBy), r[i], x)
    {
      SortedPrefixIsTop(l, le, q.limit.GetOr(10), x);
    }
  }

  /** `getProducts`. When the join fails, the plain query pages through
      the published products in table order with no other filter and no
      sort; when that fails too, the first `limit` built-in products are
      returned, whatever the filters. */
  function GetProducts(products: seq<Product>, q: ProductQuery, outcome: Outcome): (r: seq<Product>)
    ensures |r| <= q.limit.GetOr(10)
    ensures outcome == JoinOk ==> r == JoinQuery(products, q)
    ensures outcome == PlainOk ==> |r| == PageSize(|Published(products)|, q.offset.GetOr(0), q.limit.GetOr(10))
    ensures outcome == PlainOk ==> forall i :: 0 <= i < |r| ==>
      q.offset.GetOr(0) + i < |Published(products)| && r[i] == Published(products)[q.offset.GetOr(0) + i]
    ensures outcome == BothFailed ==> |r| == Min(q.limit.GetOr(10), 4) && forall i :: 0 <= i < |r| ==> r[i] == Fallback[i]
  {
    match outcome
    case JoinOk => JoinQuery(products, q)
    case PlainOk => Window(Published(products), q.offset.GetOr(0), q.limit.GetOr(10))
    case BothFailed => Fallback[..Min(q.limit.GetOr(10), 4)]
  }

  /** Default options: ten products from the start, newest first. */
  lemma DefaultOptions(products: seq<Product>, outcome: Outcome)
    ensures GetProducts(products, NoOptions, outcome) ==
      GetProducts(products, NoOptions.(limit := Some(10), offset := Some(0), sortBy := Some("newest")), outcome)
  {
    var q := NoOptions.(limit := Some(10), offset := Some(0), sortBy := Some("newest"));
    SameFilter(products, (p: Product) => Selected(q, p), (p: Product) => Selected(NoOptions, p));
    assert Listing(products, q) == Listing(products, NoOptions);
  }

  predicate FeaturedRow(p: Product) {
    p.isPublished && p.isFeatured
  }

  predicate NewRow(p: Product) {
    p.isPublished && p.isNew
  }

  /** The search filter: published, and the name contains a non-empty
      query, ignoring ASCII case. */
  function SearchHit(query: string): Product -> bool {
    (p: Product) => p.isPublished && (query != "" ==> ILikeContains(p.name, query))
  }

  /** `getFeaturedProducts`: featured products, four by default. The page
      holds as many featured products as there are, up to `limit`, and
      none left out is newer than one shown. */
  function GetFeaturedProducts(products: seq<Product>, limit: nat, outcome: Outcome): (r: seq<Product>)
    ensures |r| <= limit
    ensures outcome == JoinOk ==> forall p :: p in r ==> p in products && p.isPublished && p.isFeatured
    ensures outcome == JoinOk ==> forall i, j :: 0 <= i < j < |r| ==> r[i].createdAt >= r[j].createdAt
    ensures outcome == JoinOk ==> |r| == Min(limit, Count(products, FeaturedRow))
    ensures outcome == JoinOk ==> forall x, i :: x in products && FeaturedRow(x) && x !in r && 0 <= i < |r| ==>
      r[i].createdAt >= x.createdAt
  {
    var q := NoOptions.(featured := Some(true), limit := Some(limit));
    SameFilter(products, (p: Product) => Selected(q, p), FeaturedRow);
    FirstPageIsTop(products, q);
    GetProducts(products, q, outcome)
  }

  /** `getNewArrivals`: new products, newest first, eight by default. */
  function GetNewArrivals(products: seq<Product>, limit: nat, outcome: Outcome): (r: seq<Product>)
    ensures |r| <= limit
    ensures outcome == JoinOk ==> forall p :: p in r ==> p in products && p.isPublished && p.isNew
    ensures outcome == JoinOk ==> forall i, j :: 0 <= i < j < |r| ==> r[i].createdAt >= r[j].createdAt
    ensures outcome == JoinOk ==> |r| == Min(limit, Count(products, NewRow))
    ensures outcome == JoinOk ==> forall x, i :: x in products && NewRow(x) && x !in r && 0 <= i < |r| ==>
      r[i].createdAt >= x.createdAt
  {
    var q := NoOptions.(isNew := Some(true), limit := Some(limit), sortBy := Some("newest"));
    SameFilter(products, (p: Product) => Selected(q, p), NewRow);
    FirstPageIsTop(products, q);
    GetProducts(products, q, outcome)
  }

  /** `searchProducts`: products whose name contains the query, ignoring
      ASCII case; ten by default. */
  function SearchProducts(products: seq<Product>, query: string, limit: nat, outcome: Outcome): (r: seq<Product>)
    ensures |r| <= limit
    ensures outcome == JoinOk && query != "" ==> forall p :: p in r ==> p in products && ILikeContains(p.name, query)
    ensures outcome == JoinOk ==> |r| == Min(limit, Count(products, SearchHit(query)))
    ensures outcome == JoinOk ==> forall x, i :: x in products && SearchHit(query)(x) && x !in r && 0 <= i < |r| ==>
      r[i].createdAt >= x.createdAt
  {
    var q := NoOptions.(search := Some(query), limit := Some(limit));
    SameFilter(products, (p: Product) => Selected(q, p), SearchHit(query));
    FirstPageIsTop(products, q);
    GetProducts(products, q, outcome)
  }

  /** The fallback ignores the filters: asking for featured products can
      return the built-in sandals, which are not featured. */
  lemma FallbackIgnoresFilters(products: seq<Product>)
    ensures var r := GetFeaturedProducts(products, 4, BothFailed);
      |r| == 4 && !r[2].isFeatured
  {
  }

  /** The products the join query's filters keep, in table order. */
  function Selection(products: seq<Product>, q: ProductQuery): (r: seq<Product>)
    ensures forall p :: p in r <==> p in products && Selected(q, p)
  {
    Filter(products, (p: Product) => Selected(q, p))
  }

  /** The filtered, sorted listing `getProducts` pages through. */
  function Listing(products: seq<Product>, q: ProductQuery): seq<Product> {
    SortBy(Selection(products, q), ProductLe(ParseProductSort(q.sortBy)))
  }

  /** When the sort column is unique on the selected products, every
      ordering the database may return is the model's listing. */
  lemma ListingIsTheOrder(products: seq<Product>, q: ProductQuery, db: seq<Product>)
    requires NoTies(Selection(products, q), ProductLe(ParseProductSort(q.sortBy)))
    requires multiset(db) == multiset(Selection(products, q))
    requires forall i, j :: 0 <= i < j < |db| ==> Precedes(ParseProductSort(q.sortBy), db[i], db[j])
    ensures db == Listing(products, q)
  {
    OnlyOrder(Selection(products, q), ProductLe(ParseProductSort(q.sortBy)), db);
  }

  /** The listing does not depend on the page asked for. */
  lemma ListingIgnoresPage(products: seq<Product>, q: ProductQuery, offset: Option<nat>, limit: Option<nat>)
    ensures Listing(products, q.(offset := offset, limit := limit)) == Listing(products, q)
  {
    var q1 := q.(offset := offset, limit := limit);
    SameFilter(products, (p: Product) => Selected(q1, p), (p: Product) => Selected(q, p));
  }

  /** Every page of the join query is a window onto one listing, whatever
      page is asked for, so consecutive pages tile the listing. Separate
      queries agree on the order only when the sort column has no ties
      among the selected products (`ListingIsTheOrder`). */
  lemma JoinQueryIsPage(products: seq<Product>, q: ProductQuery, offset: Option<nat>, limit: Option<nat>)
    requires NoTies(Selection(products, q), ProductLe(ParseProductSort(q.sortBy)))
    ensures JoinQuery(products, q.(offset := offset, limit := limit)) == Window(Listing(products, q), offset.GetOr(0), limit.GetOr(10))
  {
    ListingIgnoresPage(products, q, offset, limit);
  }

  // ---------------------------------------------------------------- related products

  /** The related-product filter: same category, another product. */
  predicate Related(p: Product, productId: Id, categoryId: string) {
    p.categoryId == categoryId && p.id != productId
  }

  /** The first `limit` rows of `source` related to the product, and
      published when `publishedOnly`; `.limit` without an order keeps table
      order. */
  function FirstRelated(source: seq<Product>, productId: Id, categoryId: string, limit: nat,
                        publishedOnly: bool): (r: seq<Product>)
    ensures |r| == Min(limit, Count(source, (p: Product) => Related(p, productId, categoryId) && (publishedOnly ==> p.isPublished)))
    ensures forall p :: p in r ==> p in source && Related(p, productId, categoryId) && (publishedOnly ==> p.isPublished)
  {
    var matching := Filter(source, (p: Product) => Related(p, productId, categoryId) && (publishedOnly ==> p.isPublished));
    var rows := matching[..Min(limit, |matching|)];
    assert forall x :: x in rows ==> x in matching;
    rows
  }

  /** `getRelatedProducts`: up to `limit` published products of the
      category other than the product itself; on failure the same rule
      over the built-in products. */
  function GetRelatedProducts(products: seq<Product>, productId: Id, categoryId: string, limit: nat,
                              queryOk: bool): (r: seq<Product>)
    ensures |r| <= limit
    ensures forall p :: p in r ==> Related(p, productId, categoryId)
    ensures queryOk ==> forall p :: p in r ==> p in products && p.isPublished
    ensures !queryOk ==> forall p :: p in r ==> p in Fallback
  {
    if queryOk then FirstRelated(products, productId, categoryId, limit, true)
    else FirstRelated(Fallback, productId, categoryId, limit, false)
  }

  /** With the database unreachable, each built-in product has no related
      products: the four are in four different categories. */
  lemma NoFallbackRelated(products: seq<Product>, i: nat, limit: nat)
    requires i < |Fallback|
    ensures GetRelatedProducts(products, Fallback[i].id, Fallback[i].categoryId, limit, false) == []
  {
    var key := Fallback[i];
    assert forall p :: p in Fallback ==> p == Fallback[0] || p == Fallback[1] || p == Fallback[2] || p == Fallback[3];
    FilterNone(Fallback, (p: Product) => Related(p, key.id, key.categoryId) && (false ==> p.isPublished));
  }

  // ---------------------------------------------------------------- product pages

  datatype ProductWithDetails = ProductWithDetails(product: Product, reviews: Reviews.Summary)

  /** A fallback product page: the first built-in product with the key,
      with the fixed summary. */
  function FallbackPage(key: Product -> bool): (r: Option<ProductWithDetails>)
    ensures r.Some? ==> r.value.product in Fallback && key(r.value.product) && r.value.reviews == FallbackSummary
    ensures r.None? <==> forall p :: p in Fallback ==> !key(p)
  {
    match FindFirst(Fallback, key)
    case Some(i) => Some(ProductWithDetails(Fallback[i], FallbackSummary))
    case None => None
  }

  /** A product page from the database: the one published row with the key
      (`.single()`), with the summary of its published reviews. A failed
      review query is reported as no reviews. */
  function ProductPage(products: seq<Product>, reviews: seq<Review>, key: Product -> bool,
                       queryOk: bool, reviewsOk: bool): (r: Option<ProductWithDetails>)
    ensures var rows := Filter(products, (p: Product) => key(p) && p.isPublished);
      queryOk && |rows| == 1 ==> r == Some(ProductWithDetails(rows[0], Reviews.GetProductRating(reviews, rows[0].id, reviewsOk)))
    ensures var rows := Filter(products, (p: Product) => key(p) && p.isPublished);
      !(queryOk && |rows| == 1) ==> r == FallbackPage(key)
  {
    var rows := Filter(products, (p: Product) => key(p) && p.isPublished);
    if queryOk && |rows| == 1 then Some(ProductWithDetails(rows[0], Reviews.GetProductRating(reviews, rows[0].id, reviewsOk)))
    else FallbackPage(key)
  }

  /** `getProductById`. */
  function GetProductById(products: seq<Product>, reviews: seq<Review>, id: Id, queryOk: bool, reviewsOk: bool): (r: Option<ProductWithDetails>)
    ensures r.Some? ==> r.value.product.id == id
    ensures r.Some? ==> r.value.product in products || r.value.product in Fallback
    ensures r.Some? && r.value.product !in Fallback ==> r.value.product.isPublished
  {
    ProductPage(products, reviews, (p: Product) => p.id == id, queryOk, reviewsOk)
  }

  /** `getProductBySlug`. */
  function GetProductBySlug(products: seq<Product>, reviews: seq<Review>, slug: string, queryOk: bool, reviewsOk: bool): (r: Option<ProductWithDetails>)
    ensures r.Some? ==> r.value.product.slug == slug
    ensures r.Some? ==> r.value.product in products || r.value.product in Fallback
    ensures r.Some? && r.value.product !in Fallback ==> r.value.product.isPublished
  {
    ProductPage(products, reviews, (p: Product) => p.slug == slug, queryOk, reviewsOk)
  }

  /** With the database unreachable, exactly the four built-in ids have a
      page, and it shows the fixed summary. */
  lemma ByIdFallback(products: seq<Product>, reviews: seq<Review>, id: Id)
    ensures var r := GetProductById(products, reviews, id, false, false);
      && (r.Some? <==> id == "1" || id == "2" || id == "3" || id == "4")
      && (r.Some? ==> r.value.reviews == FallbackSummary)
  {
    FallbackIds(id);
  }

  lemma FallbackIds(id: Id)
    ensures FallbackPage((p: Product) => p.id == id).Some? <==> id == "1" || id == "2" || id == "3" || id == "4"
  {
    if id == "1" || id == "2" || id == "3" || id == "4" {
      var i := if id == "1" then 0 else if id == "2" then 1 else if id == "3" then 2 else 3;
      assert Fallback[i].id == id;
    }
  }

  /** The fixed summary is self-consistent in its counts: its distribution
      adds up to its review count. */
  lemma FallbackDistributionAddsUp()
    ensures var d := FallbackSummary.distribution;
      d[1] + d[2] + d[3] + d[4] + d[5] == FallbackSummary.count
  {
  }

  /** But not in its average: twelve reviews with that distribution sum to
      55, so no list of ratings summarises to the fixed summary, whose
      average 9/2 is not 55/12. */
  lemma FallbackSummaryUnreachable(ratings: seq<int>)
    ensures Reviews.Summarize(ratings) != FallbackSummary
  {
    if Reviews.Summarize(ratings).distribution == FallbackSummary.distribution {
      FallbackAverage(ratings);
    }
  }

  /** Ratings with the fixed distribution number twelve and average 55/12. */
  lemma FallbackAverage(ratings: seq<int>)
    requires Reviews.Tally(ratings) == FallbackSummary.distribution
    ensures Reviews.Summarize(ratings).count == 12
    ensures Reviews.Summarize(ratings).average == Reviews.Ratio(55, 12)
  {
    var d := Reviews.Tally(ratings);
    assert Reviews.InRange(ratings) by {
      forall i | 0 <= i < |ratings| ensures 1 <= ratings[i] <= 5 {
        assert ratings[i] in d;
      }
    }
    Reviews.DistributionSumsToCount(ratings);
    WeightedSum(ratings);
  }

  /** The sum of in-range ratings, read off their counts. */
  lemma {:induction false} WeightedSum(ratings: seq<int>)
    requires Reviews.InRange(ratings)
    ensures Reviews.SumOfRatings(ratings) ==
      Reviews.Occurrences(ratings, 1) + 2 * Reviews.Occurrences(ratings, 2) + 3 * Reviews.Occurrences(ratings, 3)
      + 4 * Reviews.Occurrences(ratings, 4) + 5 * Reviews.Occurrences(ratings, 5)
  {
    if ratings != [] {
      WeightedSum(ratings[1..]);
    }
  }
}

=== FILE: reviews.dfy ===
/** lib/db/reviews.ts: the published reviews of a product, page by page,
    the rating summary (count, average, distribution over ratings), and
    review creation. The database's check constraint keeps every rating in
    1..5. */
module Reviews {
  import opened Common
  import opened Catalog

  // ---------------------------------------------------------------- summary

  /** How many times `k` occurs among the ratings. */
  function Occurrences(ratings: seq<int>, k: int): nat {
    if ratings == [] then 0 else (if ratings[0] == k then 1 else 0) + Occurrences(ratings[1..], k)
  }

  lemma {:induction false} OccurrencesAppend(a: seq<int>, b: seq<int>, k: int)
    ensures Occurrences(a + b, k) == Occurrences(a, k) + Occurrences(b, k)
  {
    if a == [] {
      assert a + b == b;
    } else {
      assert (a + b)[1..] == a[1..] + b;
      OccurrencesAppend(a[1..], b, k);
    }
  }

  lemma {:induction false} OccurrencesAbsent(ratings: seq<int>, k: int)
    requires k !in ratings
    ensures Occurrences(ratings, k) == 0
  {
    if ratings != [] {
      assert k !in ratings[1..];
      OccurrencesAbsent(ratings[1..], k);
    }
  }

  /** The keys of a distribution: "1" to "5", and every rating seen.
      `toString` is injective on integers, so keys are kept as integers. */
  function Keys(ratings: seq<int>): set<int> {
    set k | k in [1, 2, 3, 4, 5] + ratings
  }

  /** The distribution as a table of counts. */
  function Tally(ratings: seq<int>): (d: map<int, nat>)
    ensures forall k :: k in d <==> 1 <= k <= 5 || k in ratings
    ensures forall k :: k in d ==> d[k] == Occurrences(ratings, k)
  {
    map k | k in Keys(ratings) :: Occurrences(ratings, k)
  }

  /** The starting distribution: the keys "1" to "5" at zero. */
  const Zeroes: map<int, nat> := map[1 := 0, 2 := 0, 3 := 0, 4 := 0, 5 := 0]

  /** One more review increments its own rating's entry, adding the key if
      it is new, and no other entry. */
  lemma {:induction false} TallyStep(ratings: seq<int>, k: int)
    ensures Tally(ratings + [k]) == Tally(ratings)[k := (if k in Tally(ratings) then Tally(ratings)[k] else 0) + 1]
  {
    var before, after := Tally(ratings), Tally(ratings + [k]);
    var expected := before[k := (if k in before then before[k] else 0) + 1];
    forall j | j in after ensures j in expected && after[j] == expected[j] {
      OccurrencesAppend(ratings, [k], j);
      assert Occurrences([k], j) == if j == k then 1 else 0;
      if j !in ratings {
        OccurrencesAbsent(ratings, j);
      }
      if j != k && j in ratings + [k] {
        var i :| 0 <= i < |ratings + [k]| && (ratings + [k])[i] == j;
        assert ratings[i] == j;
      }
    }
    forall j | j in expected ensures j in after {
      if j != k && j in ratings {
        var i :| 0 <= i < |ratings| && ratings[i] == j;
        assert (ratings + [k])[i] == j;
      }
    }
    assert after.Keys == expected.Keys;
  }

  /** The `forEach` of `getProductRating`: start from the five zero entries
      and increment the entry of each review's rating. */
  method Distribution(ratings: seq<int>) returns (d: map<int, nat>)
    ensures d == Tally(ratings)
  {
    d := Zeroes;
    assert Tally([]) == Zeroes;
    var i := 0;
    while i < |ratings|
      invariant 0 <= i <= |ratings|
      invariant d == Tally(ratings[..i])
    {
      var k := ratings[i];
      TallyStep(ratings[..i], k);
      assert ratings[..i + 1] == ratings[..i] + [k];
      d := d[k := (if k in d then d[k] else 0) + 1];
      i := i + 1;
    }
    assert ratings[..i] == ratings;
  }

  /** Every rating lies in 1..5, as the `reviews` check constraint demands. */
  predicate InRange(ratings: seq<int>) {
    forall i :: 0 <= i < |ratings| ==> 1 <= ratings[i] <= 5
  }

  /** With ratings in range the distribution has exactly the keys 1..5, and
      its entries add up to the number of reviews. */
  lemma {:induction false} DistributionSumsToCount(ratings: seq<int>)
    requires InRange(ratings)
    ensures Tally(ratings).Keys == {1, 2, 3, 4, 5}
    ensures var d := Tally(ratings); d[1] + d[2] + d[3] + d[4] + d[5] == |ratings|
  {
    if ratings != [] {
      DistributionSumsToCount(ratings[1..]);
      assert Tally(ratings)[ratings[0]] == Tally(ratings[1..])[ratings[0]] + 1;
    }
    var d := Tally(ratings);
    forall k | k in d ensures 1 <= k <= 5 {
      if k in ratings {
        var i :| 0 <= i < |ratings| && ratings[i] == k;
      }
    }
  }

  function SumOfRatings(ratings: seq<int>): int {
    if ratings == [] then 0 else ratings[0] + SumOfRatings(ratings[1..])
  }

  /** An exact average: `num / den` with `den > 0`. */
  datatype Ratio = Ratio(num: int, den: nat)

  datatype Summary = Summary(average: Ratio, count: nat, distribution: map<int, nat>)

  /** The summary reported when the query fails. */
  const EmptySummary := Summary(Ratio(0, 1), 0, Zeroes)

  /** The summary of a list of ratings: the count, the average (0 when
      there are none) and the distribution. */
  function Summarize(ratings: seq<int>): (s: Summary)
    ensures s.count == |ratings|
    ensures s.average.den > 0
    ensures s.count > 0 ==> s.average == Ratio(SumOfRatings(ratings), s.count)
    ensures s.count == 0 ==> s.average.num == 0
    ensures s.distribution == Tally(ratings)
  {
    Summary(if |ratings| > 0 then Ratio(SumOfRatings(ratings), |ratings|) else Ratio(0, 1), |ratings|, Tally(ratings))
  }

  lemma {:induction false} SumOfRatingsBounds(ratings: seq<int>)
    requires InRange(ratings)
    ensures |ratings| <= SumOfRatings(ratings) <= 5 * |ratings|
  {
    if ratings != [] {
      SumOfRatingsBounds(ratings[1..]);
    }
  }

  /** With ratings in range, a non-empty average lies between 1 and 5. */
  lemma AverageInRange(ratings: seq<int>)
    requires InRange(ratings) && ratings != []
    ensures var a := Summarize(ratings).average; a.den <= a.num <= 5 * a.den
  {
    SumOfRatingsBounds(ratings);
  }

  lemma EmptyIsEmptySummary()
    ensures Summarize([]) == EmptySummary
  {
    assert Tally([]) == Zeroes;
  }

  /** The ratings of a product's published reviews, in table order. */
  function PublishedRatings(reviews: seq<Review>, productId: Id): (r: seq<int>)
    ensures |r| == Count(reviews, (x: Review) => x.productId == productId && x.isPublished)
  {
    var selected := Filter(reviews, (x: Review) => x.productId == productId && x.isPublished);
    seq(|selected|, i requires 0 <= i < |selected| => selected[i].rating)
  }

  /** `getProductRating`: the summary of the product's published reviews, or
      the empty summary when the query fails. */
  function GetProductRating(reviews: seq<Review>, productId: Id, queryOk: bool): (s: Summary)
    ensures !queryOk ==> s == EmptySummary
    ensures queryOk ==> s.count == Count(reviews, (x: Review) => x.productId == productId && x.isPublished)
    ensures queryOk ==> s == Summarize(PublishedRatings(reviews, productId))
  {
    if !queryOk then EmptySummary else Summarize(PublishedRatings(reviews, productId))
  }

  /** Ratings in the table stay in range, so the distribution of any
      product adds up to its count. */
  lemma RatingDistributionAddsUp(reviews: seq<Review>, productId: Id, queryOk: bool)
    requires forall x :: x in reviews ==> 1 <= x.rating <= 5
    ensures var s := GetProductRating(reviews, productId, queryOk);
      s.distribution.Keys == {1, 2, 3, 4, 5} &&
      s.distribution[1] + s.distribution[2] + s.distribution[3] + s.distribution[4] + s.distribution[5] == s.count
  {
    var ratings := PublishedRatings(reviews, productId);
    var selected := Filter(reviews, (x: Review) => x.productId == productId && x.isPublished);
    assert forall i :: 0 <= i < |ratings| ==> ratings[i] == selected[i].rating && selected[i] in reviews;
    DistributionSumsToCount(ratings);
    EmptyIsEmptySummary();
  }

  // ---------------------------------------------------------------- listing

  datatype ReviewSort = Newest | Highest | Lowest

  /** The `sortBy` switch: an omitted or unknown value sorts newest first. */
  function ParseReviewSort(sortBy: Option<string>): (s: ReviewSort)
    ensures sortBy == Some("highest") <==> s == Highest
    ensures sortBy == Some("lowest") <==> s == Lowest
  {
    if sortBy == Some("highest") then Highest
    else if sortBy == Some("lowest") then Lowest
    else Newest
  }

  /** `a` may come before `b` in a listing sorted by `sort`. */
  predicate Precedes(sort: ReviewSort, a: Review, b: Review) {
    match sort
    case Newest => a.createdAt >= b.createdAt
    case Highest => a.rating >= b.rating
    case Lowest => a.rating <= b.rating
  }

  function ReviewLe(sort: ReviewSort): (le: (Review, Review) -> bool)
    ensures forall a, b :: le(a, b) <==> Precedes(sort, a, b)
    ensures Total(le)
  {
    (a, b) => Precedes(sort, a, b)
  }

  /** The reviews `getProductReviews` selects: the product's published
      ones, in table order. */
  function ProductReviews(reviews: seq<Review>, productId: Id): (r: seq<Review>)
    ensures forall x :: x in r <==> x in reviews && x.productId == productId && x.isPublished
  {
    Filter(reviews, (x: Review) => x.productId == productId && x.isPublished)
  }

  /** The selection in the requested order: the listing pages are cut from. */
  function ReviewListing(reviews: seq<Review>, productId: Id, sortBy: Option<string>): seq<Review> {
    SortBy(ProductReviews(reviews, productId), ReviewLe(ParseReviewSort(sortBy)))
  }

  /** `getProductReviews`: one page of the product's published reviews in
      the requested order; an empty list when the query fails. */
  function GetProductReviews(reviews: seq<Review>, productId: Id, limit: Option<nat>, offset: Option<nat>,
                             sortBy: Option<string>, queryOk: bool): (r: seq<Review>)
    ensures !queryOk ==> r == []
    ensures |r| <= limit.GetOr(10)
    ensures forall x :: x in r ==> x in reviews && x.productId == productId && x.isPublished
    ensures forall i, j :: 0 <= i < j < |r| ==> Precedes(ParseReviewSort(sortBy), r[i], r[j])
  {
    if !queryOk then []
    else
      SortedWindow(ProductReviews(reviews, productId), ReviewLe(ParseReviewSort(sortBy)), offset.GetOr(0), limit.GetOr(10));
      Window(ReviewListing(reviews, productId, sortBy), offset.GetOr(0), limit.GetOr(10))
  }

  /** A page is rows `offset .. offset + limit - 1` of the product's
      published reviews in the requested order. */
  lemma ReviewsPageIsWindow(reviews: seq<Review>, productId: Id, limit: nat, offset: nat, sortBy: Option<string>)
    ensures var r := GetProductReviews(reviews, productId, Some(limit), Some(offset), sortBy, true);
            var l := ReviewListing(reviews, productId, sortBy);
      && |r| == (if offset >= |l| then 0 else Min(limit, |l| - offset))
      && forall i :: 0 <= i < |r| ==> offset + i < |l| && r[i] == l[offset + i]
  {
  }

  /** A page from the start at least as large as the table holds each
      published review of the product exactly as often as the table does,
      and nothing else. */
  lemma AllReviewsListed(reviews: seq<Review>, productId: Id, limit: nat, sortBy: Option<string>)
    requires limit >= |reviews|
    ensures var r := GetProductReviews(reviews, productId, Some(limit), None, sortBy, true);
      forall x :: multiset(r)[x] == if x.productId == productId && x.isPublished then multiset(reviews)[x] else 0
  {
    var selected := ProductReviews(reviews, productId);
    var sorted := ReviewListing(reviews, productId, sortBy);
    assert |sorted| == |multiset(sorted)| == |selected|;
    assert Window(sorted, 0, limit) == sorted;
    FilterMultiset(reviews, (x: Review) => x.productId == productId && x.isPublished);
  }

  // ---------------------------------------------------------------- creation

  /** The fields of a new review the model keeps. */
  datatype ReviewInput = ReviewInput(productId: Id, userId: Id, rating: int)

  /** `createReview`: insert the review as published. The insert fails, with
      the database's message, when it is refused, and always when the rating
      is outside 1..5. */
  function CreateReview(reviews: seq<Review>, input: ReviewInput, newId: Id, now: int,
                        insertOk: bool, dbMessage: string): (r: Step<seq<Review>, ()>)
    ensures r.reply.Ok? <==> insertOk && 1 <= input.rating <= 5
    ensures r.reply.Err? ==> r.state == reviews && r.reply.msg == dbMessage
    ensures r.reply.Ok? ==> r.state == reviews + [Review(newId, input.productId, input.userId, input.rating, true, now)]
  {
    if insertOk && 1 <= input.rating <= 5 then
      Step(reviews + [Review(newId, input.productId, input.userId, input.rating, true, now)], Ok(()))
    else Step(reviews, Err(dbMessage))
  }

  /** A created review is published at once: it counts in the product's
      summary straight away. */
  lemma CreatedReviewCounts(reviews: seq<Review>, input: ReviewInput, newId: Id, now: int, dbMessage: string)
    requires 1 <= input.rating <= 5
    ensures var after := CreateReview(reviews, input, newId, now, true, dbMessage).state;
      GetProductRating(after, input.productId, true).count == GetProductRating(reviews, input.productId, true).count + 1
  {
    var row := Review(newId, input.productId, input.userId, input.rating, true, now);
    FilterAppend(reviews, [row], (x: Review) => x.productId == input.productId && x.isPublished);
  }
}

=== FILE: testimonial_slider.dfy ===
/** components/testimonial-slider.tsx: the slider's current index, moved by
    the next and previous buttons and set by the dots. */
module TestimonialSlider {
  /** The number of testimonials. */
  const Count := 4

  type Index = i: int | 0 <= i < Count

  /** `nextSlide`: forward, wrapping from the last to the first. */
  function Next(i: Index): (j: Index)
    ensures i < Count - 1 ==> j == i + 1
    ensures i == Count - 1 ==> j == 0
    ensures j == (i + 1) % Count
  {
    if i == Count - 1 then 0 else i + 1
  }

  /** `prevSlide`: back, wrapping from the first to the last. */
  function Prev(i: Index): (j: Index)
    ensures i > 0 ==> j == i - 1
    ensures i == 0 ==> j == Count - 1
    ensures j == (i - 1) % Count
  {
    if i == 0 then Count - 1 else i - 1
  }

  /** A dot selects its own slide; only the dots' indexes exist. */
  function GoTo(i: Index, dot: Index): (j: Index)
    ensures j == dot
  {
    dot
  }

  lemma NextPrevInverse(i: Index)
    ensures Prev(Next(i)) == i
    ensures Next(Prev(i)) == i
  {
  }

  /** `n` presses of the next button. */
  function Advance(i: Index, n: nat): Index
    decreases n
  {
    if n == 0 then i else Advance(Next(i), n - 1)
  }

  /** `n` presses move the index forward by `n`, modulo the count. */
  lemma {:induction false} AdvanceIsModular(i: Index, n: nat)
    ensures Advance(i, n) == (i + n) % Count
    decreases n
  {
    if n > 0 {
      AdvanceIsModular(Next(i), n - 1);
      if i == Count - 1 {
        assert (0 + (n - 1)) % Count == (i + n) % Count by {
          assert i + n == (n - 1) + Count;
        }
      } else {
        assert Next(i) + (n - 1) == i + n;
      }
    }
  }

  /** As many presses as there are testimonials come back to the start. */
  lemma FullCycle(i: Index)
    ensures Advance(i, Count) == i
  {
    AdvanceIsModular(i, Count);
  }
}

=== FILE: text.dfy ===
/** String helpers the storefront relies on through JavaScript and Postgres:
    case-insensitive substring matching (`ilike '%term%'`), the regular
    expression class `\s`, and `split(" ")` / `join(" ")`. Strings are
    sequences of UTF-16 code units, as in JavaScript. */
module Text {

  /** Case folding of ASCII letters; other characters are left unchanged. */
  function LowerChar(c: char): char {
    if 'A' <= c <= 'Z' then (c as int + 32) as char else c
  }

  function Lower(s: string): (r: string)
    ensures |r| == |s|
    ensures forall i :: 0 <= i < |s| ==> r[i] == LowerChar(s[i])
  {
    if s == [] then [] else [LowerChar(s[0])] + Lower(s[1..])
  }

  /** `sub` occurs in `s` starting at position `i`. */
  ghost predicate OccursAt(s: string, sub: string, i: int) {
    0 <= i && i + |sub| <= |s| && s[i .. i + |sub|] == sub
  }

  /** Substring search, scanning left to right. */
  function Contains(s: string, sub: string): (r: bool)
    ensures r <==> exists i :: OccursAt(s, sub, i)
    decreases |s|
  {
    if |sub| > |s| then
      assert forall i :: !OccursAt(s, sub, i);
      false
    else if s[..|sub|] == sub then
      assert OccursAt(s, sub, 0);
      true
    else
      var rest := Contains(s[1..], sub);
      assert forall i :: OccursAt(s[1..], sub, i) <==> OccursAt(s, sub, i + 1) by {
        forall i ensures OccursAt(s[1..], sub, i) <==> OccursAt(s, sub, i + 1) {
          if 0 <= i && i + |sub| <= |s[1..]| {
            assert s[1..][i .. i + |sub|] == s[i + 1 .. i + 1 + |sub|];
          }
        }
      }
      assert !OccursAt(s, sub, 0);
      assert (exists i :: OccursAt(s, sub, i)) ==> exists i :: OccursAt(s[1..], sub, i) by {
        if exists i :: OccursAt(s, sub, i) {
          var i :| OccursAt(s, sub, i);
          assert i >= 1;
          assert OccursAt(s[1..], sub, i - 1);
        }
      }
      rest
  }

  /** Postgres `column ILIKE '%term%'` with the term's wildcard characters
      taken literally: a case-insensitive substring test. */
  function ILikeContains(value: string, term: string): bool {
    Contains(Lower(value), Lower(term))
  }

  /** The JavaScript regular-expression class `\s`: white space and line
      terminators. */
  predicate IsSpace(c: char) {
    var n := c as int;
    || (0x09 <= n <= 0x0D) || n == 0x20 || n == 0xA0 || n == 0x1680
    || (0x2000 <= n <= 0x200A) || n == 0x2028 || n == 0x2029 || n == 0x202F
    || n == 0x205F || n == 0x3000 || n == 0xFEFF
  }

  /** The position of the first occurrence of `c` in `s`. */
  function IndexOf(s: string, c: char): (i: nat)
    requires c in s
    ensures i < |s| && s[i] == c
    ensures c !in s[..i]
  {
    if s[0] == c then 0
    else
      assert s == [s[0]] + s[1..];
      var j := IndexOf(s[1..], c);
      assert s[..j + 1] == [s[0]] + s[1..][..j];
      j + 1
  }

  /** JavaScript `s.split(sep)` for a one-character separator: the pieces
      between separators, empty pieces included. */
  function Split(s: string, sep: char): (parts: seq<string>)
    ensures |parts| >= 1
    ensures forall k :: 0 <= k < |parts| ==> sep !in parts[k]
    decreases |s|
  {
    if sep !in s then [s]
    else
      var i := IndexOf(s, sep);
      [s[..i]] + Split(s[i + 1..], sep)
  }

  /** JavaScript `parts.join(sep)` for a one-character separator. */
  function Join(parts: seq<string>, sep: char): string {
    if |parts| == 0 then ""
    else if |parts| == 1 then parts[0]
    else parts[0] + [sep] + Join(parts[1..], sep)
  }

  /** Joining the pieces of a split with the same separator gives back the
      original string. */
  lemma {:induction false} JoinSplit(s: string, sep: char)
    ensures Join(Split(s, sep), sep) == s
    decreases |s|
  {
    if sep in s {
      var i := IndexOf(s, sep);
      JoinSplit(s[i + 1..], sep);
      assert Split(s, sep)[1..] == Split(s[i + 1..], sep);
      assert s == s[..i] + [sep] + s[i + 1..];
    }
  }

  /** ORDER BY a text column: lexicographic order on code points. A
      database collation is not modelled. */
  predicate LexLe(a: string, b: string) {
    a == [] || (b != [] && (a[0] < b[0] || (a[0] == b[0] && LexLe(a[1..], b[1..]))))
  }

  lemma {:induction false} LexLeTotal(a: string, b: string)
    ensures LexLe(a, b) || LexLe(b, a)
  {
    if a != [] && b != [] && a[0] == b[0] {
      LexLeTotal(a[1..], b[1..]);
    }
  }

  lemma {:induction false} LexLeTransitive(a: string, b: string, c: string)
    requires LexLe(a, b) && LexLe(b, c)
    ensures LexLe(a, c)
  {
    if a != [] && a[0] == b[0] && b[0] == c[0] {
      LexLeTransitive(a[1..], b[1..], c[1..]);
    }
  }

  lemma {:induction false} LexLeAntisymmetric(a: string, b: string)
    requires LexLe(a, b) && LexLe(b, a)
    ensures a == b
  {
    if a != [] {
      LexLeAntisymmetric(a[1..], b[1..]);
    }
  }

  lemma LexLeOrders()
    ensures forall a, b :: LexLe(a, b) || LexLe(b, a)
    ensures forall a, b, c :: LexLe(a, b) && LexLe(b, c) ==> LexLe(a, c)
  {
    forall a, b ensures LexLe(a, b) || LexLe(b, a) {
      LexLeTotal(a, b);
    }
    forall a, b, c | LexLe(a, b) && LexLe(b, c) ensures LexLe(a, c) {
      LexLeTransitive(a, b, c);
    }
  }
}

=== FILE: user_actions.dfy ===
/** lib/actions/user-actions.ts: the account-settings actions that write
    the signed-in user's profile and notification preferences. A database
    error is thrown, so the action reports no success. */
module UserActions {
  import opened Common
  import opened Catalog
  import opened UsersDb

  const ProfileFailed := "Failed to update profile"
  const PreferencesFailed := "Failed to update notification preferences"

  /** The argument of `updateUserProfile`; an omitted phone is left out of
      the update and so stays as it was. */
  datatype ProfileInput = ProfileInput(id: Id, firstName: string, lastName: string, phone: Option<string>)

  /** `updateUserProfile`: `.update(...).eq("id", id)`. No row with the id
      is not an error: nothing changes. */
  function UpdateUserProfile(users: UserTable, input: ProfileInput, now: int, writeOk: bool): (r: Step<UserTable, ()>)
    ensures r.reply.Ok? <==> writeOk
    ensures r.reply.Err? ==> r.state == users && r.reply.msg == ProfileFailed
    ensures r.state.Keys == users.Keys
    ensures forall k :: k in users && k != input.id ==> r.state[k] == users[k]
    ensures writeOk && input.id in users ==>
      var before, after := users[input.id], r.state[input.id];
      && after.firstName == Some(input.firstName)
      && after.lastName == Some(input.lastName)
      && after.phone == (if input.phone.Some? then input.phone else before.phone)
      && after.updatedAt == now
      && after.id == before.id && after.email == before.email && after.role == before.role
      && after.createdAt == before.createdAt
    ensures Keyed(users) ==> Keyed(r.state)
  {
    if !writeOk then Step(users, Err(ProfileFailed))
    else if input.id !in users then Step(users, Ok(()))
    else
      var u := users[input.id];
      var updated := u.(firstName := Some(input.firstName), lastName := Some(input.lastName),
                        phone := if input.phone.Some? then input.phone else u.phone, updatedAt := now);
      Step(users[input.id := updated], Ok(()))
  }

  /** The three flags the settings form submits. */
  datatype NotificationInput = NotificationInput(marketingEmails: bool, orderUpdates: bool, newsletter: bool)

  /** `updateNotificationPreferences`: an upsert on `user_id`. An existing
      row gets the three flags and keeps its product-updates column; a new
      row has that column unset. */
  function UpdateNotificationPreferences(prefs: PrefsTable, userId: Id, input: NotificationInput, writeOk: bool): (r: Step<PrefsTable, ()>)
    ensures r.reply.Ok? <==> writeOk
    ensures r.reply.Err? ==> r.state == prefs && r.reply.msg == PreferencesFailed
    ensures writeOk ==> r.state.Keys == prefs.Keys + {userId}
    ensures forall k :: k in prefs && k != userId ==> k in r.state && r.state[k] == prefs[k]
    ensures writeOk ==>
      && r.state[userId].marketingEmails == Some(input.marketingEmails)
      && r.state[userId].orderUpdates == Some(input.orderUpdates)
      && r.state[userId].newsletter == Some(input.newsletter)
      && r.state[userId].productUpdates == (if userId in prefs then prefs[userId].productUpdates else None)
  {
    if !writeOk then Step(prefs, Err(PreferencesFailed))
    else
      var kept := if userId in prefs then prefs[userId].productUpdates else None;
      Step(prefs[userId := PrefsRow(Some(input.marketingEmails), Some(input.orderUpdates), Some(input.newsletter), kept)], Ok(()))
  }

  /** Reading the preferences back after a successful update gives the
      submitted flags, and the product-updates flag as before. */
  lemma PreferencesReadBack(prefs: PrefsTable, userId: Id, input: NotificationInput)
    ensures var after := UpdateNotificationPreferences(prefs, userId, input, true).state;
      var p := GetUserPreferences(after, userId, true);
      && p.marketingEmails == input.marketingEmails
      && p.orderUpdates == input.orderUpdates
      && p.newsletter == input.newsletter
      && p.productUpdates == GetUserPreferences(prefs, userId, true).productUpdates
  {
  }

  /** Submitting the same preferences twice is submitting them once. */
  lemma PreferencesIdempotent(prefs: PrefsTable, userId: Id, input: NotificationInput)
    ensures var once := UpdateNotificationPreferences(prefs, userId, input, true).state;
      UpdateNotificationPreferences(once, userId, input, true).state == once
  {
  }
}

=== FILE: users_db.dfy ===
/** lib/db/users.ts: the `users` table, the notification preferences read
    with their defaults, and the address book, whose rule is that a user has
    at most one default address. Setting a new default is two database
    calls: clear the flag on the user's other addresses, then write the
    address. The two are separate transitions, and the first one's failure
    is never checked. */
module UsersDb {
  import opened Common
  import opened Catalog

  // ---------------------------------------------------------------- preferences

  /** A `user_preferences` row; each flag column may be null. */
  datatype PrefsRow = PrefsRow(
    marketingEmails: Option<bool>,
    orderUpdates: Option<bool>,
    newsletter: Option<bool>,
    productUpdates: Option<bool>)

  /** The preferences table, keyed by its unique `user_id`. */
  type PrefsTable = map<Id, PrefsRow>

  datatype Preferences = Preferences(marketingEmails: bool, orderUpdates: bool, newsletter: bool, productUpdates: bool)

  const AllOn := Preferences(true, true, true, true)

  /** `getUserPreferences`: a flag is off only when the user's row exists,
      the query succeeds and that column holds `false`. */
  function GetUserPreferences(prefs: PrefsTable, userId: Id, queryOk: bool): (p: Preferences)
    ensures !queryOk || userId !in prefs ==> p == AllOn
    ensures !p.marketingEmails <==> queryOk && userId in prefs && prefs[userId].marketingEmails == Some(false)
    ensures !p.orderUpdates <==> queryOk && userId in prefs && prefs[userId].orderUpdates == Some(false)
    ensures !p.newsletter <==> queryOk && userId in prefs && prefs[userId].newsletter == Some(false)
    ensures !p.productUpdates <==> queryOk && userId in prefs && prefs[userId].productUpdates == Some(false)
  {
    if !queryOk || userId !in prefs then AllOn
    else
      var row := prefs[userId];
      Preferences(row.marketingEmails.GetOr(true), row.orderUpdates.GetOr(true),
                  row.newsletter.GetOr(true), row.productUpdates.GetOr(true))
  }

  // ---------------------------------------------------------------- users

  /** The `users` table, keyed by its primary key. */
  type UserTable = map<Id, User>

  /** Each row is stored under its own id. */
  predicate Keyed(users: UserTable) {
    forall k :: k in users ==> users[k].id == k
  }

  /** The argument of `createOrUpdateUser`; `None` is an omitted field. */
  datatype UserInput = UserInput(
    id: Id,
    email: string,
    firstName: Option<string>,
    lastName: Option<string>,
    phone: Option<string>,
    role: Option<string>)

  const UserFailed := "Failed to create or update user"

  /** A column written from an optional field: an omitted field is dropped
      from the request body, so the column keeps its value. */
  function Given(field: Option<string>, current: Option<string>): (r: Option<string>)
    ensures field.Some? ==> r == field
    ensures field.None? ==> r == current
  {
    if field.Some? then field else current
  }

  /** The role a new user gets: the given one, or "customer" when it is
      omitted or empty. */
  function NewRole(role: Option<string>): (r: string)
    ensures r != ""
    ensures Truthy(role) ==> r == role.value
  {
    if Truthy(role) then role.value else "customer"
  }

  /** `createOrUpdateUser`: update the existing row's email, names and phone,
      or insert a new row. Every failure is reported with one message. */
  function CreateOrUpdateUser(users: UserTable, input: UserInput, now: int, lookupOk: bool, writeOk: bool): (r: Step<UserTable, User>)
    requires Keyed(users)
    ensures Keyed(r.state)
    ensures r.reply.Ok? <==> lookupOk && writeOk
    ensures r.reply.Err? ==> r.state == users && r.reply.msg == UserFailed
    ensures r.reply.Ok? ==> r.state == users[input.id := r.reply.value]
    ensures r.reply.Ok? ==> r.reply.value.id == input.id && r.reply.value.email == input.email
    ensures r.reply.Ok? && input.id in users ==>
      var u, prev := r.reply.value, users[input.id];
      && u.role == prev.role
      && u.createdAt == prev.createdAt
      && (input.firstName.None? ==> u.firstName == prev.firstName)
      && (input.lastName.None? ==> u.lastName == prev.lastName)
      && (input.phone.None? ==> u.phone == prev.phone)
      && (input.firstName.Some? ==> u.firstName == input.firstName)
      && (input.lastName.Some? ==> u.lastName == input.lastName)
      && (input.phone.Some? ==> u.phone == input.phone)
    ensures r.reply.Ok? && input.id !in users ==>
      var u := r.reply.value;
      && u.role == NewRole(input.role)
      && u.firstName == input.firstName && u.lastName == input.lastName && u.phone == input.phone
      && u.createdAt == now
  {
    if !lookupOk || !writeOk then Step(users, Err(UserFailed))
    else if input.id in users then
      var prev := users[input.id];
      var u := prev.(email := input.email,
                     firstName := Given(input.firstName, prev.firstName),
                     lastName := Given(input.lastName, prev.lastName),
                     phone := Given(input.phone, prev.phone));
      Step(users[input.id := u], Ok(u))
    else
      var u := User(input.id, input.email, input.firstName, input.lastName, input.phone,
                    NewRole(input.role), now, now);
      Step(users[input.id := u], Ok(u))
  }

  // ---------------------------------------------------------------- addresses

  /** At most one default address per user: two default addresses of the
      same user are the same address. */
  predicate OneDefault(table: seq<Address>) {
    forall a, b :: a in table && b in table && a.userId == b.userId && a.isDefault && b.isDefault ==> a.id == b.id
  }

  /** The address table's invariant. */
  predicate AddressesOk(table: seq<Address>) {
    DistinctIds(table, (a: Address) => a.id) && OneDefault(table)
  }

  predicate FreshAddressId(table: seq<Address>, id: Id) {
    forall a :: a in table ==> a.id != id
  }

  /** The first call of the two-step rule: `update({is_default: false})`
      on the user's default addresses, except the one with id `keep`. */
  function ClearDefaults(table: seq<Address>, userId: Id, keep: Option<Id>): (r: seq<Address>)
    ensures |r| == |table|
    ensures forall j :: 0 <= j < |table| ==> r[j] == table[j].(isDefault := r[j].isDefault)
    ensures forall j :: 0 <= j < |table| ==>
      (r[j].isDefault <==> table[j].isDefault && (table[j].userId != userId || keep == Some(table[j].id)))
  {
    seq(|table|, j requires 0 <= j < |table| =>
      if table[j].userId == userId && keep != Some(table[j].id) then table[j].(isDefault := false) else table[j])
  }

  /** The first step as it happens: it runs only when a default is
      requested, and a failure leaves the table as it was, unreported. */
  function UnsetDefaults(table: seq<Address>, userId: Id, keep: Option<Id>, requested: bool, clearOk: bool): (r: seq<Address>)
    ensures |r| == |table|
    ensures forall j :: 0 <= j < |table| ==> r[j] == table[j].(isDefault := r[j].isDefault)
    ensures forall j :: 0 <= j < |table| ==> (r[j].isDefault ==> table[j].isDefault)
    ensures forall j :: 0 <= j < |table| && table[j].userId != userId ==> r[j] == table[j]
    ensures requested && clearOk ==> forall a :: a in r && a.userId == userId && a.isDefault ==> keep == Some(a.id)
  {
    if requested && clearOk then ClearDefaults(table, userId, keep) else table
  }

  lemma ClearDefaultsKeepsOk(table: seq<Address>, userId: Id, keep: Option<Id>, requested: bool, clearOk: bool)
    requires AddressesOk(table)
    ensures AddressesOk(UnsetDefaults(table, userId, keep, requested, clearOk))
  {
    var r := UnsetDefaults(table, userId, keep, requested, clearOk);
    forall a, b | a in r && b in r && a.userId == b.userId && a.isDefault && b.isDefault ensures a.id == b.id {
      var i :| 0 <= i < |r| && r[i] == a;
      var j :| 0 <= j < |r| && r[j] == b;
      assert table[i] in table && table[j] in table;
    }
  }

  /** The argument of `createAddress`; `isDefault` may be omitted. */
  datatype NewAddress = NewAddress(
    userId: Id,
    line1: string,
    line2: Option<string>,
    city: string,
    state: string,
    postalCode: string,
    country: string,
    isDefault: Option<bool>)

  const CreateFailed := "Failed to create address"
  const UpdateFailed := "Failed to update address"
  const DeleteFailed := "Failed to delete address"

  /** The row the insert writes; an omitted flag takes the column default,
      false. */
  function NewRow(data: NewAddress, id: Id): (a: Address)
    ensures a.id == id && a.userId == data.userId
    ensures a.isDefault <==> data.isDefault == Some(true)
  {
    Address(id, data.userId, data.line1, data.line2, data.city, data.state, data.postalCode, data.country,
            data.isDefault.GetOr(false))
  }

  /** `createAddress`: clear the user's default when the new address is to
      be the default, then insert. A failed insert reports an error, but
      the clearing has already happened. */
  function CreateAddress(table: seq<Address>, data: NewAddress, newId: Id, clearOk: bool, insertOk: bool): (r: Step<seq<Address>, Address>)
    ensures var cleared := UnsetDefaults(table, data.userId, None, data.isDefault == Some(true), clearOk);
      && (r.reply.Ok? <==> insertOk)
      && (r.reply.Ok? ==> r.reply.value == NewRow(data, newId) && r.state == cleared + [r.reply.value])
      && (r.reply.Err? ==> r.state == cleared && r.reply.msg == CreateFailed)
  {
    var cleared := UnsetDefaults(table, data.userId, None, data.isDefault == Some(true), clearOk);
    if insertOk then Step(cleared + [NewRow(data, newId)], Ok(NewRow(data, newId)))
    else Step(cleared, Err(CreateFailed))
  }

  /** With a fresh id and a successful clear, `createAddress` keeps the
      invariant. */
  lemma CreateAddressKeepsOk(table: seq<Address>, data: NewAddress, newId: Id, insertOk: bool)
    requires AddressesOk(table) && FreshAddressId(table, newId)
    ensures AddressesOk(CreateAddress(table, data, newId, true, insertOk).state)
  {
    var cleared := UnsetDefaults(table, data.userId, None, data.isDefault == Some(true), true);
    ClearDefaultsKeepsOk(table, data.userId, None, data.isDefault == Some(true), true);
    if insertOk {
      var row := NewRow(data, newId);
      AppendKeepsOk(cleared, row);
    }
  }

  /** Appending a row with a fresh id that is not a second default keeps the
      invariant. */
  lemma AppendKeepsOk(table: seq<Address>, row: Address)
    requires AddressesOk(table) && FreshAddressId(table, row.id)
    requires row.isDefault ==> forall a :: a in table && a.userId == row.userId ==> !a.isDefault
    ensures AddressesOk(table + [row])
  {
    var t := table + [row];
    forall i, j | 0 <= i < j < |t| ensures t[i].id != t[j].id {
      if j == |table| { assert t[i] in table; }
    }
  }

  /** A new default address is afterwards the user's one default: the row
      `getDefaultAddress` returns. */
  lemma CreateDefaultIsTheDefault(table: seq<Address>, data: NewAddress, newId: Id)
    requires AddressesOk(table) && FreshAddressId(table, newId)
    requires data.isDefault == Some(true)
    ensures var r := CreateAddress(table, data, newId, true, true);
      GetDefaultAddress(r.state, data.userId, true) == Some(NewRow(data, newId))
  {
    var cleared := UnsetDefaults(table, data.userId, None, true, true);
    var row := NewRow(data, newId);
    var p := (a: Address) => a.userId == data.userId && a.isDefault;
    FilterNone(cleared, p);
    FilterAppend(cleared, [row], p);
  }

  /** The first call's failure goes unnoticed: with the clear failing, a
      new default joins the old one and the invariant breaks. */
  lemma UncheckedClearBreaksOneDefault()
    ensures var home := Address("a1", "u1", "1 Main St", None, "Springfield", "IL", "62701", "US", true);
      var data := NewAddress("u1", "2 Oak Ave", None, "Springfield", "IL", "62702", "US", Some(true));
      && AddressesOk([home])
      && !OneDefault(CreateAddress([home], data, "a2", false, true).state)
  {
    var home := Address("a1", "u1", "1 Main St", None, "Springfield", "IL", "62701", "US", true);
    var data := NewAddress("u1", "2 Oak Ave", None, "Springfield", "IL", "62702", "US", Some(true));
    var s := CreateAddress([home], data, "a2", false, true).state;
    assert s == [home, NewRow(data, "a2")];
    assert s[0] in s && s[1] in s;
  }

  /** The argument of `updateAddress`; `None` is an omitted field. The
      second line is doubly optional: omitted, or set to a value or null. */
  datatype AddressPatch = AddressPatch(
    line1: Option<string>,
    line2: Option<Option<string>>,
    city: Option<string>,
    state: Option<string>,
    postalCode: Option<string>,
    country: Option<string>,
    isDefault: Option<bool>)

  function Apply(a: Address, patch: AddressPatch): (b: Address)
    ensures b.id == a.id && b.userId == a.userId
    ensures b.isDefault == patch.isDefault.GetOr(a.isDefault)
    ensures b.line1 == patch.line1.GetOr(a.line1) && b.line2 == patch.line2.GetOr(a.line2)
    ensures b.city == patch.city.GetOr(a.city) && b.state == patch.state.GetOr(a.state)
    ensures b.postalCode == patch.postalCode.GetOr(a.postalCode) && b.country == patch.country.GetOr(a.country)
  {
    Address(a.id, a.userId, patch.line1.GetOr(a.line1), patch.line2.GetOr(a.line2), patch.city.GetOr(a.city),
            patch.state.GetOr(a.state), patch.postalCode.GetOr(a.postalCode), patch.country.GetOr(a.country),
            patch.isDefault.GetOr(a.isDefault))
  }

  /** The second call of an update: patch the rows with this id that belong
      to the user; every other row is left alone. */
  function PatchRows(table: seq<Address>, id: Id, userId: Id, patch: AddressPatch): (r: seq<Address>)
    ensures |r| == |table|
    ensures forall j :: 0 <= j < |table| && !(table[j].id == id && table[j].userId == userId) ==> r[j] == table[j]
    ensures forall j :: 0 <= j < |table| && table[j].id == id && table[j].userId == userId ==> r[j] == Apply(table[j], patch)
  {
    seq(|table|, j requires 0 <= j < |table| =>
      if table[j].id == id && table[j].userId == userId then Apply(table[j], patch) else table[j])
  }

  /** Patching keeps the invariant, provided that a patch making the row a
      default finds no other default of that user. */
  lemma PatchKeepsOk(table: seq<Address>, id: Id, userId: Id, patch: AddressPatch)
    requires AddressesOk(table)
    requires patch.isDefault == Some(true) ==> forall a :: a in table && a.userId == userId && a.isDefault ==> a.id == id
    ensures AddressesOk(PatchRows(table, id, userId, patch))
  {
    var r := PatchRows(table, id, userId, patch);
    assert forall j :: 0 <= j < |r| ==> r[j].id == table[j].id && r[j].userId == table[j].userId;
    forall a, b | a in r && b in r && a.userId == b.userId && a.isDefault && b.isDefault ensures a.id == b.id {
      var i :| 0 <= i < |r| && r[i] == a;
      var j :| 0 <= j < |r| && r[j] == b;
      assert table[i] in table && table[j] in table;
    }
  }

  /** The rows an update selects: at most one, since ids are distinct. */
  function Targets(table: seq<Address>, id: Id, userId: Id): seq<Address> {
    Filter(table, (a: Address) => a.id == id && a.userId == userId)
  }

  /** `updateAddress`: clear the user's other defaults when this address is
      to be the default, then patch the row with this id and user, which
      must exist (`.single()`). Errors are reported after the clearing. */
  function UpdateAddress(table: seq<Address>, id: Id, userId: Id, patch: AddressPatch,
                         clearOk: bool, updateOk: bool): (r: Step<seq<Address>, Address>)
    ensures var cleared := UnsetDefaults(table, userId, Some(id), patch.isDefault == Some(true), clearOk);
      var targets := Targets(cleared, id, userId);
      && (r.reply.Ok? <==> updateOk && |targets| == 1)
      && (r.reply.Ok? ==> r.reply.value == Apply(targets[0], patch))
      && (r.reply.Err? ==> r.reply.msg == UpdateFailed)
      && r.state == if updateOk then PatchRows(cleared, id, userId, patch) else cleared
  {
    var cleared := UnsetDefaults(table, userId, Some(id), patch.isDefault == Some(true), clearOk);
    var targets := Targets(cleared, id, userId);
    if !updateOk then Step(cleared, Err(UpdateFailed))
    else if |targets| == 1 then Step(PatchRows(cleared, id, userId, patch), Ok(Apply(targets[0], patch)))
    else Step(PatchRows(cleared, id, userId, patch), Err(UpdateFailed))
  }

  /** With a successful clear, `updateAddress` keeps the invariant, whether
      or not the update itself succeeds. */
  lemma UpdateAddressKeepsOk(table: seq<Address>, id: Id, userId: Id, patch: AddressPatch, updateOk: bool)
    requires AddressesOk(table)
    ensures AddressesOk(UpdateAddress(table, id, userId, patch, true, updateOk).state)
  {
    var cleared := UnsetDefaults(table, userId, Some(id), patch.isDefault == Some(true), true);
    ClearDefaultsKeepsOk(table, userId, Some(id), patch.isDefault == Some(true), true);
    if updateOk {
      PatchKeepsOk(cleared, id, userId, patch);
    }
  }

  /** An update never touches another user's addresses. */
  lemma UpdateAddressOthersUnchanged(table: seq<Address>, id: Id, userId: Id, patch: AddressPatch,
                                     clearOk: bool, updateOk: bool)
    ensures var s := UpdateAddress(table, id, userId, patch, clearOk, updateOk).state;
      |s| == |table| && forall j :: 0 <= j < |table| && table[j].userId != userId ==> s[j] == table[j]
  {
    var cleared := UnsetDefaults(table, userId, Some(id), patch.isDefault == Some(true), clearOk);
    assert forall j :: 0 <= j < |table| && table[j].userId != userId ==> cleared[j] == table[j];
  }

  /** `deleteAddress`: removes the rows with this id that belong to the
      user. */
  function DeleteAddress(table: seq<Address>, id: Id, userId: Id, writeOk: bool): (r: Step<seq<Address>, ()>)
    ensures r.reply.Ok? <==> writeOk
    ensures r.reply.Err? ==> r.state == table && r.reply.msg == DeleteFailed
    ensures writeOk ==> forall a :: a in r.state <==> a in table && !(a.id == id && a.userId == userId)
    ensures IsSubsequence(r.state, table)
  {
    var keep := (a: Address) => !(a.id == id && a.userId == userId);
    FilterIsSubsequence(table, keep);
    if writeOk then Step(Filter(table, keep), Ok(()))
    else
      SubsequenceRefl(table);
      Step(table, Err(DeleteFailed))
  }

  lemma DeleteAddressKeepsOk(table: seq<Address>, id: Id, userId: Id, writeOk: bool)
    requires AddressesOk(table)
    ensures AddressesOk(DeleteAddress(table, id, userId, writeOk).state)
  {
    FilterKeepsDistinct(table, (a: Address) => a.id, (a: Address) => !(a.id == id && a.userId == userId));
  }

  /** 1 for a default address, 0 otherwise: the key of
      `order("is_default", { ascending: false })`. */
  function DefaultRank(a: Address): int {
    if a.isDefault then 1 else 0
  }

  /** `getUserAddresses`: the user's addresses, defaults first; an empty
      list when the query fails. */
  function GetUserAddresses(table: seq<Address>, userId: Id, queryOk: bool): (r: seq<Address>)
    ensures !queryOk ==> r == []
    ensures queryOk ==> multiset(r) == multiset(Filter(table, (a: Address) => a.userId == userId))
    ensures forall a :: a in r ==> a in table && a.userId == userId
    ensures forall i, j :: 0 <= i < j < |r| && r[j].isDefault ==> r[i].isDefault
  {
    if !queryOk then []
    else
      DescendingTotal(DefaultRank);
      var r := SortBy(Filter(table, (a: Address) => a.userId == userId), Descending(DefaultRank));
      assert forall a :: a in r ==> a in multiset(r);
      r
  }

  /** `getDefaultAddress` (`maybeSingle`): the user's one default address;
      none when there is none, when there are several, or on error. */
  function GetDefaultAddress(table: seq<Address>, userId: Id, queryOk: bool): (r: Option<Address>)
    ensures r.Some? ==> r.value in table && r.value.userId == userId && r.value.isDefault
    ensures !queryOk ==> r.None?
  {
    var found := Filter(table, (a: Address) => a.userId == userId && a.isDefault);
    if queryOk && |found| == 1 then Some(found[0]) else None
  }

  /** Under the invariant `getDefaultAddress` misses a default only when the
      query fails. */
  lemma DefaultAddressFound(table: seq<Address>, userId: Id)
    requires AddressesOk(table)
    ensures GetDefaultAddress(table, userId, true).None? <==>
      forall a :: a in table && a.userId == userId ==> !a.isDefault
  {
    var p := (a: Address) => a.userId == userId && a.isDefault;
    var found := Filter(table, p);
    FilterKeepsDistinct(table, (a: Address) => a.id, p);
    if found != [] {
      var k := found[0].id;
      assert found[0] in found;
      SameKeyAtMostOne(found, (a: Address) => a.id, k);
    } else {
      FilterNoneBack(table, p);
    }
  }

  /** An empty filter result means no row passes. */
  lemma FilterNoneBack(table: seq<Address>, p: Address -> bool)
    requires Filter(table, p) == []
    ensures forall a :: a in table ==> !p(a)
  {
  }
}

=== FILE: wishlist.dfy ===
/** lib/db/wishlist.ts: a user's saved products. The table's unique
    constraint on (user, product) makes adding idempotent: a duplicate
    insert fails with code 23505, which `addToWishlist` ignores. */
module Wishlist {
  import opened Common
  import opened Catalog

  /** The row saving `productId` for `userId`. */
  predicate Saves(row: WishlistRow, userId: Id, productId: Id) {
    row.userId == userId && row.productId == productId
  }

  /** The unique constraint on (user_id, product_id). */
  predicate UniquePairs(table: seq<WishlistRow>) {
    forall i, j :: 0 <= i < j < |table| ==> !Saves(table[j], table[i].userId, table[i].productId)
  }

  function Matching(table: seq<WishlistRow>, userId: Id, productId: Id): seq<WishlistRow> {
    Filter(table, (row: WishlistRow) => Saves(row, userId, productId))
  }

  /** The product is on the user's list. */
  predicate Present(table: seq<WishlistRow>, userId: Id, productId: Id) {
    exists row :: row in table && Saves(row, userId, productId)
  }

  /** Under the unique constraint a (user, product) pair has at most one
      row. */
  lemma {:induction false} AtMostOneMatch(table: seq<WishlistRow>, userId: Id, productId: Id)
    requires UniquePairs(table)
    ensures |Matching(table, userId, productId)| <= 1
    ensures |Matching(table, userId, productId)| == 1 <==> Present(table, userId, productId)
  {
    if table != [] {
      var rest := table[1..];
      assert UniquePairs(rest) by {
        forall i, j | 0 <= i < j < |rest| ensures !Saves(rest[j], rest[i].userId, rest[i].productId) {
          assert rest[j] == table[j + 1] && rest[i] == table[i + 1];
        }
      }
      AtMostOneMatch(rest, userId, productId);
      if Saves(table[0], userId, productId) {
        forall x | x in rest ensures !Saves(x, userId, productId) {
          var j :| 0 <= j < |rest| && rest[j] == x;
          assert table[j + 1] == x;
        }
        FilterNone(rest, (row: WishlistRow) => Saves(row, userId, productId));
      }
      if Present(rest, userId, productId) {
        var x :| x in rest && Saves(x, userId, productId);
        assert x in table;
      }
      if Present(table, userId, productId) && !Saves(table[0], userId, productId) {
        var x :| x in table && Saves(x, userId, productId);
        assert x in rest;
      }
    } else {
      assert !Present(table, userId, productId);
    }
  }

  // ---------------------------------------------------------------- reads

  /** `getWishlist`: the user's rows, newest first; none when the query
      fails. */
  function GetWishlist(table: seq<WishlistRow>, userId: Id, queryOk: bool): (r: seq<WishlistRow>)
    ensures !queryOk ==> r == []
    ensures queryOk ==> multiset(r) == multiset(Filter(table, (row: WishlistRow) => row.userId == userId))
    ensures forall i, j :: 0 <= i < j < |r| ==> r[i].createdAt >= r[j].createdAt
  {
    if !queryOk then []
    else
      DescendingTotal((row: WishlistRow) => row.createdAt);
      SortBy(Filter(table, (row: WishlistRow) => row.userId == userId), Descending((row: WishlistRow) => row.createdAt))
  }

  /** `isInWishlist`: `maybeSingle` yields the row when there is exactly one,
      null when there is none, and an error (read as false) when there are
      several. */
  function IsInWishlist(table: seq<WishlistRow>, userId: Id, productId: Id, queryOk: bool): (r: bool)
    ensures r <==> queryOk && |Matching(table, userId, productId)| == 1
  {
    queryOk && |Matching(table, userId, productId)| == 1
  }

  /** Under the unique constraint, `isInWishlist` answers whether the product
      is on the list, whenever the query succeeds. */
  lemma IsInWishlistIffPresent(table: seq<WishlistRow>, userId: Id, productId: Id)
    requires UniquePairs(table)
    ensures IsInWishlist(table, userId, productId, true) <==> Present(table, userId, productId)
  {
    AtMostOneMatch(table, userId, productId);
  }

  // ---------------------------------------------------------------- writes

  const AddFailed := "Failed to add to wishlist"
  const RemoveFailed := "Failed to remove from wishlist"
  const ClearFailed := "Failed to clear wishlist"

  /** `addToWishlist`. A pair already saved violates the unique constraint
      (code 23505), and that error is ignored: the list is unchanged and the
      call succeeds. `insertOk` is false when the database refuses the insert
      for any other reason, which is an error whether or not the pair is
      saved. */
  function AddToWishlist(table: seq<WishlistRow>, userId: Id, productId: Id, newId: Id, now: int,
                         insertOk: bool): (r: Step<seq<WishlistRow>, ()>)
    requires UniquePairs(table)
    ensures UniquePairs(r.state)
    ensures r.reply.Ok? <==> insertOk
    ensures r.reply.Err? ==> r.state == table && r.reply.msg == AddFailed
    ensures r.reply.Ok? ==> Present(r.state, userId, productId)
    ensures Present(table, userId, productId) ==> r.state == table
    ensures forall row :: row in table ==> row in r.state
    ensures forall row :: row in r.state && !Saves(row, userId, productId) ==> row in table
  {
    if !insertOk then Step(table, Err(AddFailed))
    else if Present(table, userId, productId) then Step(table, Ok(()))
    else
      var row := WishlistRow(newId, userId, productId, now);
      var after := table + [row];
      assert after[|table|] == row && row in after;
      assert forall i :: 0 <= i < |table| ==> after[i] == table[i] && !Saves(table[i], userId, productId);
      Step(after, Ok(()))
  }

  /** Saving a product twice is saving it once: the second insert leaves
      the list as the first left it, and fails only when the database
      refuses it for a reason other than the duplicate. */
  lemma AddIdempotent(table: seq<WishlistRow>, userId: Id, productId: Id, newId: Id, otherId: Id, now: int, later: int,
                      insertOk: bool)
    requires UniquePairs(table)
    ensures var once := AddToWishlist(table, userId, productId, newId, now, true).state;
      var twice := AddToWishlist(once, userId, productId, otherId, later, insertOk);
      twice.state == once && (twice.reply.Ok? <==> insertOk)
  {
  }

  /** `removeFromWishlist`: delete the user's row for the product. */
  function RemoveFromWishlist(table: seq<WishlistRow>, userId: Id, productId: Id, deleteOk: bool): (r: Step<seq<WishlistRow>, ()>)
    ensures r.reply.Ok? <==> deleteOk
    ensures r.reply.Err? ==> r.state == table && r.reply.msg == RemoveFailed
    ensures r.reply.Ok? ==> forall row :: row in r.state <==> row in table && !Saves(row, userId, productId)
    ensures IsSubsequence(r.state, table)
  {
    SubsequenceRefl(table);
    if deleteOk then
      FilterIsSubsequence(table, (row: WishlistRow) => !Saves(row, userId, productId));
      Step(Filter(table, (row: WishlistRow) => !Saves(row, userId, productId)), Ok(()))
    else Step(table, Err(RemoveFailed))
  }

  /** `clearWishlist`: delete all of the user's rows. */
  function ClearWishlist(table: seq<WishlistRow>, userId: Id, deleteOk: bool): (r: Step<seq<WishlistRow>, ()>)
    ensures r.reply.Ok? <==> deleteOk
    ensures r.reply.Err? ==> r.state == table && r.reply.msg == ClearFailed
    ensures r.reply.Ok? ==> forall row :: row in r.state <==> row in table && row.userId != userId
  {
    if deleteOk then Step(Filter(table, (row: WishlistRow) => row.userId != userId), Ok(()))
    else Step(table, Err(ClearFailed))
  }

  /** A product added is reported as saved; once removed it is not. */
  lemma AddThenRemove(table: seq<WishlistRow>, userId: Id, productId: Id, newId: Id, now: int)
    requires UniquePairs(table)
    ensures var added := AddToWishlist(table, userId, productId, newId, now, true).state;
      && IsInWishlist(added, userId, productId, true)
      && !IsInWishlist(RemoveFromWishlist(added, userId, productId, true).state, userId, productId, true)
  {
    var added := AddToWishlist(table, userId, productId, newId, now, true).state;
    IsInWishlistIffPresent(added, userId, productId);
    var removed := RemoveFromWishlist(added, userId, productId, true).state;
    FilterNone(removed, (row: WishlistRow) => Saves(row, userId, productId));
  }

  /** After clearing, the user's list reads back empty. */
  lemma ClearThenEmpty(table: seq<WishlistRow>, userId: Id)
    ensures GetWishlist(ClearWishlist(table, userId, true).state, userId, true) == []
  {
    var cleared := ClearWishlist(table, userId, true).state;
    FilterNone(cleared, (row: WishlistRow) => row.userId == userId);
  }

  /** Clearing one user's list leaves every other user's list as it was. */
  lemma ClearKeepsOthers(table: seq<WishlistRow>, userId: Id, other: Id)
    requires other != userId
    ensures multiset(GetWishlist(ClearWishlist(table, userId, true).state, other, true))
         == multiset(GetWishlist(table, other, true))
  {
    FilterWeakerFirst(table, (row: WishlistRow) => row.userId != userId, (row: WishlistRow) => row.userId == other);
  }
}
